=== FILE: README.md ===
# Ticket inventory of an event-management backend, in Dafny

This project models the ticket-inventory core of a Node.js event-management
backend and proves properties of that model. The core has five parts:

- **Booking.** Creating and cancelling bookings recounts the event's counters.
- **Waiting list.** Users queue for a sold-out event. Notified entries are
  turned into bookings when seats free up.
- **Event capacity rules.** These cover updates to `totalTickets`, the
  availability query and list pagination.
- **Orders.** Orders attach to bookings.
- **Supporting utilities.** These are the request validators, the error
  classes, the lock, cache and transaction utilities, and the ticket
  controller's decision logic.

The Postgres tables are replaced by a `Store.Database` object. It holds one
sequence of rows per table (`events`, `bookings`, `waitingList`, `orders`).
The repository modules read and write those sequences:

- `create` refuses a row that breaks a CHECK constraint, a unique key or a
  foreign key, the way the database would.
- A versioned `update` is a compare-and-swap: it writes only when the stored
  version equals the expected one, and then increments the version.
- Cascading deletes remove the dependent bookings, waiting-list entries and
  orders.

Each asynchronous service runs as one sequential step. Wherever the source
reads the clock, generates a uuid or builds an order number, the model takes
`now`, an id or a number as a parameter.

The central invariant is `Inventory.Consistent`. It holds when, for every
event:

- `bookedTickets` is the sum of the tickets of its pending and confirmed
  bookings;
- `availableTickets = max(0, totalTickets − bookedTickets)`;
- that sum never exceeds `totalTickets` (no oversell).

Every service that writes bookings or events is proved to preserve
`Consistent`. Every service that writes the waiting list is proved to
preserve `WaitingListService.OnePendingPerUser`: a user has at most one
pending entry per event. For `EventService.DeleteEvent`, whose contract
gives the waiting list as the cascade's result, this is
`WaitingListService.WithoutEventKeepsOnePending`. `Inventory.Schema` holds the table constraints, and
`StoreOk` is proved to hold after every operation.

Layout:

- one module per source file (`booking_service.dfy` for
  `src/services/booking.service.js`, and so on);
- a few foundation modules:
  - `wrappers` for `Option` and `Outcome`;
  - `numbers`;
  - `strings`, for JavaScript `trim`, `includes` and `parseInt`;
  - `patterns`, for the e-mail and phone regular expressions;
  - `js`, for the `||` and `??` defaults and JavaScript values;
  - `constants`, for the status enumerations;
- `store`, `inventory` and `validation`. `validation` holds the push-in-order
  error list that every request validator shares.

## Model

| member | source | states |
|---|---|---|
| CustomErrors.NewAppError | src/utils/custom-errors.util.js:1-9 | an AppError keeps its message, with status code defaulting to 500 and isOperational to true |
| CustomErrors.NewValidationError | src/utils/custom-errors.util.js:11-17 | status 400, operational, errors list defaulting to empty |
| CustomErrors.NewNotFoundError | src/utils/custom-errors.util.js:19-27 | status 404; message "R with id I not found" when an id is given, "R not found" otherwise |
| CustomErrors.NewConflictError | src/utils/custom-errors.util.js:29-34 | status 409, operational, the given message |
| CustomErrors.NewUnauthorizedError | src/utils/custom-errors.util.js:36-41 | status 401, default message "Unauthorized" |
| CustomErrors.NewForbiddenError | src/utils/custom-errors.util.js:43-48 | status 403, default message "Forbidden" |
| CustomErrors.NewDatabaseError | src/utils/custom-errors.util.js:50-58 | message prefixed "Database error: ", status 500, not operational; the cause is kept only when the original is an Error instance |
| CustomErrors.NewConcurrencyError | src/utils/custom-errors.util.js:60-65 | status 409, default message "Resource was modified by another operation" |
| CustomErrors.RethrowOrWrap | src/services/booking.service.js:80-89 | the services' catch blocks: a passed-through error class is rethrown unchanged; anything else becomes DatabaseError(message) with the original as cause |
| Strings.Trim | src/model/request/event/create-event.request.js:11 | `String.prototype.trim`: the result is the input with leading and trailing whitespace removed and neither end is whitespace |
| Strings.Utf16Length | src/model/request/event/create-event.request.js:15 | JavaScript's `.length`: between the number of characters and twice it, zero only for the empty string, and equal to the character count exactly when no character lies outside the Basic Multilingual Plane |
| Strings.ParseIntOfIntToString | src/utils/pagination.util.js:4 | `parseInt(s, 10)` reads back every integer written in decimal |
| Patterns.PhoneShape | src/model/request/user/register.request.js:28 | a string the phone pattern accepts has 2 to 16 characters and no whitespace |
| Patterns.EmailHasOneAt | src/model/request/user/register.request.js:14 | a string the e-mail pattern accepts has exactly one '@', not at the start or end |
| EventEntity.FromData | src/model/entity/event.entity.js:2-12 | constructor defaults: id/name default to '' and totals to 0 via `\|\|`; availableTickets falls back to totalTickets only when absent; version defaults to 0 via `??`; timestamps default to now |
| EventEntity.RowRoundTrip | src/repositories/event.repository.js:180-192 | reading a stored event row back through the constructor gives the same record |
| EventEntity.WithAvailableRecomputed | src/model/entity/event.entity.js:36-38 | availableTickets becomes max(0, total − booked); no other field changes |
| EventEntity.SoldOutIff | src/services/event.service.js:235-236 | recomputed availability is 0 exactly when booked ≥ total |
| EventEntity.Event.constructor | src/model/entity/event.entity.js:2-12 | the new object's toJSON is the defaulted record |
| EventEntity.Event.SetVersion | src/model/entity/event.entity.js:14-20 | getVersion returns the value set; nothing else changes |
| EventEntity.Event.UpdateAvailableTickets | src/model/entity/event.entity.js:36-38 | the object's fields become WithAvailableRecomputed of the old ones |
| BookingEntity.FromData | src/model/entity/booking.entity.js:4-13 | ids default to '', tickets to 0, status to pending, version to 0 (an explicit 0 kept), timestamps to now |
| BookingEntity.RowRoundTrip | src/repositories/booking.repository.js:148-159 | reading a stored booking row back gives the same record |
| BookingEntity.Booking.constructor | src/model/entity/booking.entity.js:4-13 | toJSON of the new object is the defaulted record |
| BookingEntity.Booking.SetVersion | src/model/entity/booking.entity.js:15-21 | getVersion returns the value set; nothing else changes |
| WaitingListEntity.FromData | src/model/entity/waiting-list.entity.js:4-16 | priority and version default to 0 via `??`; status defaults to pending; notifiedAt and fulfilledAt are copied as given |
| WaitingListEntity.RowRoundTrip | src/repositories/waiting-list.repository.js:179-193 | reading a stored entry back gives the same record |
| WaitingListEntity.WaitingList.constructor | src/model/entity/waiting-list.entity.js:4-16 | toJSON of the new object is the defaulted record |
| WaitingListEntity.WaitingList.SetVersion | src/model/entity/waiting-list.entity.js:18-24 | getVersion returns the value set; nothing else changes |
| OrderEntity.FromData | src/model/entity/order.entity.js:4-26 | currency defaults to 'NGN'; status and paymentStatus kept when given and pending otherwise; version defaults to 0; optional fields are copied |
| OrderEntity.RowRoundTrip | src/repositories/order.repository.js:273-297 | reading a stored order back gives the same record, with an empty currency replaced by 'NGN' |
| OrderEntity.AsPaid | src/model/entity/order.entity.js:36-44 | status paid, paymentStatus completed, paidAt = updatedAt = now; the transaction id changes only when a non-empty one is given; every other field is kept |
| OrderEntity.AsCancelled | src/model/entity/order.entity.js:46-51 | status cancelled, cancelledAt = now; paymentStatus becomes refunded exactly when it was completed, otherwise failed; every other field is kept |
| OrderEntity.Order.constructor | src/model/entity/order.entity.js:4-26 | toJSON of the new object is the defaulted record |
| OrderEntity.Order.SetVersion | src/model/entity/order.entity.js:28-34 | getVersion returns the value set; nothing else changes |
| OrderEntity.Order.MarkAsPaid | src/model/entity/order.entity.js:36-44 | the object's fields become AsPaid of the old ones |
| OrderEntity.Order.MarkAsCancelled | src/model/entity/order.entity.js:46-51 | the object's fields become AsCancelled of the old ones |
| Pagination.PageOf | src/utils/pagination.util.js:3-5 | a given page parses to max(1, parseInt(page)), so it is at least 1; NaN stays absent |
| Pagination.LimitOf | src/utils/pagination.util.js:6-8 | a given limit is clamped to 1..100 and kept as is inside that range |
| Pagination.ParseParams | src/utils/pagination.util.js:2-16 | page defaults to 1 and limit to 10; page ≥ 1 and 1 ≤ limit ≤ 100; sortBy defaults to 'createdAt'; sortOrder is 'asc' exactly when 'asc' was asked, otherwise 'desc' |
| Pagination.ParsePageOfDecimal | src/utils/pagination.util.js:3-5 | for any integer n written in decimal, the parsed page is max(1, n) |
| Pagination.ParseLimitOfDecimal | src/utils/pagination.util.js:6-8 | for any integer n written in decimal, the parsed limit is min(100, max(1, n)) |
| Pagination.CalculateOffset | src/utils/pagination.util.js:18-20 | offset + limit = page × limit; it is non-negative for page ≥ 1 |
| Pagination.RowOnPage | src/utils/pagination.util.js:18-20 | row i lies in page p's window exactly when p = i / limit + 1, so the pages partition the rows |
| Pagination.CreateResponse | src/utils/pagination.util.js:22-37 | only an absent page or limit defaults to 1 or 10, a NaN one stays NaN; totalPages is the ceiling of total/limit and is not a number for a NaN or zero limit; hasNext ⇔ page × limit < total for a positive limit, ⇔ rows exist for a zero limit, and false when page or limit is NaN; hasPrev ⇔ page is a number > 1 |
| Pagination.HasNextIff | src/utils/pagination.util.js:24-33 | page < ceil(total/limit) ⇔ page × limit < total |
| Pagination.ValidateSortField | src/utils/pagination.util.js:39-41 | true exactly when the field is in the allowed list |
| BookingRepository.FindById | src/repositories/booking.repository.js:44-55 | a row with that id when one exists, absent otherwise |
| BookingRepository.TotalBookedNonNegative | src/repositories/booking.repository.js:134-146 | the active-ticket sum of rows meeting the CHECK constraints is never negative |
| BookingRepository.TotalBookedAppend | src/repositories/booking.repository.js:134-146 | appending a booking adds its tickets to its event's sum exactly when it is pending or confirmed |
| BookingRepository.TotalBookedReplace | src/repositories/booking.repository.js:134-146 | replacing a row changes the sum by the new row's active tickets minus the old row's |
| BookingRepository.WithoutEvent | migrations/004_create_bookings_table.js:7 | the cascade keeps exactly the bookings of other events |
| BookingRepository.TotalBookedWithoutOther | migrations/004_create_bookings_table.js:7 | cascading another event's delete leaves an event's active sum unchanged |
| BookingRepository.Create | src/repositories/booking.repository.js:11-42 | insertion succeeds exactly when the id is new, the event exists, the ticket count is positive and the user id fits `VARCHAR(255)` (migration 004, lines 8-9); the stored row has version 0; a failure leaves the table unchanged |
| BookingRepository.Written | src/repositories/booking.repository.js:80-124 | an update writes status, numberOfTickets and updatedAt, increments the version and keeps ids and createdAt |
| BookingRepository.Update | src/repositories/booking.repository.js:80-124 | compare-and-swap: a mismatch or a missing row with a version supplied gives plain Error('ConcurrencyError') and changes nothing; a non-positive ticket count is refused by the CHECK and changes nothing; otherwise the row is rewritten in place |
| WaitingListRepository.FindById | src/repositories/waiting-list.repository.js:49-60 | a row with that id when one exists, absent otherwise |
| WaitingListRepository.OfEvent | src/repositories/waiting-list.repository.js:62-88 | the WHERE clause: exactly the rows of the event, and of the status when one is given |
| WaitingListRepository.Sort | src/repositories/waiting-list.repository.js:62-88 | ORDER BY priority DESC, created_at ASC: the result is ordered and a permutation of the input |
| WaitingListRepository.FindByEventId | src/repositories/waiting-list.repository.js:62-88 | the event's rows (of the status, when given) in queue order, each row once |
| WaitingListRepository.FindByEventIdUnique | src/repositories/waiting-list.repository.js:62-88 | the query result never repeats an id |
| WaitingListRepository.GetNextPendingEntry | src/repositories/waiting-list.repository.js:90-108 | absent exactly when the event has no pending entry; otherwise a pending entry of the event that no other pending entry precedes in queue order |
| WaitingListRepository.MaxPriority | src/repositories/waiting-list.repository.js:168-177 | the largest priority among the event's entries of any status, absent when there are none |
| WaitingListRepository.GetNextPriority | src/repositories/waiting-list.repository.js:168-177 | greater than every priority of the event; 1 when the event has no entries, otherwise max + 1 |
| WaitingListRepository.WithoutEvent | migrations/005_create_waiting_list_table.js:10 | the cascade keeps exactly the entries of other events |
| WaitingListRepository.Create | src/repositories/waiting-list.repository.js:10-47 | insertion succeeds exactly when the id is new, the event exists, the ticket count is positive and the user id fits `VARCHAR(255)` (migration 005, lines 11-12); a failure leaves the table unchanged |
| WaitingListRepository.Written | src/repositories/waiting-list.repository.js:110-158 | an update writes only status, priority, notifiedAt, fulfilledAt and updatedAt, and increments the version |
| WaitingListRepository.Update | src/repositories/waiting-list.repository.js:110-158 | compare-and-swap, with plain Error('ConcurrencyError') on a mismatch and no change on failure |
| WaitingListRepository.Delete | src/repositories/waiting-list.repository.js:160-166 | true exactly when a row with the id existed; that row alone is removed |
| WaitingListRepository.OfEventOnce | src/repositories/waiting-list.repository.js:62-88 | with unique ids, the WHERE clause selects each row at most once |
| OrderRepository.FindById | src/repositories/order.repository.js:68-79 | a row with that id when one exists, absent otherwise |
| OrderRepository.FindByBookingId | src/repositories/order.repository.js:144-153 | an order referencing the booking when one exists, absent otherwise |
| OrderRepository.Stored | src/repositories/order.repository.js:28-34 | empty optional strings are stored as NULL; every other field is kept |
| OrderRepository.Create | src/repositories/order.repository.js:9-66 | insertion succeeds exactly when the id and order number are new, every VARCHAR value fits its column (migration 006, lines 10-22), the amount is non-negative and the event and booking exist; a failure leaves the table unchanged |
| OrderRepository.Written | src/repositories/order.repository.js:155-223 | an update writes status, payment status, the payment and customer fields, billing address, notes and the timestamps, storing an empty string as NULL; it increments the version and keeps the ids, number, amount, currency and createdAt |
| OrderRepository.Update | src/repositories/order.repository.js:155-223 | a missing row or a version mismatch fails with "Order not found or version mismatch"; a written value too long for its VARCHAR column fails as a constraint violation; both change nothing; otherwise the row is rewritten in place |
| OrderRepository.WithoutEvent | migrations/006_create_orders_table.js:11-12 | the cascade keeps exactly the orders of neither the deleted event nor its deleted bookings |
| EventRepository.FindById | src/repositories/event.repository.js:64-75 | a row with that id when one exists, absent otherwise |
| EventRepository.Stored | src/repositories/event.repository.js:29-62 | the stored row has version 0 and an empty description becomes NULL; nothing else changes |
| EventRepository.Create | src/repositories/event.repository.js:29-62 | insertion succeeds exactly when the id is new and the CHECK constraints hold; a failure leaves the table unchanged |
| EventRepository.Written | src/repositories/event.repository.js:118-170 | an update writes name, description, the three counters and updatedAt, increments the version and keeps id and createdAt |
| EventRepository.Update | src/repositories/event.repository.js:118-170 | compare-and-swap with plain Error('ConcurrencyError') on a mismatch; a violated CHECK fails; no change on failure |
| EventRepository.Delete | src/repositories/event.repository.js:172-178 | true exactly when the event existed; it and, by cascade, its bookings, waiting-list entries and orders are removed, and nothing else |
| EventRepository.DeleteLeavesOthers | src/repositories/event.repository.js:172-178 | after deletion the id is gone, ids stay unique and every other event is kept |
| EventRepository.MapFieldToColumn | src/repositories/event.repository.js:21-27 | known fields map to their column; a name inherited from Object.prototype yields that inherited member; any other name maps to 'created_at'; only the inherited case gives something that is not a column |
| EventRepository.FindAllQuery | src/repositories/event.repository.js:88-116 | the list query: offset and limit from the page (defaults 1 and 10), the mapped sort field, which is a real column unless it is an Object.prototype name, ascending only when 'asc' was asked |
| EventRepository.ListStatement | src/repositories/event.repository.js:102-110 | the SELECT fails to parse exactly when the sort field is an Object.prototype name; otherwise it orders by a real column |
| LockUtil.LastAttempt | src/utils/lock.util.js:58-73 | the polling loop's last attempt: a multiple of the retry interval strictly inside maxWait, with the next one past it |
| LockUtil.LockTimeout | src/utils/lock.util.js:75 | the error is a plain Error "Failed to acquire lock for key: K" |
| LockUtil.Unexpired | src/utils/lock.util.js:78-85 | exactly the entries with now < expiresAt are kept, unchanged |
| LockUtil.LockTable.constructor | src/utils/lock.util.js:2 | the lock map starts empty |
| LockUtil.LockTable.Acquire | src/utils/lock.util.js:5-20 | succeeds exactly when the key is free or expired, then stores expiry now + timeout and the given or generated holder; otherwise nothing changes |
| LockUtil.LockTable.Release | src/utils/lock.util.js:22-34 | removes the lock exactly when it exists and no holder, or the same holder, is given; a different holder's lock is kept |
| LockUtil.LockTable.IsLocked | src/utils/lock.util.js:36-49 | locked exactly when an unexpired entry exists; an expired entry is deleted when inspected |
| LockUtil.LockTable.Cleanup | src/utils/lock.util.js:78-85 | the map becomes its unexpired entries |
| LockUtil.LockTable.Poll | src/utils/lock.util.js:58-73 | the acquisition loop: acquires exactly when the key is free by the last attempt before maxWait, and then at the first attempt time at which it is free; otherwise leaves the map unchanged |
| LockUtil.LockTable.WithLock | src/utils/lock.util.js:51-76 | the operation runs once, at the acquiring attempt, and its lock is released afterwards; if the lock is never free it does not run and the lock-timeout error is returned |
| CacheUtil.Pruned | src/utils/cache.util.js:15-28 | an expired key is dropped; a live or absent key leaves the map unchanged |
| CacheUtil.TrailingStarMatchesContaining | src/utils/cache.util.js:52-64 | with the first '*' turned into '.*' and unanchored matching, the pattern "P*" matches exactly the keys containing P |
| CacheUtil.Unmatched | src/utils/cache.util.js:52-64 | exactly the entries whose key does not match the pattern are kept |
| CacheUtil.Unexpired | src/utils/cache.util.js:66-73 | exactly the live entries are kept |
| CacheUtil.Cache.constructor | src/utils/cache.util.js:2 | the cache starts empty |
| CacheUtil.Cache.Set | src/utils/cache.util.js:5-13 | stores the value with expiry now + (ttl, default 300000), replacing any earlier entry |
| CacheUtil.Cache.Get | src/utils/cache.util.js:15-28 | returns the value exactly while now ≤ expiresAt; an expired entry is deleted |
| CacheUtil.Cache.Delete | src/utils/cache.util.js:30-32 | true exactly when the key was present; the key is absent afterwards |
| CacheUtil.Cache.Clear | src/utils/cache.util.js:34-36 | the cache becomes empty |
| CacheUtil.Cache.Has | src/utils/cache.util.js:38-50 | agrees with Get on liveness and prunes in the same way |
| CacheUtil.Cache.InvalidatePattern | src/utils/cache.util.js:52-64 | deletes exactly the matching keys and returns how many it deleted |
| CacheUtil.Cache.Cleanup | src/utils/cache.util.js:66-73 | the cache becomes its live entries |
| TransactionUtil.WithRetry | src/utils/transaction.util.js:27-54 | calls the operation between 1 and maxRetries times; it stops at the first success, the first non-retryable error or attempt maxRetries; the earlier calls all failed retryably; it records waits of delayMs × k |
| TransactionUtil.RetryOfConstant | src/utils/transaction.util.js:30-43 | for an operation that always gives the same outcome, retrying returns that outcome, after one call unless the error is retryable, else after maxRetries calls |
| TransactionUtil.PooledClient.constructor | src/utils/transaction.util.js:6 | a client taken from the pool has an empty statement log and is not released |
| TransactionUtil.PooledClient.Query | src/utils/transaction.util.js:5-25 | the statement is appended to the client's log |
| TransactionUtil.PooledClient.Release | src/utils/transaction.util.js:5-25 | the client is marked released |
| TransactionUtil.Execute | src/utils/transaction.util.js:5-25 | returns the callback's outcome after BEGIN then COMMIT on success, or ROLLBACK on failure, and releases the client on both paths |
| Inventory.Recounted | src/services/booking.service.js:59-67 | the recount sets bookedTickets to the active sum and availableTickets to max(0, total − booked), stamps updatedAt and changes nothing else |
| Inventory.Rewritten | src/services/booking.service.js:59-69 | after the versioned write the event is counted against the bookings, its version is one higher and its identity and capacity are kept |
| Inventory.RewrittenRowOk | migrations/003_create_events_table.js:9-11 | a recounted event of a valid table still meets the events CHECK constraints |
| Inventory.RecountKeepsConsistent | src/services/booking.service.js:59-69 | recounting the one event whose bookings changed, within capacity, keeps the inventory consistent |
| Inventory.UnreferencedBookedNone | src/repositories/booking.repository.js:134-146 | an event no booking references has active sum 0 |
| Inventory.AddEventKeepsInventory | src/services/event.service.js:24-36 | inserting a fresh event with no bookings keeps the schema and the inventory consistent |
| Inventory.DeleteKeepsInventory | src/repositories/event.repository.js:172-178 | deleting an event with its cascaded rows keeps the schema and the inventory consistent |
| EventService.CreateEvent | src/services/event.service.js:22-45 | stores the new event exactly when it meets the constraints; otherwise returns DatabaseError('Failed to create event') and changes nothing; the inventory stays consistent |
| EventService.CapacityError | src/services/event.service.js:128-147 | no error exactly when 0 ≤ new total, booked ≤ new total and new total ≤ 1,000,000; a total below 0, below booked and above 1,000,000 each give their own message, checked in that order |
| EventService.Edited | src/services/event.service.js:122-159 | name and description change only when given; the total is old + delta; availability is max(0, total − booked); ids, booked count and version are kept |
| EventService.UpdateKeepsInventory | src/services/event.service.js:149-159 | an accepted capacity change keeps the inventory consistent |
| EventService.UpdatedRowOk | migrations/003_create_events_table.js:7-11 | the edited row meets the CHECK constraints exactly when its total stays positive and its name fits 200 characters |
| EventService.ApplyUpdate | src/services/event.service.js:122-159 | the in-place edit of the loaded event: a rejected delta gives its ValidationError; otherwise the object becomes Edited |
| EventService.ApplyCapacity | src/services/event.service.js:128-154 | the three bounds in order, giving exactly `CapacityError`'s error and leaving the total; on success the total moves by the delta and the available count by the same difference, floored at 0 |
| EventService.EditEvent | src/services/event.service.js:108-162 | the transaction body: not found, then version mismatch (ConcurrencyError), then capacity error, then the versioned write; nothing changes on failure |
| EventService.UpdateHeld | src/services/event.service.js:107-177 | the locked body: the same cases, with a violated constraint wrapped as DatabaseError('Failed to update event'); the inventory stays consistent |
| EventService.UpdateEvent | src/services/event.service.js:101-183 | under lock `event:update:{id}` (timeout 30000, wait 5000, interval 100): the lock-timeout error when the lock stays busy, else the update's answer; the lock is released |
| EventService.UpdateLocked | src/services/event.service.js:104-182 | from the moment the lock is held: the locked body's answers and table, then the lock `event:update:{id}` is released |
| EventService.DeleteEvent | src/services/event.service.js:185-215 | under lock `event:delete:{id}`: false and no change for a missing event; otherwise the event, its bookings, its waiting-list entries and the orders of the event or its bookings are gone; the inventory stays consistent |
| EventService.DeleteHeld | src/services/event.service.js:191-206 | the locked body: true exactly when the event existed, and then the event and its cascaded rows are removed; nothing changes otherwise |
| EventService.GetAvailableTickets | src/services/event.service.js:217-256 | NotFoundError for a missing event; otherwise booked is the active sum, available is max(0, total − booked) and isSoldOut ⇔ booked ≥ total |
| EventService.AvailabilityMatchesCounters | src/services/event.service.js:226-236 | on a consistent store the query agrees with the event's stored counters, and sold out means booked = total |
| EventService.ListPagination | src/services/event.service.js:80-91 | page and limit fall back to 1 and 10 when missing, zero or NaN; totalPages is the ceiling of total/limit; hasNext ⇔ page < totalPages; hasPrev ⇔ page > 1 |
| EventService.ListPaginationMatchesCreateResponse | src/services/event.service.js:80-91 | when the parsed page and limit are numbers, the list block gives the same pagination as the shared createResponse; always, hasNext ⇔ rows remain after the page |
| EventService.ListPaginationDivergesOnNaN | src/utils/pagination.util.js:22-37 | a parsed page or limit that is NaN: the list block falls back to 1 or 10, while createResponse keeps NaN, has no next page and, for a NaN limit, no page count |
| EventService.GetAllEvents | src/services/event.service.js:76-98 | a sort field inherited from Object.prototype fails as DatabaseError('Failed to fetch events'); any other query yields the list's pagination block |
| OrderService.CreateOrder | src/services/order.service.js:20-75 | NotFoundError for a missing booking; ConflictError when an order already references it; otherwise the order is stored, or DatabaseError when a column limit or other constraint refuses the row; one order per booking is kept |
| OrderService.OrderEdited | src/services/order.service.js:116-139 | every field given in the data (status, payment and customer fields, billing address, notes) is overwritten and the rest kept; updatedAt = now; paidAt and cancelledAt never change |
| OrderService.ApplyPaymentFields | src/services/order.service.js:116-122 | status, paymentStatus, paymentMethod and transaction id are overwritten only when given |
| OrderService.ApplyCustomerFields | src/services/order.service.js:123-131 | the customer and notes fields are overwritten only when given |
| OrderService.StampUpdate | src/services/order.service.js:133-139 | after the field merge only the last branch can run, and it stamps updatedAt |
| OrderService.ApplyOrderUpdate | src/services/order.service.js:116-139 | the loaded order becomes OrderEdited of its old fields |
| OrderService.UpdateOrder | src/services/order.service.js:107-159 | NotFoundError for a missing order; otherwise the edited order is written back, or DatabaseError "Failed to update order" with nothing changed when an edited value is too long for its column; one order per booking is kept |
| OrderService.UpdateOrderNeverMarksPaid | src/services/order.service.js:116-134 | an update to status paid leaves paidAt unset and differs from markAsPaid |
| OrderService.UpdateOrderNeverMarksCancelled | src/services/order.service.js:116-137 | an update to status cancelled leaves cancelledAt unset and paymentStatus unchanged, unlike markAsCancelled |
| WaitingListService.DemoteKeepsOnePending | src/services/waiting-list.service.js:117-126 | rewriting an entry to a non-pending status keeps one pending entry per user and event |
| WaitingListService.FindPendingOf | src/services/waiting-list.service.js:36-38 | finds a pending entry of the user exactly when one exists |
| WaitingListService.FindPendingOfIsQueued | src/services/waiting-list.service.js:31-44 | searching the event's list finds the user exactly when the user has a pending entry for the event |
| WaitingListService.NextPriorityServedFirst | src/services/waiting-list.service.js:46-60 | an entry with the next priority precedes every existing entry of the event in queue order |
| WaitingListService.AdmitKeepsOnePending | src/services/waiting-list.service.js:40-62 | admitting a user who has no pending entry keeps one pending entry per user and event |
| WaitingListService.WithoutEventKeepsOnePending | migrations/005_create_waiting_list_table.js:10 | the cascade of a deleted event keeps one pending entry per user and event |
| WaitingListService.Admit | src/services/waiting-list.service.js:46-69 | inserts the pending entry with the next priority when the count is positive and the user id fits `VARCHAR(255)`; otherwise the insert is refused as a constraint violation and nothing changes |
| WaitingListService.AddToWaitingList | src/services/waiting-list.service.js:23-77 | NotFoundError for a missing event; ConflictError exactly when the user already has a pending entry; otherwise the new entry is appended when the count is positive and the user id fits its column, and DatabaseError is thrown with nothing changed when not; one pending entry per user is kept |
| WaitingListService.NotifiedCount | src/services/waiting-list.service.js:110-129 | the length of the notified prefix of the pending queue, never more than its length |
| WaitingListService.NotifiedPrefixFits | src/services/waiting-list.service.js:113-128 | the notified entries' tickets fit in the available tickets |
| WaitingListService.NotifiedStopsAtFirstMisfit | src/services/waiting-list.service.js:113-116 | the scan stops at the first entry that does not fit the remaining tickets, even if a later one would |
| WaitingListService.NothingNotifiedWithoutTickets | src/services/waiting-list.service.js:94-97 | with no available tickets nobody is notified |
| WaitingListService.NotifyEntry | src/services/waiting-list.service.js:118-126 | the stored entry is rewritten as notified and every other row is kept |
| WaitingListService.NotifyFitting | src/services/waiting-list.service.js:110-134 | exactly the notified prefix is rewritten as notified; all other rows are kept |
| WaitingListService.ProcessWaitingList | src/services/waiting-list.service.js:79-146 | a missing event gives DatabaseError wrapping NotFoundError; no tickets or no pending entries gives 0 and no change; otherwise the prefix of the queue that fits is notified and its length returned |
| WaitingListService.CancelWaitingListEntry | src/services/waiting-list.service.js:188-221 | NotFoundError for a missing entry; ConflictError for a cancelled one; any other status, fulfilled included, becomes cancelled |
| BookingService.NotEnoughMentionsAvailable | src/services/booking.service.js:40-43 | the capacity-conflict message contains "available", which the controller's fallback tests for |
| BookingService.RecountEvent | src/services/booking.service.js:59-69 | the event row becomes the recounted, version-incremented row |
| BookingService.InsertAndRecount | src/services/booking.service.js:57-69 | appends the booking and recounts the event (the reasoning is `BookingService.AppendAndRecountKeeps`) |
| BookingService.AppendAndRecountKeeps | src/services/booking.service.js:57-69 | appending a booking that fits the capacity and recounting its event keeps the table constraints and the inventory consistent, and keeps the active sum within capacity |
| BookingService.Book | src/services/booking.service.js:46-69 | a positive count with a user id that fits its column inserts a confirmed booking and recounts the event within capacity; otherwise the insert is refused as a constraint violation and nothing changes |
| BookingService.CreateAttempt | src/services/booking.service.js:25-69 | one attempt of the transaction: NotFoundError, then ConflictError when available < requested, then the insert with its constraint check; nothing changes on failure |
| BookingService.CreateBooking | src/services/booking.service.js:23-90 | NotFoundError for a missing event; ConflictError "Not enough tickets available…" exactly when available < requested; a non-positive count or an over-long user id gives DatabaseError "Failed to create booking"; otherwise one confirmed booking is added and the event recounted; no oversell and a consistent inventory |
| BookingService.CancelAndRecount | src/services/booking.service.js:159-178 | the booking is rewritten as cancelled and its event recounted; the inventory stays consistent |
| BookingService.CancelHeld | src/services/booking.service.js:136-207 | the locked body: NotFoundError, then ConflictError for an already cancelled booking, otherwise the booking is written cancelled with its version bumped and its event recounted; nothing changes on failure and the inventory stays consistent |
| BookingService.CancelBooking | src/services/booking.service.js:132-213 | under lock `booking:cancel:{id}`: LockTimeout with nothing changed when the lock stays taken; otherwise NotFoundError, then ConflictError for an already cancelled booking, otherwise cancelled and recounted, and the lock released; nothing changes on failure |
| BookingService.SettleEntry | src/services/booking.service.js:293-325 | after a booking the entry is fulfilled; after a ConflictError it is reset to pending; after any other error it is left as it was; every other row stays, the length is kept, and except after a ConflictError one pending entry per user is kept |
| BookingService.FulfillEntry | src/services/booking.service.js:264-299 | an entry wanting more than total − active is skipped with nothing changed; otherwise a booking is made for its user and the entry is fulfilled; every other row stays, the length and one pending entry per user are kept |
| BookingService.AutoFulfillWaitingList | src/services/booking.service.js:238-336 | every notified entry, in queue order, is skipped or fulfilled; every other waiting-list row stays and the length and one pending entry per user are kept; the bookings made are appended in that order; the inventory stays consistent |
| BookingService.FulfillNext | src/services/booking.service.js:262-327 | one loop round keeps the loop's invariant `Progress` and settles one more entry |
| BookingService.ProgressStep | src/services/booking.service.js:262-327 | an entry settled as `FulfillEntry` promises keeps the walk's invariant: bookings appended in order under unused ids, other rows kept, length and one pending entry per user kept |
| BookingService.ProcessWaitingListAfterCancellation | src/services/booking.service.js:215-236 | a missing event surfaces as DatabaseError with nothing changed; when nobody is notified nothing is walked; otherwise every entry notified before or by the scan is settled as fulfilled or skipped, every other row stays, and the length, one pending entry per user and a consistent inventory are kept |
| BookingService.WalkNotified | src/services/booking.service.js:226-231 | the fulfilment after the notify step: the event's notified queue, which holds every entry notified before and by the scan, is settled and every other row stays |
| BookingService.QueueSettledAfter | src/services/booking.service.js:215-236 | the scan followed by the walk settles every entry notified before or by the scan and keeps every other row |
| Validation.FailedSpec | src/model/request/event/create-event.request.js:9-37 | the collected errors come in check order, and a check's message is present exactly when that check failed |
| Validation.MissingOrBlankIff | src/model/request/event/create-event.request.js:11 | `!x \|\| x.trim().length === 0` holds exactly for a missing value or one that trims to nothing |
| CreateEventRequest.Validate | src/model/request/event/create-event.request.js:8-39 | returns the failed checks' messages in order, lengths in UTF-16 code units, as `.length` counts them; isValid ⇔ no errors |
| CreateEventRequest.ValidateMeaning | src/model/request/event/create-event.request.js:11-33 | each message appears exactly when its rule fails: blank name, name over 200 UTF-16 code units, tickets ≤ 0 or missing, non-integer, over 1,000,000, description over 1000 code units |
| CreateEventRequest.ValidIff | src/model/request/event/create-event.request.js:8-39 | valid ⇔ non-blank name of at most 200 UTF-16 code units, integer tickets in 1..1,000,000, description of at most 1000 code units |
| UpdateEventRequest.Validate | src/model/request/event/update-event.request.js:8-36 | returns the failed checks' messages in order, lengths in UTF-16 code units, as `.length` counts them; isValid ⇔ no errors |
| UpdateEventRequest.ValidateMeaning | src/model/request/event/update-event.request.js:11-30 | a present blank name, a name over 200 UTF-16 code units, a non-integer total and a description over 1000 code units each give their message, independently |
| UpdateEventRequest.ValidIff | src/model/request/event/update-event.request.js:8-36 | any integer total, including 0 and negatives, is accepted; an empty request is valid |
| CreateWaitingListRequest.Validate | src/model/request/waiting-list/create-waiting-list.request.js:8-35 | returns the failed checks' messages in order; isValid ⇔ no errors |
| CreateWaitingListRequest.ValidateMeaning | src/model/request/waiting-list/create-waiting-list.request.js:11-29 | blank event id, blank user id, tickets ≤ 0, non-integer and over 100 each give their message exactly when they fail |
| CreateWaitingListRequest.ValidIff | src/model/request/waiting-list/create-waiting-list.request.js:8-35 | valid ⇔ both ids non-blank and integer tickets in 1..100 |
| CreateOrderRequest.FromBody | src/model/request/order/create-order.request.js:2-14 | currency becomes 'NGN' when missing or empty; the other fields are copied |
| CreateOrderRequest.Validate | src/model/request/order/create-order.request.js:16-51 | returns the failed checks' messages in order, lengths in UTF-16 code units, as `.length` counts them; isValid ⇔ no errors |
| CreateOrderRequest.ValidateMeaning | src/model/request/order/create-order.request.js:19-45 | each of the three blank ids, amount ≤ 0 or missing, amount over 1,000,000, a present e-mail failing the pattern and a currency not 3 UTF-16 code units long gives its message exactly when it fails |
| CreateOrderRequest.ValidIff | src/model/request/order/create-order.request.js:7-51 | valid ⇔ three non-blank ids, 0 < amount ≤ 1,000,000, a well-formed e-mail if any, and a currency of 3 UTF-16 code units; a missing currency never fails |
| UpdateOrderRequest.Validate | src/model/request/order/update-order.request.js:14-25 | returns the failed checks' messages; isValid ⇔ no errors |
| UpdateOrderRequest.ValidateMeaning | src/model/request/order/update-order.request.js:14-25 | at most one error, given exactly when a present e-mail fails the pattern |
| RegisterRequest.Validate | src/model/request/user/register.request.js:9-36 | returns the failed checks' messages in order, lengths in UTF-16 code units, as `.length` counts them; isValid ⇔ no errors |
| RegisterRequest.ValidateMeaning | src/model/request/user/register.request.js:12-30 | a blank e-mail gives only 'Email is required'; a malformed one gives the format error; a missing password gives the required error, one under 8 UTF-16 code units the length error; then the name (over 200 code units) and phone rules |
| RegisterRequest.ShortPhonesAccepted | src/model/request/user/register.request.js:28-30 | '1234567890' and '123' pass the phone rule |
| LoginRequest.Validate | src/model/request/user/login.request.js:7-22 | returns the failed checks' messages in order; isValid ⇔ no errors |
| LoginRequest.ValidateMeaning | src/model/request/user/login.request.js:7-22 | a blank e-mail and a missing or empty password each give their message; a whitespace password passes; both missing gives the two errors, e-mail first |
| TicketController.TrimmedOpt | src/controllers/ticket.controller.js:44 | `description?.trim()`: absent stays absent, present is trimmed |
| TicketController.InitialRow | src/controllers/ticket.controller.js:42-53 | the row created for a trimmed request: available = total, booked 0, version 0 |
| TicketController.CreateTrimmed | src/controllers/ticket.controller.js:42-54 | creates the event and replies 201 with its figures exactly when the name fits the column; otherwise the DatabaseError is thrown and nothing changes |
| TicketController.InitializeEvent | src/controllers/ticket.controller.js:19-55 | a blank name, a non-positive or non-number total and a total over 1,000,000 are refused in that order; otherwise the trimmed event is created exactly when the total is an integer and the trimmed name fits 200 characters, and the DatabaseError is thrown when it is not |
| TicketController.FallBackToWaitingList | src/controllers/ticket.controller.js:111-139 | a capacity conflict mentioning "available" queues the user when the user id fits its column and replies 201 with position = priority; if queueing fails, or for any other error, the original error is thrown |
| TicketController.BookOrQueue | src/controllers/ticket.controller.js:95-140 | a missing event is thrown; a request that fits is booked when the user id fits its column, and DatabaseError is thrown otherwise; one that does not fit queues the user unless already queued or the user id is too long, in which case the conflict is thrown |
| TicketController.AfterRefusal | src/controllers/ticket.controller.js:111-139 | after a refused booking: a capacity conflict queues the user, anything else is thrown with the waiting list unchanged; one pending entry per user is kept |
| TicketController.FallBackAnswers | src/controllers/ticket.controller.js:95-140 | a refused booking followed by the fallback answers as `BookAnswers` says for the missing event, the constraint failure and the capacity conflict |
| TicketController.BookTicket | src/controllers/ticket.controller.js:62-141 | 401 without a user; then the event id and a positive integer count are required; a valid request books or queues as `BookOrQueue` says; the inventory and one pending entry per user are kept |
| TicketController.CancelBooking | src/controllers/ticket.controller.js:144-181 | 401 without a user, then a booking id is required, 404 for a missing booking, 403 for another user's, all with nothing changed; the owner's booking is cancelled under the lock: the row is written cancelled, its event recounted, the lock released and the reply carries the cancelled booking; a lock timeout or an already cancelled booking is thrown with nothing changed |
| TicketController.PendingOnly | src/controllers/ticket.controller.js:203-205 | exactly the pending entries, and a queue-ordered input gives a queue-ordered result |
| TicketController.KeepsQueueOrder | src/controllers/ticket.controller.js:203-205 | the filter's step: keeping the last entry of a queue-ordered list after a selection of the earlier ones keeps queue order |
| TicketController.PendingOnlyCounts | src/controllers/ticket.controller.js:203-205 | the filter keeps every pending entry as often as it occurs and drops the rest |
| TicketController.PendingOfEvent | src/controllers/ticket.controller.js:196-205 | filtering the event's list to pending gives the event's pending entries |
| TicketController.PendingCount | src/controllers/ticket.controller.js:196-205 | waitingListCount is the number of the event's pending entries |
| TicketController.Listed | src/controllers/ticket.controller.js:215-223 | one summary (id, user, tickets, position = priority, createdAt) per entry, in queue order when the entries are |
| TicketController.GetEventStatus | src/controllers/ticket.controller.js:184-225 | a missing id is a validation error; a missing event is NotFoundError; otherwise the event's name and total from its row, booked = the active sum, available = max(0, total − booked), sold out exactly when booked ≥ total, and waitingListCount and the listed entries being exactly the event's pending entries, listed in queue order (priority descending, then created_at ascending) |

## Left out

- Caching inside the services (`CacheUtil.get`/`set`/`delete` around reads and writes) is not modelled. The cache itself is modelled as `CacheUtil.Cache`. The services' invalidation calls have no effect on the tables, except for the throw of `new RegExp` named under `OrderService.CreateOrder` and `OrderService.UpdateOrder` below.
- Logging, the `setInterval` sweeps of the lock and cache maps, and real `setTimeout` waits are not modelled. `TransactionUtil.WithRetry` returns the waits it would make instead of waiting.
- Clocks, uuids, order numbers and lock-holder tokens are parameters (`now`, `bookingId`, `entryId`, `orderNumber`, `holder`).
- `setImmediate` in `cancelBooking` is not modelled as deferred work. The follow-up is the separate operation `BookingService.ProcessWaitingListAfterCancellation`, called explicitly.
- Real concurrency is not modelled: row locks (`FOR UPDATE`, `SKIP LOCKED`) and interleavings between requests. Each service is one atomic step. A failed transaction leaves the tables unchanged.
- Compare-and-swap writes made by a service right after it read the row always succeed in this sequential model. The version-mismatch path is modelled in the repositories only.
- `EventService.UpdateEvent`, `EventService.DeleteEvent`, `BookingService.CancelBooking`: the lock poll is modelled on a discrete clock. Attempt k happens at start + k × interval, and the operation's own duration is not counted against maxWait.
- `BookingService.CancelBooking`: the "event not found" branch is not modelled. The foreign key with `ON DELETE CASCADE` rules it out, so it cannot occur.
- `BookingService.FulfillEntry`: the "event not found, stop the loop" branch is not modelled, for the same foreign-key reason. The booking inside the loop always succeeds once the availability check passed, so FulfillEntry returns only skipped or fulfilled. The error branch of the loop is modelled separately by `BookingService.SettleEntry`.
- `BookingService.AutoFulfillWaitingList`: a skipped entry's stored availability is stated to be too small for the entry, but not tied to the live total at that step. The fulfilled/failed counters are only logged and are not modelled.
- `WaitingListService.ProcessWaitingList`, `WaitingListService.NotifyFitting`, `BookingService.AutoFulfillWaitingList`, `BookingService.ProcessWaitingListAfterCancellation`: the rewritten and kept rows are stated by membership and the table's length, not by position in the table.
- `TicketController.BookOrQueue`: for a booking it states the reply, the appended booking and the untouched waiting list. The event's recount is stated by `BookingService.CreateBooking`, which it calls, and by the preserved `Inventory.Consistent`.
- Reads that only wrap a repository call with caching are not modelled separately: `getEventById`, `getBookingById`, `getBookingsByEventId`, `getWaitingListByEventId`, `getWaitingListById`, `getOrderById`, `getOrdersByUserId`. Their lookups are the repositories' `FindById` and `FindByEventId`.
- The SQL row slice returned by `findAll` is not modelled. Only its query parameters are (`EventRepository.FindAllQuery`), and whether the statement parses (`EventRepository.ListStatement`).
- CacheUtil.Cache.InvalidatePattern: the pattern is matched with only its first `*` as a wildcard and every other character read literally. The source compiles it with `new RegExp`, so `.`, `+`, `(`, `?`, `[` and further `*`s act as regular-expression syntax, and a pattern that is not a valid expression throws. A regular-expression engine is not modelled. For the fixed patterns the services use (`events:*`, `bookings:*`, `orders:*`, `waiting-list:*`) the two agree. In `orders:user:{userId}:*` the user id can bring such characters in.
- CacheUtil.TrailingStarMatchesContaining: for the same reason, its claim that "P*" matches exactly the keys containing P holds for the source only when P contains no regular-expression metacharacter.
- `TransactionUtil.Execute`: the callback is given as its outcome. The services do not call it; their transactions are modelled as atomic steps that change nothing on failure.
- Of the bookings and waiting-list columns a request can fill, only `user_id` is a bounded `VARCHAR(255)`. The `status` columns only ever receive the listed values, so `BookingRepository.RowOk` and `WaitingListRepository.RowOk` check the ticket count and the user id.
- OrderService.CreateOrder: the transaction calls `CacheUtil.invalidatePattern` with `orders:user:{userId}:*`, and the source compiles this with `new RegExp`. A user id holding an unbalanced `(`, `)` or `[` (or anything else that makes the pattern an invalid expression) makes it throw a SyntaxError. The transaction then rolls back and the service throws `DatabaseError('Failed to create order')`. A regular-expression engine is not modelled, so the model stores such an order and answers success.
- OrderService.UpdateOrder: the same call with the stored order's user id can throw and roll the update back. An order stored through `createOrder` never carries such a user id, because its creation would have thrown, so only rows written by other means reach this path. It is not modelled.
- Ids are assumed to be well-formed UUIDs. The id columns are of type `UUID`, and the source does not check an id's format before querying. A malformed id such as `abc` makes Postgres raise `invalid input syntax for type uuid`, which the services wrap as a `DatabaseError` (status 500). The model answers `NotFoundError` (404) for it, like any absent id. Nothing changes in either case; only the error differs.
- `Inventory.Schema` does not include the orders table's foreign keys. `OrderRepository.Create` checks them at insert, and `EventRepository.Delete` removes the orders of a deleted event and of its bookings, but they are not stated as a table invariant.
- Assigning `null` or a non-string value to a request field is not modelled; only absent or present values of the documented types are. JavaScript `typeof` checks are modelled through the `Js.JsValue` datatype in the controller.
- Order amounts are `real` values used only in comparisons. `parseFloat` and `DECIMAL(10, 2)` rounding are not modelled.
- Error objects carry their class, message, status and flags. Stack traces and the `name` property are not modelled.
- A fractional `totalTickets` that passes the controller's checks is refused by the database's INTEGER column. It is modelled as the same wrapped DatabaseError the service returns for any other insert failure.

## Behaviour kept as written

In these places the code behaves differently from what its messages, names or
tests suggest. The model follows the code.

- **Short phone numbers pass.** The phone pattern `^\+?[1-9]\d{1,14}$` accepts 2 to 15 digits. The repository's register tests (tests/unit/models/register.request.test.js) expect '1234567890' and '123' to be refused. `RegisterRequest.ShortPhonesAccepted` proves both pass.
- **A reset entry can be a user's second pending entry.** After a ConflictError, the auto-fulfilment loop writes its entry back to pending. `addToWaitingList` only refuses a user who already has a *pending* entry, so a notified user may have queued again in the meantime. `BookingService.SettleEntry` therefore promises one pending entry per user only outside this path. Inside `autoFulfillWaitingList` the booking always succeeds once the availability check passed, so the path is not reached there.
- **`updateOrder` never marks an order paid or cancelled.** It assigns `status` before testing whether the status changes, so the `markAsPaid`/`markAsCancelled` branches can never run. `OrderService.UpdateOrderNeverMarksPaid` and `OrderService.UpdateOrderNeverMarksCancelled` prove that paidAt and cancelledAt stay unset. `OrderService.StampUpdate` has `assert false` in the two dead branches.
- **`processWaitingList` wraps a missing event's NotFoundError** as `DatabaseError('Failed to process waiting list')`.
- **`cancelWaitingListEntry` cancels a fulfilled entry.** Only an already cancelled entry is refused.
- **Retry waits grow linearly, not exponentially.** The wait before attempt k + 1 is delayMs × k.
- **Repository version mismatches surface as DatabaseError.** They throw a plain `Error('ConcurrencyError')`, which is not an instance of the ConcurrencyError class. The services' pass-through therefore wraps it as DatabaseError.
- **`createResponse` keeps a NaN page or limit.** Its destructuring defaults replace only a missing field. A page or limit that `parseParams` read as NaN therefore stays NaN, with no next page and, for a NaN limit, no page count. The list block of `getAllEvents` uses `||` and falls back to 1 and 10 (`EventService.ListPaginationDivergesOnNaN`).
- **A sort field named after an `Object.prototype` member breaks the list query.** `columnMap[field]` also finds inherited names such as `constructor`, `toString` or `__proto__`. The function or object it finds is pasted into ORDER BY, the statement does not parse, and `getAllEvents` throws `DatabaseError('Failed to fetch events')` (`EventRepository.MapFieldToColumn`, `EventService.GetAllEvents`).
- **An update to a total of 0 fails as a database error.** With no bookings, `updateEvent` to a new total of 0 passes the service's three bounds but violates the `total_tickets > 0` CHECK. It ends as `DatabaseError('Failed to update event')` (`EventService.UpdatedRowOk`).

=== FILE: booking_entity.dfy ===
/** The `Booking` entity: a user's claim on some tickets of one event. */
module BookingEntity {
  import opened Wrappers
  import opened Js
  import Constants

  type BookingStatus = Constants.BookingStatus

  /** The argument of `new Booking(data)`; every field may be missing. */
  datatype BookingData = BookingData(
    id: Option<string>, eventId: Option<string>, userId: Option<string>,
    numberOfTickets: Option<int>, status: Option<BookingStatus>,
    version: Option<int>, createdAt: Option<int>, updatedAt: Option<int>)

  /** The eight fields `toJSON` returns; a row of the bookings table has the same shape. */
  datatype BookingRecord = BookingRecord(
    id: string, eventId: string, userId: string, numberOfTickets: int,
    status: BookingStatus, version: int, createdAt: int, updatedAt: int)

  /**
   * The constructor's defaults: empty ids, no tickets, status pending
   * (`||`), version 0 (`??`, so an explicit 0 is kept), timestamps now.
   */
  function FromData(data: BookingData, now: int): (r: BookingRecord)
    ensures r.id == StrOr(data.id, "") && r.eventId == StrOr(data.eventId, "") && r.userId == StrOr(data.userId, "")
    ensures r.numberOfTickets == NumOr(data.numberOfTickets, 0)
    ensures data.status.None? ==> r.status == Constants.BookingStatus.Pending
    ensures data.status.Some? ==> r.status == data.status.value
    ensures data.version.Some? ==> r.version == data.version.value
    ensures data.version.None? ==> r.version == 0
    ensures r.createdAt == data.createdAt.GetOr(now) && r.updatedAt == data.updatedAt.GetOr(now)
  {
    BookingRecord(StrOr(data.id, ""), StrOr(data.eventId, ""), StrOr(data.userId, ""),
      NumOr(data.numberOfTickets, 0), data.status.GetOr(Constants.BookingStatus.Pending),
      data.version.GetOr(0), data.createdAt.GetOr(now), data.updatedAt.GetOr(now))
  }

  function AsData(r: BookingRecord): BookingData
  {
    BookingData(Some(r.id), Some(r.eventId), Some(r.userId), Some(r.numberOfTickets), Some(r.status),
      Some(r.version), Some(r.createdAt), Some(r.updatedAt))
  }

  /** Reading a row back through the constructor loses nothing. */
  lemma RowRoundTrip(r: BookingRecord, now: int)
    ensures FromData(AsData(r), now) == r
  {
  }

  class Booking {
    var id: string
    var eventId: string
    var userId: string
    var numberOfTickets: int
    var status: BookingStatus
    var version: int
    var createdAt: int
    var updatedAt: int

    function ToJSON(): BookingRecord
      reads this
    {
      BookingRecord(id, eventId, userId, numberOfTickets, status, version, createdAt, updatedAt)
    }

    constructor(data: BookingData, now: int)
      ensures ToJSON() == FromData(data, now)
    {
      var r := FromData(data, now);
      id, eventId, userId, numberOfTickets := r.id, r.eventId, r.userId, r.numberOfTickets;
      status, version, createdAt, updatedAt := r.status, r.version, r.createdAt, r.updatedAt;
    }

    function GetVersion(): int
      reads this
    {
      version
    }

    method SetVersion(v: int)
      modifies this`version
      ensures GetVersion() == v
      ensures ToJSON() == old(ToJSON()).(version := v)
    {
      version := v;
    }
  }
}

=== FILE: booking_repository.dfy ===
/** The bookings table: lookups, the active-ticket sum, and version-checked writes. */
module BookingRepository {
  import opened Wrappers
  import opened CustomErrors
  import opened BookingEntity
  import opened Store
  import Constants

  /** Position of the row with this id, or -1. */
  function IndexOf(rows: seq<BookingRecord>, id: string): (i: int)
    ensures -1 <= i < |rows|
    ensures i >= 0 ==> rows[i].id == id
    ensures i < 0 ==> forall k :: 0 <= k < |rows| ==> rows[k].id != id
  {
    if rows == [] then -1
    else if rows[|rows| - 1].id == id then |rows| - 1
    else IndexOf(rows[..|rows| - 1], id)
  }

  /** `findById`: the stored row, or null. */
  function FindById(rows: seq<BookingRecord>, id: string): (r: Option<BookingRecord>)
    ensures r.Some? <==> BookingExists(rows, id)
    ensures r.Some? ==> r.value.id == id && r.value in rows
  {
    var i := IndexOf(rows, id);
    if i < 0 then None else Some(rows[i])
  }

  /**
   * The column constraints on a row: the CHECK `number_of_tickets > 0` and
   * the character limit of `user_id VARCHAR(255)`.
   */
  predicate RowOk(b: BookingRecord)
  {
    b.numberOfTickets > 0 && |b.userId| <= 255
  }

  predicate UniqueIds(rows: seq<BookingRecord>)
  {
    forall i, j :: 0 <= i < j < |rows| ==> rows[i].id != rows[j].id
  }

  /** What the schema guarantees of the whole table. */
  predicate TableOk(rows: seq<BookingRecord>)
  {
    UniqueIds(rows) && forall i :: 0 <= i < |rows| ==> RowOk(rows[i])
  }

  lemma IndexOfUnique(rows: seq<BookingRecord>, k: int)
    requires UniqueIds(rows) && 0 <= k < |rows|
    ensures IndexOf(rows, rows[k].id) == k
  {
    var i := IndexOf(rows, rows[k].id);
  }

  /** A booking holds tickets of an event while it is pending or confirmed. */
  predicate IsActive(b: BookingRecord)
  {
    b.status == Constants.BookingStatus.Pending || b.status == Constants.BookingStatus.Confirmed
  }

  /** The tickets one row contributes to an event's booked count. */
  function ActiveTickets(b: BookingRecord, eventId: string): int
  {
    if b.eventId == eventId && IsActive(b) then b.numberOfTickets else 0
  }

  /**
   * `getTotalBookedTicketsForEvent`: the sum of numberOfTickets over the
   * event's pending and confirmed bookings (0 when there are none).
   */
  function TotalBookedTickets(rows: seq<BookingRecord>, eventId: string): int
  {
    if rows == [] then 0
    else TotalBookedTickets(rows[..|rows| - 1], eventId) + ActiveTickets(rows[|rows| - 1], eventId)
  }

  lemma {:induction false} TotalBookedNonNegative(rows: seq<BookingRecord>, eventId: string)
    requires forall i :: 0 <= i < |rows| ==> RowOk(rows[i])
    ensures TotalBookedTickets(rows, eventId) >= 0
  {
    if rows != [] {
      TotalBookedNonNegative(rows[..|rows| - 1], eventId);
    }
  }

  /** Appending a row adds exactly its active tickets to its own event and nothing to the others. */
  lemma TotalBookedAppend(rows: seq<BookingRecord>, b: BookingRecord, eventId: string)
    ensures TotalBookedTickets(rows + [b], eventId) == TotalBookedTickets(rows, eventId) + ActiveTickets(b, eventId)
  {
    assert (rows + [b])[..|rows|] == rows;
  }

  /** Replacing one row changes the sum by the difference of the two rows' contributions. */
  lemma {:induction false} TotalBookedReplace(rows: seq<BookingRecord>, k: int, b: BookingRecord, eventId: string)
    requires 0 <= k < |rows|
    ensures TotalBookedTickets(rows[k := b], eventId)
         == TotalBookedTickets(rows, eventId) - ActiveTickets(rows[k], eventId) + ActiveTickets(b, eventId)
  {
    var n := |rows| - 1;
    if k == n {
      assert rows[k := b][..n] == rows[..n];
    } else {
      assert rows[k := b][..n] == rows[..n][k := b];
      TotalBookedReplace(rows[..n], k, b, eventId);
    }
  }

  /** The rows that survive `ON DELETE CASCADE` when an event is deleted. */
  function WithoutEvent(rows: seq<BookingRecord>, eventId: string): (r: seq<BookingRecord>)
    ensures forall k :: 0 <= k < |r| ==> r[k].eventId != eventId && r[k] in rows
    ensures forall k :: 0 <= k < |rows| && rows[k].eventId != eventId ==> rows[k] in r
  {
    if rows == [] then []
    else
      var rest := WithoutEvent(rows[..|rows| - 1], eventId);
      assert forall k :: 0 <= k < |rows| - 1 ==> rows[..|rows| - 1][k] == rows[k];
      if rows[|rows| - 1].eventId == eventId then rest else rest + [rows[|rows| - 1]]
  }

  /** Deleting another event's bookings leaves this event's booked count as it was. */
  lemma {:induction false} TotalBookedWithoutOther(rows: seq<BookingRecord>, gone: string, eventId: string)
    requires gone != eventId
    ensures TotalBookedTickets(WithoutEvent(rows, gone), eventId) == TotalBookedTickets(rows, eventId)
  {
    if rows != [] {
      var n := |rows| - 1;
      TotalBookedWithoutOther(rows[..n], gone, eventId);
      if rows[n].eventId != gone {
        TotalBookedAppend(WithoutEvent(rows[..n], gone), rows[n], eventId);
      }
    }
  }

  lemma {:induction false} WithoutEventKeepsTable(rows: seq<BookingRecord>, gone: string)
    requires TableOk(rows)
    ensures TableOk(WithoutEvent(rows, gone))
  {
    if rows != [] {
      var n := |rows| - 1;
      assert TableOk(rows[..n]);
      WithoutEventKeepsTable(rows[..n], gone);
      var rest := WithoutEvent(rows[..n], gone);
      if rows[n].eventId != gone {
        forall k | 0 <= k < |rest| ensures rest[k].id != rows[n].id {
          assert rest[k] in rows[..n];
        }
      }
    }
  }

  /** The row `create` stores: the booking as given, with version forced to 0. */
  function Stored(b: BookingRecord): BookingRecord
  {
    b.(version := 0)
  }

  /**
   * `create`: the INSERT succeeds when the id is new, the event exists and
   * the column constraints hold; the stored row has version 0 whatever the input says.
   */
  method Create(db: Database, b: BookingRecord) returns (r: Outcome<BookingRecord>)
    modifies db`bookings
    ensures r.Success? <==> IndexOf(old(db.bookings), b.id) < 0 && EventExists(db.events, b.eventId) && RowOk(b)
    ensures r.Success? ==> r.value == Stored(b) && r.value.version == 0 && db.bookings == old(db.bookings) + [Stored(b)]
    ensures r.Failure? ==> r.error == PlainError(ConstraintViolation) && db.bookings == old(db.bookings)
  {
    if IndexOf(db.bookings, b.id) >= 0 || !EventExists(db.events, b.eventId) || !RowOk(b) {
      return Failure(PlainError(ConstraintViolation));
    }
    db.bookings := db.bookings + [Stored(b)];
    r := Success(Stored(b));
  }

  /**
   * The row a successful `update` leaves: status, numberOfTickets and
   * updatedAt come from the entity, the version goes up by one, and the
   * event, the user and the creation time stay as stored.
   */
  function Written(stored: BookingRecord, b: BookingRecord): (w: BookingRecord)
    ensures w.id == stored.id && w.eventId == stored.eventId && w.userId == stored.userId
    ensures w.createdAt == stored.createdAt && w.version == stored.version + 1
    ensures w.status == b.status && w.numberOfTickets == b.numberOfTickets && w.updatedAt == b.updatedAt
  {
    stored.(status := b.status, numberOfTickets := b.numberOfTickets,
            version := stored.version + 1, updatedAt := b.updatedAt)
  }

  /**
   * `update(booking, expectedVersion)`: with an expected version the row is
   * written only if its stored version equals it, and otherwise a plain
   * `Error('ConcurrencyError')` is thrown; without one the row is written
   * whatever its version. Of the written columns only the ticket count is
   * constrained, by the CHECK. Nothing changes on failure.
   */
  method Update(db: Database, b: BookingRecord, expectedVersion: Option<int>) returns (r: Outcome<BookingRecord>)
    modifies db`bookings
    ensures var i := IndexOf(old(db.bookings), b.id);
      && (expectedVersion.Some? && (i < 0 || old(db.bookings)[i].version != expectedVersion.value)
          ==> r == Failure(PlainError(VersionMismatch)))
      && (expectedVersion.None? && i < 0 ==> r == Failure(PlainError(MissingRow)))
      && (i >= 0 && (expectedVersion.None? || old(db.bookings)[i].version == expectedVersion.value)
          ==> (if b.numberOfTickets > 0 then r == Success(Written(old(db.bookings)[i], b))
                                && db.bookings == old(db.bookings)[i := r.value]
               else r == Failure(PlainError(ConstraintViolation))))
    ensures r.Failure? ==> db.bookings == old(db.bookings)
  {
    var i := IndexOf(db.bookings, b.id);
    if i < 0 || (expectedVersion.Some? && db.bookings[i].version != expectedVersion.value) {
      return Failure(PlainError(if expectedVersion.Some? then VersionMismatch else MissingRow));
    }
    if b.numberOfTickets <= 0 {
      return Failure(PlainError(ConstraintViolation));
    }
    var w := Written(db.bookings[i], b);
    db.bookings := db.bookings[i := w];
    r := Success(w);
  }

  /** Writing a row keeps the schema's guarantees. */
  lemma WrittenKeepsTable(rows: seq<BookingRecord>, i: int, b: BookingRecord)
    requires TableOk(rows) && 0 <= i < |rows| && b.numberOfTickets > 0
    ensures TableOk(rows[i := Written(rows[i], b)])
  {
  }
}

=== FILE: booking_service.dfy ===
/**
 * `BookingService`: booking and cancelling tickets against an event's
 * capacity, and turning notified waiting-list entries into bookings.
 * Each call runs to completion before the next one starts; ids, holder
 * tokens and the clock are parameters.
 */
module BookingService {
  import opened Wrappers
  import opened Strings
  import opened CustomErrors
  import opened EventEntity
  import opened BookingEntity
  import opened WaitingListEntity
  import opened Store
  import opened Inventory
  import Constants
  import EventRepository
  import BookingRepository
  import WaitingListRepository
  import TransactionUtil
  import LockUtil
  import WaitingListService

  /** The message of the capacity conflict. */
  function NotEnoughMessage(available: int, requested: int): string
  {
    "Not enough tickets " + "available" + NotEnoughFigures(available, requested)
  }

  /** The figures the capacity conflict ends with. */
  function NotEnoughFigures(available: int, requested: int): string
  {
    ". Available: " + IntToString(available) + ", Requested: " + IntToString(requested)
  }

  /** The capacity conflict mentions "available", which the ticket controller looks for. */
  lemma NotEnoughMentionsAvailable(available: int, requested: int)
    ensures Contains(NotEnoughMessage(available, requested), "available")
  {
    ContainsInfix("Not enough tickets ", "available", NotEnoughFigures(available, requested));
  }

  /** The booking `createBooking` inserts: confirmed, version 0, stamped now. */
  function NewBooking(id: string, eventId: string, userId: string, numberOfTickets: int, now: int): (b: BookingRecord)
    ensures b.status == Constants.BookingStatus.Confirmed && b.version == 0
    ensures b.id == id && b.eventId == eventId && b.userId == userId && b.numberOfTickets == numberOfTickets
  {
    BookingRecord(id, eventId, userId, numberOfTickets, Constants.BookingStatus.Confirmed, 0, now, now)
  }

  /** The errors `createBooking` and `cancelBooking` let through unwrapped. */
  predicate PassThrough(e: Error)
  {
    e.NotFoundError? || e.ConflictError? || e.ConcurrencyError?
  }

  /**
   * The recount both workflows end with: the event is loaded into an
   * entity, its counters are set from the active sum and clamped, and it is
   * written back with its own version as the expected one.
   */
  method RecountEvent(db: Database, i: int, now: int)
    requires EventRepository.TableOk(db.events) && BookingRepository.TableOk(db.bookings) && 0 <= i < |db.events|
    modifies db`events
    ensures db.events == old(db.events)[i := Rewritten(old(db.events)[i], db.bookings, now)]
  {
    var stored := db.events[i];
    EventEntity.RowRoundTrip(stored, now);
    var event := new Event(EventEntity.AsData(stored), now);
    var newTotalBooked := BookingRepository.TotalBookedTickets(db.bookings, stored.id);
    event.bookedTickets := newTotalBooked;
    event.availableTickets := event.totalTickets - newTotalBooked;
    event.updatedAt := now;
    event.UpdateAvailableTickets();
    assert event.ToJSON() == Recounted(stored, db.bookings, now);
    RewrittenRowOk(stored, db.bookings, now);
    EventRepository.IndexOfUnique(db.events, i);
    var updated := EventRepository.Update(db, event.ToJSON(), Some(event.GetVersion()));
    assert updated.Success?;
  }

  /**
   * Appending an active booking that fits event `i` and recounting that
   * event keeps the schema, keeps the inventory consistent, and leaves the
   * event within capacity.
   */
  lemma AppendAndRecountKeeps(events: seq<EventRecord>, bookings: seq<BookingRecord>,
                              waitingList: seq<WaitingListRecord>, i: int, b: BookingRecord, now: int)
    requires Schema(events, bookings, waitingList) && 0 <= i < |events| && b.eventId == events[i].id
    requires BookingRepository.IndexOf(bookings, b.id) < 0 && BookingRepository.RowOk(b) && BookingRepository.IsActive(b)
    requires Booked(bookings, b.eventId) + b.numberOfTickets <= events[i].totalTickets
    ensures Schema(events, bookings + [b], waitingList)
    ensures Schema(events[i := Rewritten(events[i], bookings + [b], now)], bookings + [b], waitingList)
    ensures Booked(bookings + [b], b.eventId) <= events[i].totalTickets
    ensures Consistent(events, bookings) ==> Consistent(events[i := Rewritten(events[i], bookings + [b], now)], bookings + [b])
  {
    var after := bookings + [b];
    assert EventExists(events, b.eventId);
    BookingAppendKeepsSchema(events, bookings, waitingList, b);
    forall j | 0 <= j < |events| && j != i
      ensures Booked(after, events[j].id) == Booked(bookings, events[j].id)
    {
      BookingRepository.TotalBookedAppend(bookings, b, events[j].id);
    }
    BookingRepository.TotalBookedAppend(bookings, b, b.eventId);
    if Consistent(events, bookings) {
      RecountKeepsConsistent(events, bookings, after, i, now);
    }
    RewriteKeepsSchema(events, after, waitingList, i, now);
  }

  /**
   * The insert and the recount of `createBooking` once the capacity check
   * has passed: the booking is appended, and event `i` is recounted over the
   * new bookings. Capacity is kept because the request fitted.
   */
  method InsertAndRecount(db: Database, i: int, b: BookingRecord, now: int)
    requires StoreOk(db) && 0 <= i < |db.events| && b.eventId == db.events[i].id
    requires BookingRepository.IndexOf(db.bookings, b.id) < 0 && BookingRepository.RowOk(b) && b.version == 0
    requires Booked(db.bookings, b.eventId) + b.numberOfTickets <= db.events[i].totalTickets
    requires BookingRepository.IsActive(b)
    modifies db`bookings, db`events
    ensures db.bookings == old(db.bookings) + [b]
    ensures db.events == old(db.events)[i := Rewritten(old(db.events)[i], db.bookings, now)]
    ensures StoreOk(db) && Booked(db.bookings, b.eventId) <= db.events[i].totalTickets
    ensures Consistent(old(db.events), old(db.bookings)) ==> Consistent(db.events, db.bookings)
  {
    AppendAndRecountKeeps(db.events, db.bookings, db.waitingList, i, b, now);
    var created := BookingRepository.Create(db, b);
    assert created.Success?;
    RecountEvent(db, i, now);
  }

  /**
   * The insert of `createBooking` once the request fits event `i`: a
   * confirmed booking is inserted and the event recounted, unless the
   * request is not positive or the user id is longer than its column, which
   * the table refuses.
   */
  method Book(db: Database, i: int, userId: string, numberOfTickets: int, bookingId: string, now: int)
    returns (outcome: Outcome<BookingRecord>)
    requires StoreOk(db) && 0 <= i < |db.events| && BookingRepository.IndexOf(db.bookings, bookingId) < 0
    requires Booked(db.bookings, db.events[i].id) + numberOfTickets <= db.events[i].totalTickets
    modifies db`bookings, db`events
    ensures StoreOk(db)
    ensures CreateAnswers(old(db.events), old(db.bookings), db.events, db.bookings, old(db.events)[i].id, userId,
                          numberOfTickets, bookingId, now, PlainError(ConstraintViolation), outcome)
    ensures outcome.Success? ==> Booked(db.bookings, old(db.events)[i].id) <= db.events[i].totalTickets
    ensures Consistent(old(db.events), old(db.bookings)) ==> Consistent(db.events, db.bookings)
  {
    var eventId := db.events[i].id;
    EventRepository.IndexOfUnique(db.events, i);
    var booking := new Booking(BookingData(Some(bookingId), Some(eventId), Some(userId), Some(numberOfTickets),
                                           Some(Constants.BookingStatus.Confirmed), Some(0), Some(now), Some(now)), now);
    var b := booking.ToJSON();
    assert b == NewBooking(bookingId, eventId, userId, numberOfTickets, now);
    if BookingRepository.RowOk(b) {
      InsertAndRecount(db, i, b, now);
      outcome := Success(b);
    } else {
      outcome := BookingRepository.Create(db, b);
    }
  }

  /**
   * What `createBooking` answers and leaves in the events and bookings
   * tables: a missing event is a NotFoundError; a request larger than
   * total − active tickets is a ConflictError naming both numbers; a
   * request that fits is inserted as a confirmed booking and its event
   * recounted, unless the row breaks the table's constraints (a
   * non-positive count, or a user id longer than 255 characters), which
   * ends as `broken`. Nothing changes on failure.
   */
  predicate CreateAnswers(events: seq<EventRecord>, bookings: seq<BookingRecord>,
                          events': seq<EventRecord>, bookings': seq<BookingRecord>,
                          eventId: string, userId: string, numberOfTickets: int, bookingId: string, now: int,
                          broken: Error, r: Outcome<BookingRecord>)
  {
    && (!EventExists(events, eventId) ==> r == Failure(NewNotFoundError("Event", eventId)))
    && (EventExists(events, eventId) ==>
          var i := EventRepository.IndexOf(events, eventId);
          var available := events[i].totalTickets - Booked(bookings, eventId);
          && (available < numberOfTickets ==> r == Failure(NewConflictError(NotEnoughMessage(available, numberOfTickets))))
          && (numberOfTickets <= available && !(numberOfTickets > 0 && |userId| <= 255) ==> r == Failure(broken))
          && (0 < numberOfTickets <= available && |userId| <= 255 ==>
                && r == Success(NewBooking(bookingId, eventId, userId, numberOfTickets, now))
                && bookings' == bookings + [r.value]
                && events' == events[i := Rewritten(events[i], bookings', now)]))
    && (r.Failure? ==> bookings' == bookings && events' == events)
  }

  /**
   * Wrapping the transaction's errors as `createBooking`'s `catch` does
   * keeps its answer: not-found and conflict errors pass through, and the
   * refused row becomes `DatabaseError('Failed to create booking')`.
   */
  lemma WrappedAnswers(events: seq<EventRecord>, bookings: seq<BookingRecord>,
                       events': seq<EventRecord>, bookings': seq<BookingRecord>,
                       eventId: string, userId: string, numberOfTickets: int, bookingId: string, now: int,
                       outcome: Outcome<BookingRecord>)
    requires CreateAnswers(events, bookings, events', bookings', eventId, userId, numberOfTickets, bookingId, now,
                           PlainError(ConstraintViolation), outcome)
    ensures CreateAnswers(events, bookings, events', bookings', eventId, userId, numberOfTickets, bookingId, now,
                          NewDatabaseError("Failed to create booking", Some(PlainError(ConstraintViolation))),
                          if outcome.Success? then outcome
                          else Failure(RethrowOrWrap(outcome.error, PassThrough, "Failed to create booking")))
  {
  }

  /** The transaction of `createBooking`, before its errors are wrapped. */
  method CreateAttempt(db: Database, eventId: string, userId: string, numberOfTickets: int, bookingId: string, now: int)
    returns (outcome: Outcome<BookingRecord>)
    requires StoreOk(db) && BookingRepository.IndexOf(db.bookings, bookingId) < 0
    modifies db`bookings, db`events
    ensures StoreOk(db)
    ensures CreateAnswers(old(db.events), old(db.bookings), db.events, db.bookings, eventId, userId, numberOfTickets,
                          bookingId, now, PlainError(ConstraintViolation), outcome)
    ensures outcome.Success? ==> Booked(db.bookings, eventId) <= EventRepository.FindById(db.events, eventId).value.totalTickets
    ensures Consistent(old(db.events), old(db.bookings)) ==> Consistent(db.events, db.bookings)
  {
    var i := EventRepository.IndexOf(db.events, eventId);
    if i < 0 {
      return Failure(NewNotFoundError("Event", eventId));
    }
    var event := db.events[i];
    var totalBooked := BookingRepository.TotalBookedTickets(db.bookings, eventId);
    var availableTickets := event.totalTickets - totalBooked;
    if availableTickets < numberOfTickets {
      return Failure(NewConflictError(NotEnoughMessage(availableTickets, numberOfTickets)));
    }
    outcome := Book(db, i, userId, numberOfTickets, bookingId, now);
    EventRepository.IndexOfUnique(db.events, i);
  }

  /**
   * `createBooking({eventId, userId, numberOfTickets})`: the transaction
   * above, retried up to 3 times with a 100 ms step, where the same outcome
   * recurs. Not-found and conflict errors pass through; a row the table
   * refuses surfaces as `DatabaseError('Failed to create booking')`.
   */
  method CreateBooking(db: Database, eventId: string, userId: string, numberOfTickets: int, bookingId: string, now: int)
    returns (r: Outcome<BookingRecord>)
    requires StoreOk(db) && BookingRepository.IndexOf(db.bookings, bookingId) < 0
    modifies db`bookings, db`events
    ensures StoreOk(db)
    ensures CreateAnswers(old(db.events), old(db.bookings), db.events, db.bookings, eventId, userId, numberOfTickets,
                          bookingId, now, NewDatabaseError("Failed to create booking", Some(PlainError(ConstraintViolation))), r)
    ensures r.Success? ==> Booked(db.bookings, eventId) <= EventRepository.FindById(db.events, eventId).value.totalTickets
    ensures Consistent(old(db.events), old(db.bookings)) ==> Consistent(db.events, db.bookings)
  {
    var outcome := CreateAttempt(db, eventId, userId, numberOfTickets, bookingId, now);
    var retried, calls, delays := TransactionUtil.WithRetry(_ => outcome, 3, 100);
    TransactionUtil.RetryOfConstant(_ => outcome, outcome, 3, calls, retried);
    assert retried == outcome;
    WrappedAnswers(old(db.events), old(db.bookings), db.events, db.bookings, eventId, userId, numberOfTickets,
                   bookingId, now, outcome);
    if outcome.Success? {
      r := outcome;
    } else {
      r := Failure(RethrowOrWrap(outcome.error, PassThrough, "Failed to create booking"));
    }
  }

  /** The key `cancelBooking` locks. */
  function CancelLockKey(id: string): string
  {
    "booking:cancel:" + id
  }

  /** The booking after `cancelBooking` set its status and timestamp on the entity. */
  function CancelledAt(b: BookingRecord, at: int): (c: BookingRecord)
    ensures c.status == Constants.BookingStatus.Cancelled && !BookingRepository.IsActive(c)
    ensures c == b.(status := c.status, updatedAt := at)
  {
    b.(status := Constants.BookingStatus.Cancelled, updatedAt := at)
  }

  /**
   * The update and the recount of `cancelBooking` once the checks have
   * passed: booking `k` is written as cancelled and its event, at `j`, is
   * recounted. The booked count can only fall, so capacity is kept.
   */
  method CancelAndRecount(db: Database, k: int, j: int, at: int)
    requires StoreOk(db) && 0 <= k < |db.bookings| && 0 <= j < |db.events|
    requires db.events[j].id == db.bookings[k].eventId
    modifies db`bookings, db`events
    ensures db.bookings == old(db.bookings)[k := BookingRepository.Written(old(db.bookings)[k], CancelledAt(old(db.bookings)[k], at))]
    ensures db.events == old(db.events)[j := Rewritten(old(db.events)[j], db.bookings, at)]
    ensures StoreOk(db)
    ensures Consistent(old(db.events), old(db.bookings)) ==> Consistent(db.events, db.bookings)
  {
    ghost var before := db.bookings;
    var row := db.bookings[k];
    BookingEntity.RowRoundTrip(row, at);
    var booking := new Booking(BookingEntity.AsData(row), at);
    booking.status := Constants.BookingStatus.Cancelled;
    booking.updatedAt := at;
    assert booking.ToJSON() == CancelledAt(row, at);
    BookingRepository.IndexOfUnique(db.bookings, k);
    BookingWriteKeepsSchema(db.events, db.bookings, db.waitingList, k, booking.ToJSON());
    var updated := BookingRepository.Update(db, booking.ToJSON(), Some(booking.GetVersion()));
    assert updated.Success?;
    forall m | 0 <= m < |db.events| && m != j
      ensures Booked(db.bookings, db.events[m].id) == Booked(before, db.events[m].id)
    {
      BookingRepository.TotalBookedReplace(before, k, updated.value, db.events[m].id);
    }
    BookingRepository.TotalBookedReplace(before, k, updated.value, row.eventId);
    if Consistent(db.events, before) {
      RecountKeepsConsistent(db.events, before, db.bookings, j, at);
    }
    RewriteKeepsSchema(db.events, db.bookings, db.waitingList, j, at);
    RecountEvent(db, j, at);
  }

  /**
   * What `cancelBooking` answers and leaves once it holds the lock, at time
   * `at`: a missing booking is a NotFoundError and an already cancelled one
   * a ConflictError; otherwise the booking is written as cancelled with its
   * version bumped and its event is recounted. Nothing changes on failure.
   */
  predicate CancelAnswers(events: seq<EventRecord>, bookings: seq<BookingRecord>,
                          events': seq<EventRecord>, bookings': seq<BookingRecord>,
                          id: string, at: int, r: Outcome<BookingRecord>)
  {
    var k := BookingRepository.IndexOf(bookings, id);
    && (k < 0 ==> r == Failure(NewNotFoundError("Booking", id)))
    && (k >= 0 && bookings[k].status == Constants.BookingStatus.Cancelled ==>
          r == Failure(NewConflictError("Booking is already cancelled")))
    && (k >= 0 && bookings[k].status != Constants.BookingStatus.Cancelled ==>
          var j := EventRepository.IndexOf(events, bookings[k].eventId);
          && r == Success(BookingRepository.Written(bookings[k], CancelledAt(bookings[k], at)))
          && bookings' == bookings[k := r.value]
          && 0 <= j < |events| && events' == events[j := Rewritten(events[j], bookings', at)])
    && (r.Failure? ==> bookings' == bookings && events' == events)
  }

  /**
   * The part of `cancelBooking` that runs while the lock is held: the
   * booking is looked up, an already cancelled one is refused, and
   * otherwise it is marked cancelled and its event recounted. Not-found and
   * conflict errors pass through; anything else becomes
   * `DatabaseError('Failed to cancel booking')`.
   */
  method CancelHeld(db: Database, id: string, at: int) returns (r: Outcome<BookingRecord>)
    requires StoreOk(db)
    modifies db`bookings, db`events
    ensures StoreOk(db)
    ensures CancelAnswers(old(db.events), old(db.bookings), db.events, db.bookings, id, at, r)
    ensures Consistent(old(db.events), old(db.bookings)) ==> Consistent(db.events, db.bookings)
  {
    var outcome: Outcome<BookingRecord>;
    var k := BookingRepository.IndexOf(db.bookings, id);
    if k < 0 {
      outcome := Failure(NewNotFoundError("Booking", id));
    } else if db.bookings[k].status == Constants.BookingStatus.Cancelled {
      outcome := Failure(NewConflictError("Booking is already cancelled"));
    } else {
      var eventId := db.bookings[k].eventId;
      assert EventExists(db.events, eventId);
      var j := EventRepository.IndexOf(db.events, eventId);
      if j < 0 {
        outcome := Failure(NewNotFoundError("Event", eventId));
      } else {
        CancelAndRecount(db, k, j, at);
        outcome := Success(db.bookings[k]);
      }
    }
    r := if outcome.Success? then outcome else Failure(RethrowOrWrap(outcome.error, PassThrough, "Failed to cancel booking"));
  }

  /**
   * `cancelBooking(id)` under the lock `booking:cancel:<id>` (held up to
   * 30 s, waited for up to 5 s, polled every 100 ms). Without the lock it
   * throws the lock timeout and changes nothing. With it, at time `at`: a
   * missing booking is a NotFoundError, an already cancelled one a
   * ConflictError; otherwise the booking is written as cancelled with its
   * version bumped, its event is recounted, and the lock is released.
   * Cancelling never breaks the no-oversell invariant.
   */
  method CancelBooking(db: Database, locks: LockUtil.LockTable, id: string, holder: string, now: int)
    returns (r: Outcome<BookingRecord>, at: int)
    requires StoreOk(db) && holder != ""
    modifies db`bookings, db`events, locks
    ensures StoreOk(db)
    ensures !LockUtil.Free(old(locks.locks), CancelLockKey(id), now + LockUtil.LastAttempt(5000, 100)) ==>
      r == Failure(LockUtil.LockTimeout(CancelLockKey(id)))
    ensures !LockUtil.Free(old(locks.locks), CancelLockKey(id), now + LockUtil.LastAttempt(5000, 100)) ==>
      locks.locks == old(locks.locks)
    ensures LockUtil.Free(old(locks.locks), CancelLockKey(id), now + LockUtil.LastAttempt(5000, 100)) ==>
      now <= at < now + 5000 && locks.locks == old(locks.locks) - {CancelLockKey(id)}
    ensures r.Failure? ==> db.bookings == old(db.bookings) && db.events == old(db.events)
    ensures LockUtil.Free(old(locks.locks), CancelLockKey(id), now + LockUtil.LastAttempt(5000, 100)) ==>
      CancelAnswers(old(db.events), old(db.bookings), db.events, db.bookings, id, at, r)
    ensures Consistent(old(db.events), old(db.bookings)) ==> Consistent(db.events, db.bookings)
  {
    var lockKey := CancelLockKey(id);
    var acquired;
    acquired, at := locks.Poll(lockKey, 30000, 5000, 100, holder, now);
    if !acquired {
      return Failure(LockUtil.LockTimeout(lockKey)), at;
    }
    assert LockUtil.Free(old(locks.locks), lockKey, now + LockUtil.LastAttempt(5000, 100));
    r := CancelHeld(db, id, at);
    var _ := locks.Release(lockKey, Some(holder));
  }

  // ---- after a cancellation: notifying and fulfilling the waiting list ----

  /** What happened to one notified entry during auto-fulfilment. */
  datatype EntryResult =
    /** Not enough tickets were left for it; the entry stays notified. */
    | Skipped(available: int)
    /** A booking was made for it and the entry was marked fulfilled. */
    | Fulfilled(booking: BookingRecord)
    /** Booking failed; after a conflict the entry went back to pending. */
    | Failed(error: Error)

  /** The bookings auto-fulfilment made, in order. */
  function BookingsOf(results: seq<EntryResult>): (s: seq<BookingRecord>)
    ensures |s| <= |results|
  {
    if results == [] then []
    else
      var last := results[|results| - 1];
      BookingsOf(results[..|results| - 1]) + (if last.Fulfilled? then [last.booking] else [])
  }

  lemma BookingsOfAppend(results: seq<EntryResult>, x: EntryResult)
    ensures BookingsOf(results + [x]) == BookingsOf(results) + (if x.Fulfilled? then [x.booking] else [])
  {
    assert (results + [x])[..|results|] == results;
  }

  /** The entry marked fulfilled at `now`. */
  function FulfilledAt(w: WaitingListRecord, now: int): (f: WaitingListRecord)
    ensures f.status == Constants.WaitingListStatus.Fulfilled && f.fulfilledAt == Some(now)
    ensures f == w.(status := f.status, fulfilledAt := f.fulfilledAt, updatedAt := now)
  {
    w.(status := Constants.WaitingListStatus.Fulfilled, fulfilledAt := Some(now), updatedAt := now)
  }

  /** The entry put back to pending at `now`, its notification forgotten. */
  function ResetAt(w: WaitingListRecord, now: int): (p: WaitingListRecord)
    ensures p.status == Constants.WaitingListStatus.Pending && p.notifiedAt.None?
    ensures p == w.(status := p.status, notifiedAt := None, updatedAt := now)
  {
    w.(status := Constants.WaitingListStatus.Pending, notifiedAt := None, updatedAt := now)
  }

  /**
   * What the auto-fulfilment loop does with a booking attempt's outcome for
   * a notified entry it holds: on success the entry is written as fulfilled;
   * after a ConflictError it is written back to pending; after any other
   * error it is left alone. Each write uses the entry's own version.
   */
  method SettleEntry(db: Database, entry: WaitingListRecord, outcome: Outcome<BookingRecord>, now: int)
    returns (res: EntryResult)
    requires StoreOk(db) && entry in db.waitingList
    modifies db`waitingList
    ensures StoreOk(db) && |db.waitingList| == |old(db.waitingList)|
    ensures forall x :: x in old(db.waitingList) && x.id != entry.id ==> x in db.waitingList
    ensures outcome.Success? ==>
      res == Fulfilled(outcome.value) && WaitingListRepository.Written(entry, FulfilledAt(entry, now)) in db.waitingList
    ensures outcome.Failure? ==> res == Failed(outcome.error)
    ensures outcome.Failure? && outcome.error.ConflictError? ==>
      WaitingListRepository.Written(entry, ResetAt(entry, now)) in db.waitingList
    ensures outcome.Failure? && !outcome.error.ConflictError? ==> db.waitingList == old(db.waitingList)
    ensures WaitingListService.OnePendingPerUser(old(db.waitingList)) && !(outcome.Failure? && outcome.error.ConflictError?) ==>
      WaitingListService.OnePendingPerUser(db.waitingList)
  {
    if outcome.Failure? && !outcome.error.ConflictError? {
      return Failed(outcome.error);
    }
    var at := WaitingListService.FoundAt(db.waitingList, entry);
    var e := new WaitingList(WaitingListEntity.AsData(entry), now);
    if outcome.Success? {
      e.status := Constants.WaitingListStatus.Fulfilled;
      e.fulfilledAt := Some(now);
      e.updatedAt := now;
      assert e.ToJSON() == FulfilledAt(entry, now);
    } else {
      e.status := Constants.WaitingListStatus.Pending;
      e.notifiedAt := None;
      e.updatedAt := now;
      assert e.ToJSON() == ResetAt(entry, now);
    }
    ghost var current := db.waitingList;
    WaitingListWriteKeepsSchema(db.events, db.bookings, current, at, e.ToJSON());
    if outcome.Success? && WaitingListService.OnePendingPerUser(current) {
      WaitingListService.DemoteKeepsOnePending(current, at, e.ToJSON());
    }
    var updated := WaitingListRepository.Update(db, e.ToJSON(), Some(e.GetVersion()));
    assert updated.Success? && db.waitingList == current[at := updated.value];
    assert db.waitingList[at] == updated.value;
    forall x | x in current && x.id != entry.id ensures x in db.waitingList {
      WaitingListService.WriteKeepsOthers(current, at, updated.value, x);
    }
    res := if outcome.Success? then Fulfilled(outcome.value) else Failed(outcome.error);
  }

  /**
   * One notified entry, with event `i` present: if fewer tickets are left
   * than it asks for it is skipped; otherwise a booking is made for its user
   * and tickets (retried as `createBooking` is) and the entry is settled.
   * Since the capacity check just passed, the booking always succeeds.
   */
  method FulfillEntry(db: Database, i: int, entry: WaitingListRecord, bookingId: string, now: int)
    returns (res: EntryResult)
    requires StoreOk(db) && 0 <= i < |db.events| && entry in db.waitingList
    requires BookingRepository.IndexOf(db.bookings, bookingId) < 0
    modifies db`bookings, db`events, db`waitingList
    ensures StoreOk(db) && EventExists(db.events, old(db.events)[i].id)
    ensures Consistent(old(db.events), old(db.bookings)) ==> Consistent(db.events, db.bookings)
    ensures forall x :: x in old(db.waitingList) && x.id != entry.id ==> x in db.waitingList
    ensures |db.waitingList| == |old(db.waitingList)|
    ensures WaitingListService.OnePendingPerUser(old(db.waitingList)) ==> WaitingListService.OnePendingPerUser(db.waitingList)
    ensures res.Skipped? || res.Fulfilled?
    ensures res.Skipped? ==>
      && res.available == old(db.events)[i].totalTickets - Booked(old(db.bookings), old(db.events)[i].id)
      && res.available < entry.numberOfTickets
      && db.bookings == old(db.bookings) && db.events == old(db.events) && db.waitingList == old(db.waitingList)
    ensures res.Fulfilled? ==>
      && res.booking == NewBooking(bookingId, old(db.events)[i].id, entry.userId, entry.numberOfTickets, now)
      && db.bookings == old(db.bookings) + [res.booking]
      && WaitingListRepository.Written(entry, FulfilledAt(entry, now)) in db.waitingList
  {
    var eventId := db.events[i].id;
    EventRepository.IndexOfUnique(db.events, i);
    var totalBooked := Booked(db.bookings, eventId);
    var availableTickets := db.events[i].totalTickets - totalBooked;
    if availableTickets < entry.numberOfTickets {
      return Skipped(availableTickets);
    }
    assert WaitingListRepository.RowOk(entry);
    var outcome := CreateBooking(db, eventId, entry.userId, entry.numberOfTickets, bookingId, now);
    assert outcome.Success?;
    SameIdKeepsReferences(old(db.events), i, db.events[i], eventId);
    var retried, calls, delays := TransactionUtil.WithRetry(_ => outcome, 3, 100);
    TransactionUtil.RetryOfConstant(_ => outcome, outcome, 3, calls, retried);
    res := SettleEntry(db, entry, retried, now);
  }

  /** Booking ids not used by any booking and not repeated. */
  predicate FreshIds(bookings: seq<BookingRecord>, ids: seq<string>)
  {
    && (forall m, j :: 0 <= m < |ids| && 0 <= j < |bookings| ==> bookings[j].id != ids[m])
    && (forall m, n :: 0 <= m < n < |ids| ==> ids[m] != ids[n])
  }

  /**
   * How one notified entry ended, against the table: a skipped entry asked
   * for more than was left and is still there as it was; a fulfilled one got
   * a confirmed booking for its user and tickets under its booking id, and
   * is stored as fulfilled.
   */
  predicate SettledOne(res: EntryResult, entry: WaitingListRecord, waitingList: seq<WaitingListRecord>,
                       bookingId: string, eventId: string, now: int)
  {
    match res
    case Skipped(available) => available < entry.numberOfTickets && entry in waitingList
    case Fulfilled(b) =>
      && b == NewBooking(bookingId, eventId, entry.userId, entry.numberOfTickets, now)
      && WaitingListRepository.Written(entry, FulfilledAt(entry, now)) in waitingList
    case Failed(_) => false
  }

  predicate Settled(results: seq<EntryResult>, entries: seq<WaitingListRecord>, waitingList: seq<WaitingListRecord>,
                    ids: seq<string>, eventId: string, now: int)
  {
    && |results| <= |entries| && |results| <= |ids|
    && forall m :: 0 <= m < |results| ==> SettledOne(results[m], entries[m], waitingList, ids[m], eventId, now)
  }

  /** One more settled entry keeps the earlier ones settled when the write touched only its own row. */
  lemma SettledStep(results: seq<EntryResult>, entries: seq<WaitingListRecord>, current: seq<WaitingListRecord>,
                    after: seq<WaitingListRecord>, ids: seq<string>, eventId: string, now: int, res: EntryResult)
    requires WaitingListRepository.UniqueIds(entries) && |results| < |entries| && |results| < |ids|
    requires Settled(results, entries, current, ids, eventId, now)
    requires forall x :: x in current && x.id != entries[|results|].id ==> x in after
    requires forall m :: |results| < m < |entries| ==> entries[m] in current
    requires SettledOne(res, entries[|results|], after, ids[|results|], eventId, now)
    ensures Settled(results + [res], entries, after, ids, eventId, now)
    ensures forall m :: |results| + 1 <= m < |entries| ==> entries[m] in after
  {
    var k := |results|;
    forall m | 0 <= m < k ensures SettledOne(results[m], entries[m], after, ids[m], eventId, now) {
      assert entries[m].id != entries[k].id;
    }
    forall m | k + 1 <= m < |entries| ensures entries[m] in after {
      assert entries[m].id != entries[k].id;
    }
    assert (results + [res])[k] == res;
  }

  /** Ids still unused stay unused after a booking under the current one. */
  lemma FreshStep(before: seq<BookingRecord>, after: seq<BookingRecord>, ids: seq<string>, k: int, res: EntryResult)
    requires 0 <= k < |ids| && forall m, n :: 0 <= m < n < |ids| ==> ids[m] != ids[n]
    requires forall m, j :: k <= m < |ids| && 0 <= j < |before| ==> before[j].id != ids[m]
    requires after == before + (if res.Fulfilled? then [res.booking] else [])
    requires res.Fulfilled? ==> res.booking.id == ids[k]
    ensures forall m, j :: k + 1 <= m < |ids| && 0 <= j < |after| ==> after[j].id != ids[m]
  {
  }

  /**
   * `autoFulfillWaitingList(eventId)`: the event's notified entries, read
   * once in queue order, are taken one by one. The event is re-read for
   * each; an entry asking for more than total − active is skipped; for any
   * other a booking is made for its user and tickets and the entry is marked
   * fulfilled. Booking ids come from `ids`, one per entry. Every entry ends
   * skipped or fulfilled, the bookings made are appended in queue order, and
   * the no-oversell invariant is kept.
   */
  method AutoFulfillWaitingList(db: Database, eventId: string, ids: seq<string>, now: int)
    returns (results: seq<EntryResult>)
    requires StoreOk(db) && FreshIds(db.bookings, ids) && |ids| >= |db.waitingList|
    modifies db`bookings, db`events, db`waitingList
    ensures StoreOk(db)
    ensures Consistent(old(db.events), old(db.bookings)) ==> Consistent(db.events, db.bookings)
    ensures var notified := WaitingListRepository.FindByEventId(old(db.waitingList), eventId,
                                                                 Some(Constants.WaitingListStatus.Notified));
      && |results| == |notified| && Settled(results, notified, db.waitingList, ids, eventId, now)
      && (forall x :: x in old(db.waitingList) && x !in notified ==> x in db.waitingList)
    ensures db.bookings == old(db.bookings) + BookingsOf(results)
    ensures |db.waitingList| == |old(db.waitingList)|
    ensures WaitingListService.OnePendingPerUser(old(db.waitingList)) ==> WaitingListService.OnePendingPerUser(db.waitingList)
  {
    var notifiedEntries := WaitingListRepository.FindByEventId(db.waitingList, eventId, Some(Constants.WaitingListStatus.Notified));
    WaitingListRepository.FindByEventIdUnique(db.waitingList, eventId, Some(Constants.WaitingListStatus.Notified));
    if |notifiedEntries| > 0 {
      assert notifiedEntries[0] in notifiedEntries;
      assert EventExists(db.events, eventId);
    }
    ghost var events0, bookings0, waitingList0 := db.events, db.bookings, db.waitingList;
    results := [];
    var k := 0;
    while k < |notifiedEntries|
      invariant 0 <= k <= |notifiedEntries| && |results| == k
      invariant Progress(db.events, db.bookings, db.waitingList, events0, bookings0, waitingList0, notifiedEntries, ids, results, eventId, now)
      decreases |notifiedEntries| - k
    {
      var i := EventRepository.IndexOf(db.events, eventId);
      if i < 0 {
        break;
      }
      results := FulfillNext(db, i, events0, bookings0, waitingList0, notifiedEntries, ids, results, eventId, now);
      k := k + 1;
    }
  }

  /**
   * The waiting list as the auto-fulfilment loop leaves it, from
   * `waitingList0`: same length, one pending entry per user kept, every row
   * but the notified entries untouched, the entries not yet reached still
   * there, and those reached settled.
   */
  predicate ListWalked(waitingList: seq<WaitingListRecord>, waitingList0: seq<WaitingListRecord>,
                       entries: seq<WaitingListRecord>, ids: seq<string>, results: seq<EntryResult>,
                       eventId: string, now: int)
  {
    && WaitingListRepository.UniqueIds(entries)
    && WaitingListRepository.UniqueIds(waitingList0)
    && (forall x :: x in entries ==> x in waitingList0)
    && |waitingList| == |waitingList0|
    && (WaitingListService.OnePendingPerUser(waitingList0) ==> WaitingListService.OnePendingPerUser(waitingList))
    && (forall x :: x in waitingList0 && x !in entries ==> x in waitingList)
    && (forall m :: |results| <= m < |entries| ==> entries[m] in waitingList)
    && Settled(results, entries, waitingList, ids, eventId, now)
  }

  /** The bookings the loop has made, appended in order, with the ids still to use unused. */
  predicate BookingsWalked(bookings: seq<BookingRecord>, bookings0: seq<BookingRecord>, ids: seq<string>,
                           results: seq<EntryResult>)
  {
    && (forall m, n :: 0 <= m < n < |ids| ==> ids[m] != ids[n])
    && bookings == bookings0 + BookingsOf(results)
    && (forall m, j :: |results| <= m < |ids| && 0 <= j < |bookings| ==> bookings[j].id != ids[m])
  }

  /**
   * What the auto-fulfilment loop keeps while it walks the notified entries,
   * of the tables `events`, `bookings` and `waitingList` it has reached from
   * `events0`, `bookings0` and `waitingList0`.
   */
  predicate Progress(events: seq<EventRecord>, bookings: seq<BookingRecord>, waitingList: seq<WaitingListRecord>,
                     events0: seq<EventRecord>, bookings0: seq<BookingRecord>, waitingList0: seq<WaitingListRecord>,
                     entries: seq<WaitingListRecord>, ids: seq<string>, results: seq<EntryResult>,
                     eventId: string, now: int)
  {
    && Schema(events, bookings, waitingList)
    && (Consistent(events0, bookings0) ==> Consistent(events, bookings))
    && (|entries| > 0 ==> EventExists(events, eventId))
    && ListWalked(waitingList, waitingList0, entries, ids, results, eventId, now)
    && BookingsWalked(bookings, bookings0, ids, results)
  }

  /** The waiting-list half of one step of the loop. */
  lemma ListStep(waitingList: seq<WaitingListRecord>, waitingList': seq<WaitingListRecord>, waitingList0: seq<WaitingListRecord>,
                 entries: seq<WaitingListRecord>, ids: seq<string>, results: seq<EntryResult>,
                 eventId: string, now: int, res: EntryResult)
    requires ListWalked(waitingList, waitingList0, entries, ids, results, eventId, now)
    requires |results| < |entries| && |entries| <= |ids|
    requires forall x :: x in waitingList && x.id != entries[|results|].id ==> x in waitingList'
    requires |waitingList'| == |waitingList|
    requires WaitingListService.OnePendingPerUser(waitingList) ==> WaitingListService.OnePendingPerUser(waitingList')
    requires SettledOne(res, entries[|results|], waitingList', ids[|results|], eventId, now)
    ensures ListWalked(waitingList', waitingList0, entries, ids, results + [res], eventId, now)
  {
    var entry := entries[|results|];
    forall x | x in waitingList0 && x !in entries ensures x in waitingList' {
      assert entry in entries;
      WaitingListService.DistinctRowsDistinctIds(waitingList0, x, entry);
    }
    SettledStep(results, entries, waitingList, waitingList', ids, eventId, now, res);
  }

  /** The bookings half of one step of the loop. */
  lemma BookingsStep(bookings: seq<BookingRecord>, bookings': seq<BookingRecord>, bookings0: seq<BookingRecord>,
                     ids: seq<string>, results: seq<EntryResult>, res: EntryResult)
    requires BookingsWalked(bookings, bookings0, ids, results) && |results| < |ids|
    requires bookings' == bookings + (if res.Fulfilled? then [res.booking] else [])
    requires res.Fulfilled? ==> res.booking.id == ids[|results|]
    ensures BookingsWalked(bookings', bookings0, ids, results + [res])
  {
    var made := if res.Fulfilled? then [res.booking] else [];
    FreshStep(bookings, bookings', ids, |results|, res);
    BookingsOfAppend(results, res);
    assert bookings' == bookings0 + (BookingsOf(results) + made) by {
      assert (bookings0 + BookingsOf(results)) + made == bookings0 + (BookingsOf(results) + made);
    }
  }

  /** One entry settled as `FulfillEntry` promises moves the walk one entry on. */
  lemma ProgressStep(events: seq<EventRecord>, bookings: seq<BookingRecord>, waitingList: seq<WaitingListRecord>,
                     events': seq<EventRecord>, bookings': seq<BookingRecord>, waitingList': seq<WaitingListRecord>,
                     events0: seq<EventRecord>, bookings0: seq<BookingRecord>, waitingList0: seq<WaitingListRecord>,
                     entries: seq<WaitingListRecord>, ids: seq<string>, results: seq<EntryResult>,
                     eventId: string, now: int, res: EntryResult)
    requires Progress(events, bookings, waitingList, events0, bookings0, waitingList0, entries, ids, results, eventId, now)
    requires |results| < |entries| && |entries| <= |ids|
    requires Schema(events', bookings', waitingList') && EventExists(events', eventId)
    requires Consistent(events, bookings) ==> Consistent(events', bookings')
    requires forall x :: x in waitingList && x.id != entries[|results|].id ==> x in waitingList'
    requires |waitingList'| == |waitingList|
    requires WaitingListService.OnePendingPerUser(waitingList) ==> WaitingListService.OnePendingPerUser(waitingList')
    requires res.Skipped? || res.Fulfilled?
    requires res.Skipped? ==>
      res.available < entries[|results|].numberOfTickets && bookings' == bookings && waitingList' == waitingList
    requires res.Fulfilled? ==>
      var entry := entries[|results|];
      && res.booking == NewBooking(ids[|results|], eventId, entry.userId, entry.numberOfTickets, now)
      && bookings' == bookings + [res.booking]
      && WaitingListRepository.Written(entry, FulfilledAt(entry, now)) in waitingList'
    ensures Progress(events', bookings', waitingList', events0, bookings0, waitingList0, entries, ids, results + [res], eventId, now)
  {
    assert SettledOne(res, entries[|results|], waitingList', ids[|results|], eventId, now);
    ListStep(waitingList, waitingList', waitingList0, entries, ids, results, eventId, now, res);
    BookingsStep(bookings, bookings', bookings0, ids, results, res);
  }

  /** One round of the auto-fulfilment loop: the next entry is fulfilled or skipped. */
  method FulfillNext(db: Database, i: int, ghost events0: seq<EventRecord>, ghost bookings0: seq<BookingRecord>,
                     ghost waitingList0: seq<WaitingListRecord>, entries: seq<WaitingListRecord>, ids: seq<string>,
                     results: seq<EntryResult>, eventId: string, now: int)
    returns (results': seq<EntryResult>)
    requires Progress(db.events, db.bookings, db.waitingList, events0, bookings0, waitingList0, entries, ids, results, eventId, now)
    requires |results| < |entries| && |entries| <= |ids|
    requires 0 <= i < |db.events| && db.events[i].id == eventId
    modifies db`bookings, db`events, db`waitingList
    ensures Progress(db.events, db.bookings, db.waitingList, events0, bookings0, waitingList0, entries, ids, results', eventId, now)
    ensures |results'| == |results| + 1
  {
    var k := |results|;
    var entry := entries[k];
    ghost var events, bookings, waitingList := db.events, db.bookings, db.waitingList;
    var res := FulfillEntry(db, i, entry, ids[k], now);
    ProgressStep(events, bookings, waitingList, db.events, db.bookings, db.waitingList,
                 events0, bookings0, waitingList0, entries, ids, results, eventId, now, res);
    results' := results + [res];
  }

  /**
   * The waiting list after `processWaitingListAfterCancellation`, from
   * `waitingList`, with `available` tickets left: the pending queue was
   * notified while it fitted (the first `count` entries). When none was,
   * nothing was walked. Otherwise the walked queue `notified` holds every
   * entry notified before and every one notified now, and each of them
   * was fulfilled or skipped. Every other row is still there.
   */
  predicate QueueSettled(waitingList: seq<WaitingListRecord>, waitingList': seq<WaitingListRecord>, available: int,
                         eventId: string, ids: seq<string>, now: int,
                         results: seq<EntryResult>, notified: seq<WaitingListRecord>)
  {
    var pending := WaitingListRepository.FindByEventId(waitingList, eventId, Some(Constants.WaitingListStatus.Pending));
    var count := WaitingListService.NotifiedCount(pending, available);
    && (count == 0 ==> results == [] && notified == [])
    && (count > 0 ==>
          && |results| == |notified| && Settled(results, notified, waitingList', ids, eventId, now)
          && (forall m :: 0 <= m < count ==>
                WaitingListRepository.Written(pending[m], WaitingListService.NotifiedAt(pending[m], now)) in notified)
          && (forall x :: x in waitingList && x.eventId == eventId && x.status == Constants.WaitingListStatus.Notified ==>
                x in notified))
    && (forall x :: x in waitingList && x !in pending[..count] && x !in notified ==> x in waitingList')
  }

  /** When the notify step notified no one, nothing is walked and every row stays. */
  lemma NothingWalked(waitingList: seq<WaitingListRecord>, waitingList': seq<WaitingListRecord>, available: int,
                      eventId: string, ids: seq<string>, now: int)
    requires var pending := WaitingListRepository.FindByEventId(waitingList, eventId, Some(Constants.WaitingListStatus.Pending));
      var count := WaitingListService.NotifiedCount(pending, available);
      && count == 0
      && (forall x :: x in waitingList && x !in pending[..count] ==> x in waitingList')
    ensures QueueSettled(waitingList, waitingList', available, eventId, ids, now, [], [])
  {
  }

  /** The notify step followed by the fulfilment walk leaves the waiting list as `QueueSettled` says. */
  lemma QueueSettledAfter(waitingList: seq<WaitingListRecord>, mid: seq<WaitingListRecord>, waitingList': seq<WaitingListRecord>,
                          available: int, eventId: string, ids: seq<string>, now: int,
                          results: seq<EntryResult>, notified: seq<WaitingListRecord>)
    requires var pending := WaitingListRepository.FindByEventId(waitingList, eventId, Some(Constants.WaitingListStatus.Pending));
      var count := WaitingListService.NotifiedCount(pending, available);
      && count > 0
      && (forall m :: 0 <= m < count ==>
            WaitingListRepository.Written(pending[m], WaitingListService.NotifiedAt(pending[m], now)) in mid)
      && (forall x :: x in waitingList && x !in pending[..count] ==> x in mid)
    requires notified == WaitingListRepository.FindByEventId(mid, eventId, Some(Constants.WaitingListStatus.Notified))
    requires |results| == |notified| && Settled(results, notified, waitingList', ids, eventId, now)
    requires forall x :: x in mid && x !in notified ==> x in waitingList'
    ensures QueueSettled(waitingList, waitingList', available, eventId, ids, now, results, notified)
  {
    var pending := WaitingListRepository.FindByEventId(waitingList, eventId, Some(Constants.WaitingListStatus.Pending));
    var count := WaitingListService.NotifiedCount(pending, available);
    forall m | 0 <= m < count
      ensures WaitingListRepository.Written(pending[m], WaitingListService.NotifiedAt(pending[m], now)) in notified
    {
      assert pending[m] in pending;
    }
    forall x | x in waitingList && x.eventId == eventId && x.status == Constants.WaitingListStatus.Notified
      ensures x in notified
    {
      assert x !in pending;
    }
  }

  /**
   * The fulfilment step of `processWaitingListAfterCancellation`, once the
   * notify step has turned `waitingList0` into the current waiting list and
   * notified someone: the event's notified queue is walked.
   */
  method WalkNotified(db: Database, eventId: string, ids: seq<string>, now: int,
                      ghost waitingList0: seq<WaitingListRecord>, ghost available: int)
    returns (results: seq<EntryResult>, ghost notified: seq<WaitingListRecord>)
    requires StoreOk(db) && FreshIds(db.bookings, ids) && |ids| >= |db.waitingList|
    requires var pending := WaitingListRepository.FindByEventId(waitingList0, eventId, Some(Constants.WaitingListStatus.Pending));
      var count := WaitingListService.NotifiedCount(pending, available);
      && count > 0
      && (forall m :: 0 <= m < count ==>
            WaitingListRepository.Written(pending[m], WaitingListService.NotifiedAt(pending[m], now)) in db.waitingList)
      && (forall x :: x in waitingList0 && x !in pending[..count] ==> x in db.waitingList)
    modifies db`bookings, db`events, db`waitingList
    ensures StoreOk(db)
    ensures Consistent(old(db.events), old(db.bookings)) ==> Consistent(db.events, db.bookings)
    ensures db.bookings == old(db.bookings) + BookingsOf(results)
    ensures |db.waitingList| == |old(db.waitingList)|
    ensures WaitingListService.OnePendingPerUser(old(db.waitingList)) ==> WaitingListService.OnePendingPerUser(db.waitingList)
    ensures QueueSettled(waitingList0, db.waitingList, available, eventId, ids, now, results, notified)
  {
    notified := WaitingListRepository.FindByEventId(db.waitingList, eventId, Some(Constants.WaitingListStatus.Notified));
    results := AutoFulfillWaitingList(db, eventId, ids, now);
    QueueSettledAfter(waitingList0, old(db.waitingList), db.waitingList, available, eventId, ids, now, results, notified);
  }

  /**
   * `processWaitingListAfterCancellation(eventId)`, the follow-up
   * `cancelBooking` schedules once it has committed: the waiting list is
   * processed, and only when some entry was notified are the notified
   * entries fulfilled. A failure of either step is rethrown as is.
   * `notified` is the event's notified queue the fulfilment walked: every
   * entry that was notified before and every one notified by the first
   * step. Every other row of the waiting list stays as it was.
   */
  method ProcessWaitingListAfterCancellation(db: Database, eventId: string, ids: seq<string>, now: int)
    returns (r: Outcome<seq<EntryResult>>, ghost notified: seq<WaitingListRecord>)
    requires StoreOk(db) && FreshIds(db.bookings, ids) && |ids| >= |db.waitingList|
    modifies db`bookings, db`events, db`waitingList
    ensures StoreOk(db)
    ensures Consistent(old(db.events), old(db.bookings)) ==> Consistent(db.events, db.bookings)
    ensures !EventExists(old(db.events), eventId) ==>
      && r == Failure(NewDatabaseError("Failed to process waiting list", Some(NewNotFoundError("Event", eventId))))
      && db.waitingList == old(db.waitingList) && db.bookings == old(db.bookings)
    ensures EventExists(old(db.events), eventId) ==> r.Success?
    ensures EventExists(old(db.events), eventId)
            && WaitingListService.NotifiedCount(
                 WaitingListRepository.FindByEventId(old(db.waitingList), eventId, Some(Constants.WaitingListStatus.Pending)),
                 EventRepository.FindById(old(db.events), eventId).value.totalTickets - Booked(old(db.bookings), eventId)) == 0
            ==> r == Success([]) && db.bookings == old(db.bookings) && db.events == old(db.events)
    ensures r.Success? ==> db.bookings == old(db.bookings) + BookingsOf(r.value)
    ensures |db.waitingList| == |old(db.waitingList)|
    ensures WaitingListService.OnePendingPerUser(old(db.waitingList)) ==> WaitingListService.OnePendingPerUser(db.waitingList)
    ensures EventExists(old(db.events), eventId) ==>
      QueueSettled(old(db.waitingList), db.waitingList,
                   EventRepository.FindById(old(db.events), eventId).value.totalTickets - Booked(old(db.bookings), eventId),
                   eventId, ids, now, r.value, notified)
  {
    notified := [];
    var notifiedCount := WaitingListService.ProcessWaitingList(db, eventId, now);
    if notifiedCount.Failure? {
      return Failure(notifiedCount.error), notified;
    }
    ghost var available := EventRepository.FindById(old(db.events), eventId).value.totalTickets - Booked(old(db.bookings), eventId);
    if notifiedCount.value == 0 {
      NothingWalked(old(db.waitingList), db.waitingList, available, eventId, ids, now);
      return Success([]), notified;
    }
    var results;
    results, notified := WalkNotified(db, eventId, ids, now, old(db.waitingList), available);
    r := Success(results);
  }
}

=== FILE: cache_util.dfy ===
/**
 * `CacheUtil`: a string-keyed cache whose entries expire, with deletion by
 * key pattern. The clock is an explicit parameter.
 */
module CacheUtil {
  import opened Wrappers
  import opened Strings

  datatype CacheEntry<V> = CacheEntry(value: V, expiresAt: int)

  /** `defaultTTL`: five minutes. */
  const DefaultTTL: int := 300000

  /** The entry for `key` exists and has not expired at `now` (expiry itself still counts as live). */
  predicate Live<V>(entries: map<string, CacheEntry<V>>, key: string, now: int)
  {
    key in entries && now <= entries[key].expiresAt
  }

  /** What a lookup leaves behind: an expired entry for `key` is deleted, nothing else changes. */
  function Pruned<V>(entries: map<string, CacheEntry<V>>, key: string, now: int): (r: map<string, CacheEntry<V>>)
    ensures key in entries && !Live(entries, key, now) ==> r == entries - {key}
    ensures key !in entries || Live(entries, key, now) ==> r == entries
  {
    if key in entries && now > entries[key].expiresAt then entries - {key} else entries
  }

  /** The position of the first `*` in a pattern, or -1 when there is none. */
  function FirstStar(pattern: string): (i: int)
    ensures -1 <= i < |pattern|
    ensures i >= 0 ==> pattern[i] == '*' && '*' !in pattern[..i]
    ensures i < 0 ==> '*' !in pattern
  {
    if pattern == [] then -1
    else if pattern[0] == '*' then 0
    else
      var i := FirstStar(pattern[1..]);
      assert pattern == [pattern[0]] + pattern[1..];
      if i < 0 then -1
      else
        assert pattern[..i + 1] == [pattern[0]] + pattern[1..][..i];
        i + 1
  }

  /**
   * `new RegExp(pattern.replace('*', '.*')).test(key)`: the first `*`
   * matches any run of characters and the match is not anchored, so the
   * key must contain the text before the star followed, later, by the text
   * after it. Every other character is read literally, which is what the
   * regular expression does when the pattern holds no other metacharacter.
   */
  predicate Matches(key: string, pattern: string)
  {
    var i := FirstStar(pattern);
    if i < 0 then Contains(key, pattern)
    else
      var before := pattern[..i];
      exists j | 0 <= j <= |key| :: OccursAt(key, before, j) && Contains(key[j + |before|..], pattern[i + 1..])
  }

  /** `invalidatePattern("P*")` selects exactly the keys that contain P. */
  lemma TrailingStarMatchesContaining(key: string, prefix: string)
    requires '*' !in prefix
    ensures Matches(key, prefix + "*") <==> Contains(key, prefix)
  {
    var pattern := prefix + "*";
    assert pattern[|prefix|] == '*' && pattern[..|prefix|] == prefix;
    var i := FirstStar(pattern);
    assert i == |prefix| && pattern[i + 1..] == [];
    ContainsIff(key, prefix);
    if Contains(key, prefix) {
      var j :| OccursAt(key, prefix, j);
      assert Contains(key[j + |prefix|..], []);
    }
  }

  /** The entries whose keys do not match `pattern`. */
  function Unmatched<V>(entries: map<string, CacheEntry<V>>, pattern: string): (r: map<string, CacheEntry<V>>)
    ensures forall k :: k in r <==> k in entries && !Matches(k, pattern)
    ensures forall k :: k in r ==> r[k] == entries[k]
  {
    map k | k in entries && !Matches(k, pattern) :: entries[k]
  }

  /** The entries still live at `now`. */
  function Unexpired<V>(entries: map<string, CacheEntry<V>>, now: int): (r: map<string, CacheEntry<V>>)
    ensures forall k :: k in r <==> Live(entries, k, now)
    ensures forall k :: k in r ==> k in entries && r[k] == entries[k]
  {
    map k | k in entries && now <= entries[k].expiresAt :: entries[k]
  }

  class Cache<V> {
    var entries: map<string, CacheEntry<V>>

    constructor()
      ensures entries == map[]
    {
      entries := map[];
    }

    /** `set(key, value, ttlMs)`: replaces any entry, expiring ttlMs (default five minutes) from now. */
    method Set(key: string, value: V, ttlMs: Option<int>, now: int)
      modifies this
      ensures entries == old(entries)[key := CacheEntry(value, now + ttlMs.GetOr(DefaultTTL))]
    {
      entries := entries[key := CacheEntry(value, now + ttlMs.GetOr(DefaultTTL))];
    }

    /** `get(key)`: the value of a live entry, otherwise null, deleting an expired entry. */
    method Get(key: string, now: int) returns (r: Option<V>)
      modifies this
      ensures r.Some? <==> Live(old(entries), key, now)
      ensures r.Some? ==> r.value == old(entries)[key].value
      ensures entries == Pruned(old(entries), key, now)
    {
      if key !in entries {
        return None;
      }
      if now > entries[key].expiresAt {
        entries := entries - {key};
        return None;
      }
      r := Some(entries[key].value);
    }

    /** `delete(key)`: whether an entry, live or expired, was there; afterwards there is none. */
    method Delete(key: string) returns (deleted: bool)
      modifies this
      ensures deleted <==> key in old(entries)
      ensures entries == old(entries) - {key}
    {
      deleted := key in entries;
      entries := entries - {key};
    }

    /** `clear()` */
    method Clear()
      modifies this
      ensures entries == map[]
    {
      entries := map[];
    }

    /** `has(key)`: the same answer and the same clean-up as `get`. */
    method Has(key: string, now: int) returns (present: bool)
      modifies this
      ensures present <==> Live(old(entries), key, now)
      ensures entries == Pruned(old(entries), key, now)
    {
      if key !in entries {
        return false;
      }
      if now > entries[key].expiresAt {
        entries := entries - {key};
        return false;
      }
      present := true;
    }

    /**
     * `invalidatePattern(pattern)`: deletes exactly the entries whose keys
     * match and answers how many there were.
     */
    method InvalidatePattern(pattern: string) returns (count: nat)
      modifies this
      ensures entries == Unmatched(old(entries), pattern)
      ensures count == |old(entries).Keys - entries.Keys|
    {
      var keys := entries.Keys;
      count := 0;
      while keys != {}
        invariant keys <= old(entries).Keys
        invariant forall k :: k in entries <==> k in old(entries) && (k in keys || !Matches(k, pattern))
        invariant forall k :: k in entries ==> entries[k] == old(entries)[k]
        invariant count == |old(entries).Keys - entries.Keys|
        decreases keys
      {
        var k :| k in keys;
        if Matches(k, pattern) {
          assert old(entries).Keys - (entries - {k}).Keys == (old(entries).Keys - entries.Keys) + {k};
          entries := entries - {k};
          count := count + 1;
        }
        keys := keys - {k};
      }
    }

    /** `cleanup()`: removes exactly the entries that have expired at `now`. */
    method Cleanup(now: int)
      modifies this
      ensures entries == Unexpired(old(entries), now)
    {
      var keys := entries.Keys;
      while keys != {}
        invariant keys <= old(entries).Keys
        invariant forall k :: k in entries <==> k in old(entries) && (k in keys || now <= old(entries)[k].expiresAt)
        invariant forall k :: k in entries ==> entries[k] == old(entries)[k]
        decreases keys
      {
        var k :| k in keys;
        if now > entries[k].expiresAt {
          entries := entries - {k};
        }
        keys := keys - {k};
      }
    }
  }
}

=== FILE: constants.dfy ===
/** The status vocabularies of the domain, one datatype per constants file. */
module Constants {

  /** `BOOKING_STATUS`: pending, confirmed, cancelled. */
  datatype BookingStatus = Pending | Confirmed | Cancelled

  /** `WAITING_LIST_STATUS`: pending, notified, fulfilled, cancelled. */
  datatype WaitingListStatus = Pending | Notified | Fulfilled | Cancelled

  /** `ORDER_STATUS`: pending, confirmed, paid, cancelled, refunded. */
  datatype OrderStatus = Pending | Confirmed | Paid | Cancelled | Refunded

  /** `PAYMENT_STATUS`: pending, processing, completed, failed, refunded. */
  datatype PaymentStatus = Pending | Processing | Completed | Failed | Refunded
}

=== FILE: create_event_request.dfy ===
/** The body of a create-event request and its validation. */
module CreateEventRequest {
  import opened Wrappers
  import opened Strings
  import opened Validation

  /** A missing field is `None`; numbers may be fractional, as in a JSON body. */
  datatype CreateEventRequest = CreateEventRequest(
    name: Option<string>,
    description: Option<string>,
    totalTickets: Option<real>)

  /** The messages `validate` can report, in the order of its checks. */
  datatype Message =
    | NameRequired
    | NameTooLong
    | TicketsNotPositive
    | TicketsNotInteger
    | TicketsTooMany
    | DescriptionTooLong
  {
    function Text(): string
    {
      match this
      case NameRequired => "Event name is required"
      case NameTooLong => "Event name must be less than 200 characters"
      case TicketsNotPositive => "Total tickets must be greater than 0"
      case TicketsNotInteger => "Total tickets must be an integer"
      case TicketsTooMany => "Total tickets cannot exceed 1,000,000"
      case DescriptionTooLong => "Description must be less than 1000 characters"
    }

    function Rank(): nat
    {
      match this
      case NameRequired => 0
      case NameTooLong => 1
      case TicketsNotPositive => 2
      case TicketsNotInteger => 3
      case TicketsTooMany => 4
      case DescriptionTooLong => 5
    }
  }

  const MaxNameLength := 200
  const MaxTotalTickets: real := 1000000.0
  const MaxDescriptionLength := 1000

  /** `!totalTickets || totalTickets <= 0` */
  predicate NotPositive(t: Option<real>)
  {
    t.None? || t.value <= 0.0
  }

  /** The checks of `validate`, in the order it runs them. */
  function Checks(req: CreateEventRequest): seq<Check<Message>>
  {
    [ Check(MissingOrBlank(req.name), NameRequired),
      Check(LongerThan(req.name, MaxNameLength), NameTooLong),
      Check(NotPositive(req.totalTickets), TicketsNotPositive),
      Check(!IsWholeNumber(req.totalTickets), TicketsNotInteger),
      Check(req.totalTickets.Some? && req.totalTickets.value > MaxTotalTickets, TicketsTooMany),
      Check(LongerThan(req.description, MaxDescriptionLength), DescriptionTooLong) ]
  }

  /** Runs every check and collects the messages of those that fail. */
  method Validate(req: CreateEventRequest) returns (isValid: bool, errors: seq<Message>)
    ensures errors == Failed(Checks(req))
    ensures isValid <==> errors == []
  {
    ghost var cs := Checks(req);
    errors := [];
    errors := Report(cs, 0, errors, MissingOrBlank(req.name), NameRequired);
    errors := Report(cs, 1, errors, LongerThan(req.name, MaxNameLength), NameTooLong);
    errors := Report(cs, 2, errors, NotPositive(req.totalTickets), TicketsNotPositive);
    errors := Report(cs, 3, errors, !IsWholeNumber(req.totalTickets), TicketsNotInteger);
    errors := Report(cs, 4, errors, req.totalTickets.Some? && req.totalTickets.value > MaxTotalTickets, TicketsTooMany);
    errors := Report(cs, 5, errors, LongerThan(req.description, MaxDescriptionLength), DescriptionTooLong);
    assert cs[..6] == cs;
    isValid := |errors| == 0;
  }

  /**
   * What the reported errors mean: they come in check order, and each
   * message appears exactly when its condition holds.
   */
  lemma ValidateMeaning(req: CreateEventRequest)
    ensures var errors := Failed(Checks(req));
      && InRankOrder(errors, (m: Message) => m.Rank())
      && (NameRequired in errors <==> MissingOrBlank(req.name))
      && (NameTooLong in errors <==> req.name.Some? && Utf16Length(req.name.value) > 200)
      && (TicketsNotPositive in errors <==> req.totalTickets.None? || req.totalTickets.value <= 0.0)
      && (TicketsNotInteger in errors <==> !IsWholeNumber(req.totalTickets))
      && (TicketsTooMany in errors <==> req.totalTickets.Some? && req.totalTickets.value > 1000000.0)
      && (DescriptionTooLong in errors <==> req.description.Some? && Utf16Length(req.description.value) > 1000)
  {
    var cs := Checks(req);
    assert cs[0].msg == NameRequired && cs[1].msg == NameTooLong && cs[2].msg == TicketsNotPositive;
    assert cs[3].msg == TicketsNotInteger && cs[4].msg == TicketsTooMany && cs[5].msg == DescriptionTooLong;
    assert forall i, j :: 0 <= i < j < |cs| ==> cs[i].msg.Rank() < cs[j].msg.Rank();
    FailedSpec(cs, (m: Message) => m.Rank());
  }

  /**
   * A request is accepted exactly when it has a non-blank name of at most
   * 200 UTF-16 code units, an integral ticket count from 1 to 1,000,000, and no
   * description longer than 1000 code units (JavaScript lengths).
   */
  lemma ValidIff(req: CreateEventRequest)
    ensures Failed(Checks(req)) == [] <==>
      && !MissingOrBlank(req.name) && Utf16Length(req.name.value) <= 200
      && IsWholeNumber(req.totalTickets)
      && 1.0 <= req.totalTickets.value <= 1000000.0
      && (req.description.Some? ==> Utf16Length(req.description.value) <= 1000)
  {
    ValidateMeaning(req);
    var errors := Failed(Checks(req));
    if errors != [] {
      assert errors[0] in errors;
    }
    if IsWholeNumber(req.totalTickets) && req.totalTickets.value > 0.0 {
      var t := req.totalTickets.value;
      assert t.Floor >= 1;
    }
  }
}

=== FILE: create_order_request.dfy ===
/** The body of a create-order request, its currency default, and its validation. */
module CreateOrderRequest {
  import opened Wrappers
  import opened Strings
  import opened Patterns
  import opened Validation
  import Js

  /** The request body as received: every field may be missing. */
  datatype CreateOrderBody = CreateOrderBody(
    userId: Option<string>,
    eventId: Option<string>,
    bookingId: Option<string>,
    totalAmount: Option<real>,
    currency: Option<string>,
    paymentMethod: Option<string>,
    customerName: Option<string>,
    customerEmail: Option<string>,
    customerPhone: Option<string>,
    billingAddress: Option<string>,
    notes: Option<string>)

  /** The request model: as the body, with the currency defaulted. */
  datatype CreateOrderRequest = CreateOrderRequest(
    userId: Option<string>,
    eventId: Option<string>,
    bookingId: Option<string>,
    totalAmount: Option<real>,
    currency: string,
    paymentMethod: Option<string>,
    customerName: Option<string>,
    customerEmail: Option<string>,
    customerPhone: Option<string>,
    billingAddress: Option<string>,
    notes: Option<string>)

  const DefaultCurrency := "NGN"
  const MaxTotalAmount: real := 1000000.0

  /** The constructor: `currency = data.currency || 'NGN'`, every other field copied. */
  function FromBody(body: CreateOrderBody): (req: CreateOrderRequest)
    ensures body.currency.None? || body.currency.value == "" ==> req.currency == "NGN"
    ensures body.currency.Some? && body.currency.value != "" ==> req.currency == body.currency.value
    ensures req.currency != ""
    ensures req.userId == body.userId && req.eventId == body.eventId && req.bookingId == body.bookingId
    ensures req.totalAmount == body.totalAmount && req.customerEmail == body.customerEmail
  {
    CreateOrderRequest(
      body.userId, body.eventId, body.bookingId, body.totalAmount,
      Js.StrOr(body.currency, DefaultCurrency),
      body.paymentMethod, body.customerName, body.customerEmail, body.customerPhone,
      body.billingAddress, body.notes)
  }

  /** The messages `validate` can report, in the order of its checks. */
  datatype Message =
    | UserIdRequired
    | EventIdRequired
    | BookingIdRequired
    | AmountNotPositive
    | AmountTooLarge
    | InvalidEmail
    | CurrencyNotThreeLetters
  {
    function Text(): string
    {
      match this
      case UserIdRequired => "User ID is required"
      case EventIdRequired => "Event ID is required"
      case BookingIdRequired => "Booking ID is required"
      case AmountNotPositive => "Total amount must be greater than 0"
      case AmountTooLarge => "Total amount cannot exceed 1,000,000"
      case InvalidEmail => "Invalid email format"
      case CurrencyNotThreeLetters => "Currency must be a 3-letter code (e.g., NGN, USD)"
    }

    function Rank(): nat
    {
      match this
      case UserIdRequired => 0
      case EventIdRequired => 1
      case BookingIdRequired => 2
      case AmountNotPositive => 3
      case AmountTooLarge => 4
      case InvalidEmail => 5
      case CurrencyNotThreeLetters => 6
    }
  }

  /** `customerEmail && !EMAIL.test(customerEmail)`: an empty address is not checked. */
  predicate BadEmail(email: Option<string>)
  {
    email.Some? && email.value != "" && !IsEmail(email.value)
  }

  /** The checks of `validate`, in the order it runs them. */
  function Checks(req: CreateOrderRequest): seq<Check<Message>>
  {
    [ Check(MissingOrBlank(req.userId), UserIdRequired),
      Check(MissingOrBlank(req.eventId), EventIdRequired),
      Check(MissingOrBlank(req.bookingId), BookingIdRequired),
      Check(req.totalAmount.None? || req.totalAmount.value <= 0.0, AmountNotPositive),
      Check(req.totalAmount.Some? && req.totalAmount.value > MaxTotalAmount, AmountTooLarge),
      Check(BadEmail(req.customerEmail), InvalidEmail),
      Check(req.currency != "" && Utf16Length(req.currency) != 3, CurrencyNotThreeLetters) ]
  }

  /** Runs every check and collects the messages of those that fail. */
  method Validate(req: CreateOrderRequest) returns (isValid: bool, errors: seq<Message>)
    ensures errors == Failed(Checks(req))
    ensures isValid <==> errors == []
  {
    ghost var cs := Checks(req);
    errors := [];
    errors := Report(cs, 0, errors, MissingOrBlank(req.userId), UserIdRequired);
    errors := Report(cs, 1, errors, MissingOrBlank(req.eventId), EventIdRequired);
    errors := Report(cs, 2, errors, MissingOrBlank(req.bookingId), BookingIdRequired);
    errors := Report(cs, 3, errors, req.totalAmount.None? || req.totalAmount.value <= 0.0, AmountNotPositive);
    errors := Report(cs, 4, errors, req.totalAmount.Some? && req.totalAmount.value > MaxTotalAmount, AmountTooLarge);
    errors := Report(cs, 5, errors, BadEmail(req.customerEmail), InvalidEmail);
    errors := Report(cs, 6, errors, req.currency != "" && Utf16Length(req.currency) != 3, CurrencyNotThreeLetters);
    assert cs[..7] == cs;
    isValid := |errors| == 0;
  }

  /** Errors come in check order, and each appears exactly when its condition holds. */
  lemma ValidateMeaning(req: CreateOrderRequest)
    ensures var errors := Failed(Checks(req));
      && InRankOrder(errors, (m: Message) => m.Rank())
      && (UserIdRequired in errors <==> MissingOrBlank(req.userId))
      && (EventIdRequired in errors <==> MissingOrBlank(req.eventId))
      && (BookingIdRequired in errors <==> MissingOrBlank(req.bookingId))
      && (AmountNotPositive in errors <==> req.totalAmount.None? || req.totalAmount.value <= 0.0)
      && (AmountTooLarge in errors <==> req.totalAmount.Some? && req.totalAmount.value > 1000000.0)
      && (InvalidEmail in errors <==>
            req.customerEmail.Some? && req.customerEmail.value != "" && !IsEmail(req.customerEmail.value))
      && (CurrencyNotThreeLetters in errors <==> req.currency != "" && Utf16Length(req.currency) != 3)
  {
    var cs := Checks(req);
    assert cs[0].msg == UserIdRequired && cs[1].msg == EventIdRequired && cs[2].msg == BookingIdRequired;
    assert cs[3].msg == AmountNotPositive && cs[4].msg == AmountTooLarge && cs[5].msg == InvalidEmail;
    assert cs[6].msg == CurrencyNotThreeLetters;
    assert forall i, j :: 0 <= i < j < |cs| ==> cs[i].msg.Rank() < cs[j].msg.Rank();
    FailedSpec(cs, (m: Message) => m.Rank());
  }

  /**
   * A request built from a body is accepted exactly when the three ids are
   * non-blank, the amount lies in (0, 1,000,000], a given address matches
   * the email pattern, and the currency, after the default, has three
   * UTF-16 code units; a body without a currency therefore never fails the
   * currency check.
   */
  lemma ValidIff(body: CreateOrderBody)
    ensures var req := FromBody(body);
      Failed(Checks(req)) == [] <==>
        && !MissingOrBlank(body.userId) && !MissingOrBlank(body.eventId) && !MissingOrBlank(body.bookingId)
        && body.totalAmount.Some? && 0.0 < body.totalAmount.value <= 1000000.0
        && (body.customerEmail.Some? && body.customerEmail.value != "" ==> IsEmail(body.customerEmail.value))
        && Utf16Length(req.currency) == 3
    ensures body.currency.None? ==> CurrencyNotThreeLetters !in Failed(Checks(FromBody(body)))
  {
    var req := FromBody(body);
    ValidateMeaning(req);
    var errors := Failed(Checks(req));
    var ok := && !MissingOrBlank(body.userId) && !MissingOrBlank(body.eventId) && !MissingOrBlank(body.bookingId)
      && body.totalAmount.Some? && 0.0 < body.totalAmount.value <= 1000000.0
      && (body.customerEmail.Some? && body.customerEmail.value != "" ==> IsEmail(body.customerEmail.value))
      && Utf16Length(req.currency) == 3;
    if errors != [] {
      assert errors[0] in errors;
      match errors[0]
      case UserIdRequired => assert !ok;
      case EventIdRequired => assert !ok;
      case BookingIdRequired => assert !ok;
      case AmountNotPositive => assert !ok;
      case AmountTooLarge => assert !ok;
      case InvalidEmail => assert !ok;
      case CurrencyNotThreeLetters => assert !ok;
    }
  }
}

=== FILE: create_waiting_list_request.dfy ===
/** The body of a join-the-waiting-list request and its validation. */
module CreateWaitingListRequest {
  import opened Wrappers
  import opened Strings
  import opened Validation

  datatype CreateWaitingListRequest = CreateWaitingListRequest(
    eventId: Option<string>,
    userId: Option<string>,
    numberOfTickets: Option<real>)

  /** The messages `validate` can report, in the order of its checks. */
  datatype Message =
    | EventIdRequired
    | UserIdRequired
    | TicketsNotPositive
    | TicketsNotInteger
    | TicketsTooMany
  {
    function Text(): string
    {
      match this
      case EventIdRequired => "Event ID is required"
      case UserIdRequired => "User ID is required"
      case TicketsNotPositive => "Number of tickets must be greater than 0"
      case TicketsNotInteger => "Number of tickets must be an integer"
      case TicketsTooMany => "Cannot request more than 100 tickets on waiting list"
    }

    function Rank(): nat
    {
      match this
      case EventIdRequired => 0
      case UserIdRequired => 1
      case TicketsNotPositive => 2
      case TicketsNotInteger => 3
      case TicketsTooMany => 4
    }
  }

  const MaxTickets: real := 100.0

  /** The checks of `validate`, in the order it runs them. */
  function Checks(req: CreateWaitingListRequest): seq<Check<Message>>
  {
    [ Check(MissingOrBlank(req.eventId), EventIdRequired),
      Check(MissingOrBlank(req.userId), UserIdRequired),
      Check(req.numberOfTickets.None? || req.numberOfTickets.value <= 0.0, TicketsNotPositive),
      Check(!IsWholeNumber(req.numberOfTickets), TicketsNotInteger),
      Check(req.numberOfTickets.Some? && req.numberOfTickets.value > MaxTickets, TicketsTooMany) ]
  }

  /** Runs every check and collects the messages of those that fail. */
  method Validate(req: CreateWaitingListRequest) returns (isValid: bool, errors: seq<Message>)
    ensures errors == Failed(Checks(req))
    ensures isValid <==> errors == []
  {
    ghost var cs := Checks(req);
    errors := [];
    errors := Report(cs, 0, errors, MissingOrBlank(req.eventId), EventIdRequired);
    errors := Report(cs, 1, errors, MissingOrBlank(req.userId), UserIdRequired);
    errors := Report(cs, 2, errors, req.numberOfTickets.None? || req.numberOfTickets.value <= 0.0, TicketsNotPositive);
    errors := Report(cs, 3, errors, !IsWholeNumber(req.numberOfTickets), TicketsNotInteger);
    errors := Report(cs, 4, errors, req.numberOfTickets.Some? && req.numberOfTickets.value > MaxTickets, TicketsTooMany);
    assert cs[..5] == cs;
    isValid := |errors| == 0;
  }

  /** Errors come in check order, and each appears exactly when its condition holds. */
  lemma ValidateMeaning(req: CreateWaitingListRequest)
    ensures var errors := Failed(Checks(req));
      && InRankOrder(errors, (m: Message) => m.Rank())
      && (EventIdRequired in errors <==> MissingOrBlank(req.eventId))
      && (UserIdRequired in errors <==> MissingOrBlank(req.userId))
      && (TicketsNotPositive in errors <==> req.numberOfTickets.None? || req.numberOfTickets.value <= 0.0)
      && (TicketsNotInteger in errors <==> !IsWholeNumber(req.numberOfTickets))
      && (TicketsTooMany in errors <==> req.numberOfTickets.Some? && req.numberOfTickets.value > 100.0)
  {
    var cs := Checks(req);
    assert cs[0].msg == EventIdRequired && cs[1].msg == UserIdRequired && cs[2].msg == TicketsNotPositive;
    assert cs[3].msg == TicketsNotInteger && cs[4].msg == TicketsTooMany;
    assert forall i, j :: 0 <= i < j < |cs| ==> cs[i].msg.Rank() < cs[j].msg.Rank();
    FailedSpec(cs, (m: Message) => m.Rank());
  }

  /**
   * A request is accepted exactly when both ids are non-blank and the
   * ticket count is a whole number from 1 to 100.
   */
  lemma ValidIff(req: CreateWaitingListRequest)
    ensures Failed(Checks(req)) == [] <==>
      && !MissingOrBlank(req.eventId) && !MissingOrBlank(req.userId)
      && IsWholeNumber(req.numberOfTickets)
      && 1.0 <= req.numberOfTickets.value <= 100.0
  {
    ValidateMeaning(req);
    var errors := Failed(Checks(req));
    if errors == [] {
      var t := req.numberOfTickets.value;
      assert t > 0.0 && t == t.Floor as real;
      assert t.Floor >= 1;
    } else {
      var ok := !MissingOrBlank(req.eventId) && !MissingOrBlank(req.userId)
        && IsWholeNumber(req.numberOfTickets) && 1.0 <= req.numberOfTickets.value <= 100.0;
      assert errors[0] in errors;
      match errors[0]
      case EventIdRequired => assert !ok;
      case UserIdRequired => assert !ok;
      case TicketsNotPositive => assert !ok;
      case TicketsNotInteger => assert !ok;
      case TicketsTooMany => assert !ok;
    }
  }
}

=== FILE: custom_errors.dfy ===
/**
 * The `AppError` class hierarchy and the plain `Error`s thrown by the
 * database layer, as one datatype: each constructor is one class, and
 * `instanceof` becomes a constructor test.
 */
module CustomErrors {
  import opened Wrappers

  datatype Error =
    /** `new Error(message)`: driver failures, the repositories' version-mismatch error, lock timeouts. */
    | PlainError(message: string)
    /** A thrown value that is not an `Error` at all (`throw undefined`). */
    | NonErrorValue
    | AppError(message: string, statusCode: int, isOperational: bool)
    | ValidationError(message: string, errors: seq<string>)
    | NotFoundError(message: string)
    | ConflictError(message: string)
    | UnauthorizedError(message: string)
    | ForbiddenError(message: string)
    | DatabaseError(message: string, cause: Option<Error>)
    | ConcurrencyError(message: string)
  {
    /** `e instanceof Error` */
    predicate IsErrorInstance()
    {
      !NonErrorValue?
    }

    /** `e instanceof AppError` */
    predicate IsAppError()
    {
      !NonErrorValue? && !PlainError?
    }

    /** The `statusCode` each class sets; plain errors carry none. */
    function StatusCode(): (code: Option<int>)
      ensures code.Some? <==> IsAppError()
    {
      match this
      case PlainError(_) => None
      case NonErrorValue => None
      case AppError(_, code, _) => Some(code)
      case ValidationError(_, _) => Some(400)
      case NotFoundError(_) => Some(404)
      case ConflictError(_) => Some(409)
      case UnauthorizedError(_) => Some(401)
      case ForbiddenError(_) => Some(403)
      case DatabaseError(_, _) => Some(500)
      case ConcurrencyError(_) => Some(409)
    }

    /** The `isOperational` flag: false only for database errors (and as given for a bare AppError). */
    function Operational(): (flag: Option<bool>)
      ensures flag.Some? <==> IsAppError()
    {
      match this
      case PlainError(_) => None
      case NonErrorValue => None
      case AppError(_, _, op) => Some(op)
      case DatabaseError(_, _) => Some(false)
      case _ => Some(true)
    }
  }

  /** What a service operation returns or throws. */
  type Outcome<T> = Result<T, Error>

  /** `new AppError(message, statusCode = 500, isOperational = true)` */
  function NewAppError(message: string, statusCode: Option<int>, isOperational: Option<bool>): (e: Error)
    ensures e.IsAppError() && e.message == message
    ensures e.StatusCode() == Some(statusCode.GetOr(500))
    ensures e.Operational() == Some(isOperational.GetOr(true))
  {
    AppError(message, statusCode.GetOr(500), isOperational.GetOr(true))
  }

  /** `new ValidationError(message, errors = [])` */
  function NewValidationError(message: string, errors: Option<seq<string>>): (e: Error)
    ensures e.ValidationError? && e.message == message
    ensures e.StatusCode() == Some(400) && e.Operational() == Some(true)
    ensures errors.None? ==> e.errors == []
  {
    ValidationError(message, errors.GetOr([]))
  }

  /**
   * `new NotFoundError(resource, id)`: the id is mentioned only when it is
   * truthy (an empty or missing id, passed here as "", is left out).
   */
  function NewNotFoundError(resource: string, id: string): (e: Error)
    ensures e.NotFoundError? && e.StatusCode() == Some(404) && e.Operational() == Some(true)
    ensures id != "" ==> e.message == resource + " with id " + id + " not found"
    ensures id == "" ==> e.message == resource + " not found"
  {
    NotFoundError(if id != "" then resource + " with id " + id + " not found" else resource + " not found")
  }

  /** `new ConflictError(message)` */
  function NewConflictError(message: string): (e: Error)
    ensures e.ConflictError? && e.message == message
    ensures e.StatusCode() == Some(409) && e.Operational() == Some(true)
  {
    ConflictError(message)
  }

  /** `new UnauthorizedError(message = 'Unauthorized')` */
  function NewUnauthorizedError(message: Option<string>): (e: Error)
    ensures e.UnauthorizedError? && e.StatusCode() == Some(401)
    ensures e.message == message.GetOr("Unauthorized")
  {
    UnauthorizedError(message.GetOr("Unauthorized"))
  }

  /** `new ForbiddenError(message = 'Forbidden')` */
  function NewForbiddenError(message: Option<string>): (e: Error)
    ensures e.ForbiddenError? && e.StatusCode() == Some(403)
    ensures e.message == message.GetOr("Forbidden")
  {
    ForbiddenError(message.GetOr("Forbidden"))
  }

  /**
   * `new DatabaseError(message, originalError)`: the message gains the
   * "Database error: " prefix, the error is not operational, and the cause is
   * kept only when the original is an `Error`.
   */
  function NewDatabaseError(message: string, originalError: Option<Error>): (e: Error)
    ensures e.DatabaseError? && e.message == "Database error: " + message
    ensures e.StatusCode() == Some(500) && e.Operational() == Some(false)
    ensures e.cause.Some? <==> originalError.Some? && originalError.value.IsErrorInstance()
    ensures e.cause.Some? ==> e.cause == originalError
  {
    var cause := if originalError.Some? && originalError.value.IsErrorInstance() then originalError else None;
    DatabaseError("Database error: " + message, cause)
  }

  /** `new ConcurrencyError(message = 'Resource was modified by another operation')` */
  function NewConcurrencyError(message: Option<string>): (e: Error)
    ensures e.ConcurrencyError? && e.StatusCode() == Some(409)
    ensures e.message == message.GetOr("Resource was modified by another operation")
  {
    ConcurrencyError(message.GetOr("Resource was modified by another operation"))
  }

  /**
   * The catch block every service ends with: errors the service lets through
   * are rethrown unchanged, anything else becomes a `DatabaseError` with the
   * service's message and the original as cause.
   */
  function RethrowOrWrap(e: Error, passThrough: Error -> bool, message: string): (r: Error)
    ensures passThrough(e) ==> r == e
    ensures !passThrough(e) ==> r.DatabaseError? && r.message == "Database error: " + message
    ensures !passThrough(e) && e.IsErrorInstance() ==> r.cause == Some(e)
  {
    if passThrough(e) then e else NewDatabaseError(message, Some(e))
  }
}

=== FILE: event_entity.dfy ===
/** The `Event` entity: an event with a fixed ticket capacity. */
module EventEntity {
  import opened Wrappers
  import opened Numbers
  import opened Js

  /** The argument of `new Event(data)`; every field may be missing. Timestamps are clock readings. */
  datatype EventData = EventData(
    id: Option<string>, name: Option<string>, description: Option<string>,
    totalTickets: Option<int>, availableTickets: Option<int>, bookedTickets: Option<int>,
    version: Option<int>, createdAt: Option<int>, updatedAt: Option<int>)

  /** The nine fields `toJSON` returns; a row of the events table has the same shape. */
  datatype EventRecord = EventRecord(
    id: string, name: string, description: Option<string>,
    totalTickets: int, availableTickets: int, bookedTickets: int,
    version: int, createdAt: int, updatedAt: int)

  /**
   * The constructor's defaults. `||` replaces missing and falsy values, `??`
   * only missing ones: an explicit availableTickets or version of 0 is kept,
   * and a missing availableTickets falls back to totalTickets as given.
   * A missing timestamp is the current time.
   */
  function FromData(data: EventData, now: int): (r: EventRecord)
    ensures r.id == StrOr(data.id, "") && r.name == StrOr(data.name, "")
    ensures r.description == data.description
    ensures r.totalTickets == NumOr(data.totalTickets, 0) && r.bookedTickets == NumOr(data.bookedTickets, 0)
    ensures data.availableTickets.Some? ==> r.availableTickets == data.availableTickets.value
    ensures data.availableTickets.None? ==> r.availableTickets == data.totalTickets.GetOr(0)
    ensures data.version.Some? ==> r.version == data.version.value
    ensures data.version.None? ==> r.version == 0
    ensures r.createdAt == data.createdAt.GetOr(now) && r.updatedAt == data.updatedAt.GetOr(now)
  {
    EventRecord(
      StrOr(data.id, ""), StrOr(data.name, ""), data.description,
      NumOr(data.totalTickets, 0),
      if data.availableTickets.Some? then data.availableTickets.value else data.totalTickets.GetOr(0),
      NumOr(data.bookedTickets, 0),
      data.version.GetOr(0), data.createdAt.GetOr(now), data.updatedAt.GetOr(now))
  }

  /** The constructor argument the repository builds from a stored row. */
  function AsData(r: EventRecord): EventData
  {
    EventData(Some(r.id), Some(r.name), r.description, Some(r.totalTickets), Some(r.availableTickets),
      Some(r.bookedTickets), Some(r.version), Some(r.createdAt), Some(r.updatedAt))
  }

  /** Reading a row back through the constructor loses nothing: the defaults never fire on a stored value. */
  lemma RowRoundTrip(r: EventRecord, now: int)
    ensures FromData(AsData(r), now) == r
  {
  }

  /**
   * `updateAvailableTickets()`: availableTickets becomes max(0, total − booked),
   * never negative and never above what the capacity leaves; nothing else changes.
   */
  function WithAvailableRecomputed(e: EventRecord): (r: EventRecord)
    ensures r == e.(availableTickets := r.availableTickets)
    ensures r.availableTickets >= 0 && r.availableTickets >= e.totalTickets - e.bookedTickets
    ensures r.availableTickets == 0 || r.availableTickets == e.totalTickets - e.bookedTickets
  {
    e.(availableTickets := Max(0, e.totalTickets - e.bookedTickets))
  }

  /** The event is sold out exactly when nothing is left once the bookings are counted. */
  lemma SoldOutIff(e: EventRecord)
    ensures WithAvailableRecomputed(e).availableTickets == 0 <==> e.bookedTickets >= e.totalTickets
  {
  }

  class Event {
    var id: string
    var name: string
    var description: Option<string>
    var totalTickets: int
    var availableTickets: int
    var bookedTickets: int
    var version: int
    var createdAt: int
    var updatedAt: int

    /** The plain object of the nine fields. */
    function ToJSON(): EventRecord
      reads this
    {
      EventRecord(id, name, description, totalTickets, availableTickets, bookedTickets,
        version, createdAt, updatedAt)
    }

    constructor(data: EventData, now: int)
      ensures ToJSON() == FromData(data, now)
    {
      var r := FromData(data, now);
      id, name, description := r.id, r.name, r.description;
      totalTickets, availableTickets, bookedTickets := r.totalTickets, r.availableTickets, r.bookedTickets;
      version, createdAt, updatedAt := r.version, r.createdAt, r.updatedAt;
    }

    function GetVersion(): int
      reads this
    {
      version
    }

    method SetVersion(v: int)
      modifies this`version
      ensures GetVersion() == v
      ensures ToJSON() == old(ToJSON()).(version := v)
    {
      version := v;
    }

    method UpdateAvailableTickets()
      modifies this`availableTickets
      ensures ToJSON() == WithAvailableRecomputed(old(ToJSON()))
    {
      availableTickets := Max(0, totalTickets - bookedTickets);
    }
  }
}

=== FILE: event_repository.dfy ===
/**
 * The events table: lookups, the INSERT with its CHECK constraints, the
 * version-checked UPDATE, the DELETE with its cascade to the rows that
 * reference the event, and the sort column and direction of the list query.
 */
module EventRepository {
  import opened Wrappers
  import opened Js
  import opened CustomErrors
  import opened EventEntity
  import opened BookingEntity
  import opened Store
  import Pagination
  import BookingRepository
  import WaitingListRepository
  import OrderRepository

  function IndexOf(rows: seq<EventRecord>, id: string): (i: int)
    ensures -1 <= i < |rows|
    ensures i >= 0 ==> rows[i].id == id
    ensures i < 0 ==> forall k :: 0 <= k < |rows| ==> rows[k].id != id
  {
    if rows == [] then -1
    else if rows[|rows| - 1].id == id then |rows| - 1
    else IndexOf(rows[..|rows| - 1], id)
  }

  /** `findById`: the stored row, or null. */
  function FindById(rows: seq<EventRecord>, id: string): (r: Option<EventRecord>)
    ensures r.Some? <==> EventExists(rows, id)
    ensures r.Some? ==> r.value.id == id && r.value in rows
  {
    var i := IndexOf(rows, id);
    if i < 0 then None else Some(rows[i])
  }

  /**
   * The table's CHECK constraints: a positive capacity, non-negative
   * available and booked counts, and a name of at most 200 characters.
   */
  predicate RowOk(e: EventRecord)
  {
    e.totalTickets > 0 && e.availableTickets >= 0 && e.bookedTickets >= 0 && |e.name| <= 200
  }

  predicate UniqueIds(rows: seq<EventRecord>)
  {
    forall i, j :: 0 <= i < j < |rows| ==> rows[i].id != rows[j].id
  }

  predicate TableOk(rows: seq<EventRecord>)
  {
    UniqueIds(rows) && forall i :: 0 <= i < |rows| ==> RowOk(rows[i])
  }

  lemma IndexOfUnique(rows: seq<EventRecord>, k: int)
    requires UniqueIds(rows) && 0 <= k < |rows|
    ensures IndexOf(rows, rows[k].id) == k
  {
  }

  /** The row `create` stores: version 0 whatever the input says, and an empty description as NULL. */
  function Stored(e: EventRecord): (r: EventRecord)
    ensures r.version == 0 && r.description != Some("")
    ensures r.(version := e.version, description := e.description) == e
  {
    e.(description := OrNull(e.description), version := 0)
  }

  /**
   * `create`: the INSERT succeeds when the id is new and the row satisfies
   * the CHECK constraints.
   */
  method Create(db: Database, e: EventRecord) returns (r: Outcome<EventRecord>)
    modifies db`events
    ensures r.Success? <==> IndexOf(old(db.events), e.id) < 0 && RowOk(e)
    ensures r.Success? ==> r.value == Stored(e) && db.events == old(db.events) + [Stored(e)]
    ensures r.Failure? ==> r.error == PlainError(ConstraintViolation) && db.events == old(db.events)
  {
    if IndexOf(db.events, e.id) >= 0 || !RowOk(e) {
      return Failure(PlainError(ConstraintViolation));
    }
    db.events := db.events + [Stored(e)];
    r := Success(Stored(e));
  }

  /**
   * The row a successful `update` leaves: name, description, the three
   * counters and updatedAt come from the entity, the version goes up by
   * one, and the creation time stays as stored.
   */
  function Written(stored: EventRecord, e: EventRecord): (r: EventRecord)
    ensures r.id == stored.id && r.createdAt == stored.createdAt && r.version == stored.version + 1
    ensures r.name == e.name && r.description == OrNull(e.description)
    ensures r.totalTickets == e.totalTickets && r.availableTickets == e.availableTickets
    ensures r.bookedTickets == e.bookedTickets && r.updatedAt == e.updatedAt
  {
    stored.(name := e.name, description := OrNull(e.description), totalTickets := e.totalTickets,
            availableTickets := e.availableTickets, bookedTickets := e.bookedTickets,
            version := stored.version + 1, updatedAt := e.updatedAt)
  }

  /**
   * `update(event, expectedVersion)`: with an expected version the row is
   * written only if its stored version equals it, and otherwise a plain
   * `Error('ConcurrencyError')` is thrown; without one the row is written
   * whatever its version. A written row must still satisfy the CHECK
   * constraints. Nothing changes on failure.
   */
  method Update(db: Database, e: EventRecord, expectedVersion: Option<int>) returns (r: Outcome<EventRecord>)
    modifies db`events
    ensures var i := IndexOf(old(db.events), e.id);
      && (expectedVersion.Some? && (i < 0 || old(db.events)[i].version != expectedVersion.value)
          ==> r == Failure(PlainError(VersionMismatch)))
      && (expectedVersion.None? && i < 0 ==> r == Failure(PlainError(MissingRow)))
      && (i >= 0 && (expectedVersion.None? || old(db.events)[i].version == expectedVersion.value) ==>
            if RowOk(Written(old(db.events)[i], e))
            then r == Success(Written(old(db.events)[i], e)) && db.events == old(db.events)[i := r.value]
            else r == Failure(PlainError(ConstraintViolation)))
    ensures r.Failure? ==> db.events == old(db.events)
  {
    var i := IndexOf(db.events, e.id);
    if i < 0 || (expectedVersion.Some? && db.events[i].version != expectedVersion.value) {
      return Failure(PlainError(if expectedVersion.Some? then VersionMismatch else MissingRow));
    }
    var written := Written(db.events[i], e);
    if !RowOk(written) {
      return Failure(PlainError(ConstraintViolation));
    }
    db.events := db.events[i := written];
    r := Success(written);
  }

  lemma WrittenKeepsTable(rows: seq<EventRecord>, i: int, e: EventRecord)
    requires TableOk(rows) && 0 <= i < |rows| && RowOk(Written(rows[i], e))
    ensures TableOk(rows[i := Written(rows[i], e)])
  {
  }

  /** The ids of the bookings of `eventId`, which its deletion removes. */
  function BookingIdsOf(rows: seq<BookingRecord>, eventId: string): (r: set<string>)
    ensures forall id :: id in r <==> exists k :: 0 <= k < |rows| && rows[k].eventId == eventId && rows[k].id == id
  {
    set k | 0 <= k < |rows| && rows[k].eventId == eventId :: rows[k].id
  }

  /**
   * `delete(id)`: answers whether a row was removed. Removing it deletes,
   * through `ON DELETE CASCADE`, the event's bookings and waiting-list
   * entries, and the orders of the event or of its bookings; the other
   * tables' rows stay in order.
   */
  method Delete(db: Database, id: string) returns (deleted: bool)
    modifies db`events, db`bookings, db`waitingList, db`orders
    ensures deleted <==> EventExists(old(db.events), id)
    ensures deleted ==> var i := IndexOf(old(db.events), id);
      && db.events == old(db.events)[..i] + old(db.events)[i + 1..]
      && db.bookings == BookingRepository.WithoutEvent(old(db.bookings), id)
      && db.waitingList == WaitingListRepository.WithoutEvent(old(db.waitingList), id)
      && db.orders == OrderRepository.WithoutEvent(old(db.orders), id, BookingIdsOf(old(db.bookings), id))
    ensures !deleted ==>
      db.events == old(db.events) && db.bookings == old(db.bookings)
      && db.waitingList == old(db.waitingList) && db.orders == old(db.orders)
  {
    var i := IndexOf(db.events, id);
    if i < 0 {
      return false;
    }
    db.orders := OrderRepository.WithoutEvent(db.orders, id, BookingIdsOf(db.bookings, id));
    db.bookings := BookingRepository.WithoutEvent(db.bookings, id);
    db.waitingList := WaitingListRepository.WithoutEvent(db.waitingList, id);
    db.events := db.events[..i] + db.events[i + 1..];
    deleted := true;
  }

  /** Deleting one event leaves the other events' rows, in order, and removes the deleted id. */
  lemma DeleteLeavesOthers(rows: seq<EventRecord>, i: int)
    requires UniqueIds(rows) && 0 <= i < |rows|
    ensures UniqueIds(rows[..i] + rows[i + 1..])
    ensures !EventExists(rows[..i] + rows[i + 1..], rows[i].id)
    ensures forall x :: x in rows && x.id != rows[i].id ==> x in rows[..i] + rows[i + 1..]
  {
    var r := rows[..i] + rows[i + 1..];
    assert forall k :: 0 <= k < |r| ==> r[k] == (if k < i then rows[k] else rows[k + 1]);
    forall x | x in rows && x.id != rows[i].id ensures x in r {
      var k :| 0 <= k < |rows| && rows[k] == x;
      if k < i { assert r[k] == x; } else { assert r[k - 1] == x; }
    }
  }

  /** `columnMap`: each entity field name and its column. */
  const ColumnMap: map<string, string> :=
    map["id" := "id", "name" := "name", "description" := "description",
        "totalTickets" := "total_tickets", "availableTickets" := "available_tickets",
        "bookedTickets" := "booked_tickets", "version" := "version",
        "createdAt" := "created_at", "updatedAt" := "updated_at"]

  /** The nine columns of the table, the only names the list query can sort by. */
  const Columns: set<string> :=
    {"id", "name", "description", "total_tickets", "available_tickets", "booked_tickets",
     "version", "created_at", "updated_at"}

  /**
   * The names every object literal inherits from `Object.prototype`.
   * Looking one up in `columnMap` yields a function or an object, which is
   * truthy, never `undefined`.
   */
  const PrototypeKeys: set<string> :=
    {"constructor", "__defineGetter__", "__defineSetter__", "hasOwnProperty", "__lookupGetter__",
     "__lookupSetter__", "isPrototypeOf", "propertyIsEnumerable", "toString", "valueOf",
     "__proto__", "toLocaleString"}

  /** What `mapFieldToColumn` hands to ORDER BY: a column name, or the inherited member named `key`. */
  datatype SortKey = Column(name: string) | Inherited(key: string)

  /**
   * `mapFieldToColumn(field)`: an entity field name becomes its column and
   * an unknown name becomes 'created_at'; but a name `columnMap` inherits
   * from `Object.prototype` is found too, and its member is returned as is.
   */
  function MapFieldToColumn(field: string): (r: SortKey)
    ensures r.Column? ==> r.name in Columns
    ensures r.Inherited? <==> field in PrototypeKeys
    ensures field in ColumnMap ==> r == Column(ColumnMap[field])
    ensures field !in ColumnMap && field !in PrototypeKeys ==> r == Column("created_at")
    ensures r.Inherited? ==> r.key == field
  {
    if field in ColumnMap then Column(ColumnMap[field])
    else if field in PrototypeKeys then Inherited(field)
    else Column("created_at")
  }

  /** The window and order `findAll` asks the database for. */
  datatype ListQuery = ListQuery(offset: int, limit: int, column: SortKey, ascending: bool)

  /**
   * `findAll(pagination)`: page and limit fall back to 1 and 10 when missing
   * or zero, the sort field ('createdAt' when not given) is mapped, and the
   * order is ascending only for the exact sortOrder 'asc'.
   */
  function FindAllQuery(pagination: Option<Pagination.Params>): (q: ListQuery)
    ensures q.column.Column? ==> q.column.name in Columns
    ensures q.column.Inherited? <==> pagination.Some? && pagination.value.sortBy in PrototypeKeys
    ensures q.ascending <==> pagination.Some? && pagination.value.sortOrder == "asc"
    ensures pagination.None? ==> q.offset == 0 && q.limit == 10 && q.column == Column("created_at")
    ensures pagination.Some? ==>
      q.limit == NumOr(pagination.value.limit, 10)
      && q.offset == Pagination.CalculateOffset(NumOr(pagination.value.page, 1), q.limit)
    ensures pagination.Some? && pagination.value.sortBy in ColumnMap ==>
      q.column == Column(ColumnMap[pagination.value.sortBy])
    ensures q.limit != 0
  {
    var params := pagination.GetOr(Pagination.Params(Some(1), Some(10), "", ""));
    var limit := NumOr(params.limit, 10);
    ListQuery(Pagination.CalculateOffset(NumOr(params.page, 1), limit), limit,
              MapFieldToColumn(if params.sortBy == "" then "createdAt" else params.sortBy),
              params.sortOrder == "asc")
  }

  /**
   * The SELECT of `findAll` as the database receives it: an inherited sort
   * key interpolates JavaScript text (a function's source, or
   * '[object Object]') into ORDER BY, and the statement does not parse.
   */
  function ListStatement(pagination: Option<Pagination.Params>): (r: Result<ListQuery, Error>)
    ensures r.Failure? <==> pagination.Some? && pagination.value.sortBy in PrototypeKeys
    ensures r.Failure? ==> r.error == PlainError(SyntaxError)
    ensures r.Success? ==> r.value == FindAllQuery(pagination) && r.value.column.name in Columns
  {
    var q := FindAllQuery(pagination);
    if q.column.Inherited? then Failure(PlainError(SyntaxError)) else Success(q)
  }
}


=== FILE: event_service.dfy ===
/**
 * `EventService`: creating, editing, deleting and inspecting events. The
 * capacity of an event changes only through `updateEvent`, by a delta that
 * may not take it below zero, below the tickets already booked, or above
 * 1,000,000; the available count is always recomputed from the booked one.
 */
module EventService {
  import opened Wrappers
  import opened Numbers
  import opened Js
  import opened Strings
  import opened CustomErrors
  import opened EventEntity
  import BookingEntity
  import opened Store
  import opened Inventory
  import EventRepository
  import BookingRepository
  import WaitingListRepository
  import OrderRepository
  import LockUtil
  import Pagination

  // ---- createEvent ----

  /** The fields of a create-event request the service reads. */
  datatype CreateEventData = CreateEventData(name: Option<string>, description: Option<string>, totalTickets: Option<int>)

  /** The argument `createEvent` gives the `Event` constructor: everything available, nothing booked, version 0. */
  function NewEventData(id: string, data: CreateEventData): EventData
  {
    EventData(Some(id), data.name, data.description, data.totalTickets, data.totalTickets, Some(0), Some(0), None, None)
  }

  /** The event `createEvent` inserts has every ticket available and none booked. */
  lemma NewEventShape(id: string, data: CreateEventData, now: int)
    ensures var e := FromData(NewEventData(id, data), now);
      && e.id == id && e.name == StrOr(data.name, "") && e.description == data.description
      && e.totalTickets == NumOr(data.totalTickets, 0) && e.availableTickets == e.totalTickets
      && e.bookedTickets == 0 && e.version == 0 && e.createdAt == now && e.updatedAt == now
  {
  }

  /**
   * `createEvent(data)` with the generated id `eventId`: the event is
   * inserted when it satisfies the table's CHECK constraints (a positive
   * capacity, a name of at most 200 characters); any failure becomes
   * `DatabaseError('Failed to create event')`.
   */
  method CreateEvent(db: Database, data: CreateEventData, eventId: string, now: int) returns (r: Outcome<EventRecord>)
    requires StoreOk(db) && !EventExists(db.events, eventId)
    modifies db`events
    ensures var e := FromData(NewEventData(eventId, data), now);
      if EventRepository.RowOk(e)
      then r == Success(EventRepository.Stored(e)) && db.events == old(db.events) + [r.value]
      else r == Failure(NewDatabaseError("Failed to create event", Some(PlainError(ConstraintViolation))))
           && db.events == old(db.events)
    ensures r.Success? ==>
      && r.value.id == eventId && r.value.totalTickets > 0
      && r.value.availableTickets == r.value.totalTickets && r.value.bookedTickets == 0 && r.value.version == 0
    ensures StoreOk(db)
    ensures Consistent(old(db.events), db.bookings) ==> Consistent(db.events, db.bookings)
  {
    var event := new Event(NewEventData(eventId, data), now);
    NewEventShape(eventId, data, now);
    var created := EventRepository.Create(db, event.ToJSON());
    if created.Failure? {
      return Failure(NewDatabaseError("Failed to create event", Some(created.error)));
    }
    AddEventKeepsInventory(old(db.events), db.bookings, db.waitingList, created.value);
    r := created;
  }

  // ---- updateEvent ----

  /** The fields of an update-event request; a missing one is left as stored. totalTickets is a delta. */
  datatype UpdateEventData = UpdateEventData(name: Option<string>, description: Option<string>, totalTickets: Option<int>)

  /** The largest capacity an update may reach. */
  const MaxTotalTickets: int := 1000000

  function UpdateLockKey(id: string): string
  {
    "event:update:" + id
  }

  function BelowZeroMessage(current: int, delta: int, newTotal: int): string
  {
    "Cannot reduce total tickets below 0. Current total: " + IntToString(current)
      + ", attempting to " + (if delta > 0 then "add" else "remove") + " " + IntToString(Abs(delta))
      + ", would result in: " + IntToString(newTotal)
  }

  function BelowBookedMessage(newTotal: int, booked: int): string
  {
    "Cannot reduce total tickets to " + IntToString(newTotal) + ". There are " + IntToString(booked)
      + " tickets already booked."
  }

  function AboveMaxMessage(current: int, delta: int, newTotal: int): string
  {
    "Total tickets cannot exceed 1,000,000. Current total: " + IntToString(current)
      + ", adding: " + IntToString(delta) + ", would result in: " + IntToString(newTotal)
  }

  /**
   * The `ValidationError` a capacity delta draws, the three bounds checked in
   * order (below zero, below the booked tickets, above 1,000,000); none when
   * the new capacity lies between the booked tickets and 1,000,000.
   */
  function CapacityError(e: EventRecord, delta: int): (r: Option<Error>)
    ensures r.None? <==> 0 <= e.totalTickets + delta && e.bookedTickets <= e.totalTickets + delta <= MaxTotalTickets
    ensures r.Some? ==> r.value.ValidationError? && r.value.errors == []
    ensures e.totalTickets + delta < 0 ==>
      r == Some(NewValidationError(BelowZeroMessage(e.totalTickets, delta, e.totalTickets + delta), None))
    ensures 0 <= e.totalTickets + delta < e.bookedTickets ==>
      r == Some(NewValidationError(BelowBookedMessage(e.totalTickets + delta, e.bookedTickets), None))
    ensures 0 <= e.totalTickets + delta && e.bookedTickets <= e.totalTickets + delta && e.totalTickets + delta > MaxTotalTickets ==>
      r == Some(NewValidationError(AboveMaxMessage(e.totalTickets, delta, e.totalTickets + delta), None))
  {
    var newTotal := e.totalTickets + delta;
    if newTotal < 0 then Some(NewValidationError(BelowZeroMessage(e.totalTickets, delta, newTotal), None))
    else if newTotal < e.bookedTickets then Some(NewValidationError(BelowBookedMessage(newTotal, e.bookedTickets), None))
    else if newTotal > MaxTotalTickets then Some(NewValidationError(AboveMaxMessage(e.totalTickets, delta, newTotal), None))
    else None
  }

  /** The request passes the capacity checks: it carries no delta, or an acceptable one. */
  predicate Accepted(e: EventRecord, data: UpdateEventData)
  {
    data.totalTickets.None? || CapacityError(e, data.totalTickets.value).None?
  }

  /**
   * The event `updateEvent` hands to the repository: name and description
   * replaced only when given, the capacity moved by the delta, the booked
   * count kept, the available count recomputed from capacity and booked
   * count, and the update time set.
   */
  function Edited(e: EventRecord, data: UpdateEventData, now: int): (r: EventRecord)
    ensures r.id == e.id && r.bookedTickets == e.bookedTickets && r.version == e.version && r.createdAt == e.createdAt
    ensures r.name == (if data.name.Some? then data.name.value else e.name)
    ensures r.description == (if data.description.Some? then data.description else e.description)
    ensures r.totalTickets == e.totalTickets + data.totalTickets.GetOr(0)
    ensures r.availableTickets == Max(0, r.totalTickets - r.bookedTickets) && r.updatedAt == now
  {
    WithAvailableRecomputed(e.(name := if data.name.Some? then data.name.value else e.name,
                               description := if data.description.Some? then data.description else e.description,
                               totalTickets := e.totalTickets + data.totalTickets.GetOr(0),
                               updatedAt := now))
  }

  /** The stored row after an accepted update: the edited event, written with its version raised. */
  function Updated(e: EventRecord, data: UpdateEventData, now: int): EventRecord
  {
    EventRepository.Written(e, Edited(e, data, now))
  }

  /**
   * An accepted update keeps the inventory consistent: the booked count is
   * untouched, the new capacity is at least the booked count, and the
   * available count is recomputed from both.
   */
  lemma UpdateKeepsInventory(events: seq<EventRecord>, bookings: seq<BookingEntity.BookingRecord>, i: int,
                             data: UpdateEventData, now: int)
    requires Consistent(events, bookings) && EventRepository.UniqueIds(events) && 0 <= i < |events|
    requires Accepted(events[i], data)
    ensures Consistent(events[i := Updated(events[i], data, now)], bookings)
    ensures Updated(events[i], data, now).availableTickets == Max(0, Updated(events[i], data, now).totalTickets - Booked(bookings, events[i].id))
  {
  }

  /** An accepted update of a valid row with a positive new capacity and a valid name is a valid row. */
  lemma UpdatedRowOk(e: EventRecord, data: UpdateEventData, now: int)
    requires EventRepository.RowOk(e) && Accepted(e, data)
    ensures EventRepository.RowOk(Updated(e, data, now))
        <==> e.totalTickets + data.totalTickets.GetOr(0) > 0 && |Edited(e, data, now).name| <= 200
  {
  }

  /** The error classes `updateEvent` rethrows unchanged. */
  predicate UpdatePassThrough(e: Error)
  {
    e.NotFoundError? || e.ConcurrencyError? || e.ValidationError?
  }

  /**
   * The edits `updateEvent` makes to the loaded entity, field by field: the
   * given name and description, then the capacity delta with its three
   * checks, the update time and the recomputed available count. A rejected
   * delta leaves the caller nothing to write.
   */
  method ApplyUpdate(current: Event, data: UpdateEventData, now: int) returns (rejected: Option<Error>)
    modifies current
    ensures !Accepted(old(current.ToJSON()), data) ==>
      rejected == Some(CapacityError(old(current.ToJSON()), data.totalTickets.value).value)
    ensures Accepted(old(current.ToJSON()), data) ==>
      rejected.None? && current.ToJSON() == Edited(old(current.ToJSON()), data, now)
  {
    if data.name.Some? {
      current.name := data.name.value;
    }
    if data.description.Some? {
      current.description := data.description;
    }
    if data.totalTickets.Some? {
      rejected := ApplyCapacity(current, data.totalTickets.value);
      if rejected.Some? {
        return;
      }
    }
    current.updatedAt := now;
    current.UpdateAvailableTickets();
    EditedFieldByField(old(current.ToJSON()), data, now, current.ToJSON());
    rejected := None;
  }

  /** A record that agrees with `Edited` field by field is the edited record. */
  lemma EditedFieldByField(e: EventRecord, data: UpdateEventData, now: int, r: EventRecord)
    requires r.id == e.id && r.bookedTickets == e.bookedTickets && r.version == e.version && r.createdAt == e.createdAt
    requires r.name == (if data.name.Some? then data.name.value else e.name)
    requires r.description == (if data.description.Some? then data.description else e.description)
    requires r.totalTickets == e.totalTickets + data.totalTickets.GetOr(0)
    requires r.availableTickets == Max(0, r.totalTickets - r.bookedTickets) && r.updatedAt == now
    ensures r == Edited(e, data, now)
  {
  }

  /**
   * The capacity part of `updateEvent` on the entity: the three bounds in
   * order, and on success the new total with the available count moved by
   * the same difference (floored at 0).
   */
  method ApplyCapacity(current: Event, delta: int) returns (rejected: Option<Error>)
    modifies current`totalTickets, current`availableTickets
    ensures rejected == CapacityError(old(current.ToJSON()), delta)
    ensures rejected.Some? ==> current.totalTickets == old(current.totalTickets)
    ensures rejected.None? ==> current.totalTickets == old(current.totalTickets) + delta
    ensures rejected.None? ==> current.availableTickets == Max(0, old(current.availableTickets) + delta)
  {
    var newTotal := current.totalTickets + delta;
    if newTotal < 0 {
      return Some(NewValidationError(BelowZeroMessage(current.totalTickets, delta, newTotal), None));
    }
    if newTotal < current.bookedTickets {
      return Some(NewValidationError(BelowBookedMessage(newTotal, current.bookedTickets), None));
    }
    if newTotal > MaxTotalTickets {
      return Some(NewValidationError(AboveMaxMessage(current.totalTickets, delta, newTotal), None));
    }
    var previousTotal := current.totalTickets;
    current.totalTickets := newTotal;
    var difference := newTotal - previousTotal;
    current.availableTickets := Max(0, current.availableTickets + difference);
    rejected := None;
  }

  /**
   * The transaction body of `updateEvent`: look the event up, compare the
   * expected version when one is given, apply the request to the entity
   * step by step and write it back through the repository with the same
   * expected version (an unconditional write when there is none).
   */
  method EditEvent(db: Database, id: string, data: UpdateEventData, expectedVersion: Option<int>, now: int)
    returns (r: Outcome<EventRecord>)
    modifies db`events
    ensures var i := EventRepository.IndexOf(old(db.events), id);
      && (i < 0 ==> r == Failure(NewNotFoundError("Event", id)))
      && (i >= 0 && expectedVersion.Some? && old(db.events)[i].version != expectedVersion.value ==>
            r == Failure(NewConcurrencyError(Some("Event was modified by another operation"))))
      && (i >= 0 && (expectedVersion.None? || old(db.events)[i].version == expectedVersion.value) ==>
            if !Accepted(old(db.events)[i], data)
            then r == Failure(CapacityError(old(db.events)[i], data.totalTickets.value).value)
            else if EventRepository.RowOk(Updated(old(db.events)[i], data, now))
            then r == Success(Updated(old(db.events)[i], data, now)) && db.events == old(db.events)[i := r.value]
            else r == Failure(PlainError(ConstraintViolation)))
    ensures r.Failure? ==> db.events == old(db.events)
  {
    var i := EventRepository.IndexOf(db.events, id);
    if i < 0 {
      return Failure(NewNotFoundError("Event", id));
    }
    var stored := db.events[i];
    RowRoundTrip(stored, now);
    var current := new Event(EventEntity.AsData(stored), now);
    if expectedVersion.Some? && current.GetVersion() != expectedVersion.value {
      return Failure(NewConcurrencyError(Some("Event was modified by another operation")));
    }
    var rejected := ApplyUpdate(current, data, now);
    if rejected.Some? {
      return Failure(rejected.value);
    }
    assert current.ToJSON() == Edited(stored, data, now);
    r := EventRepository.Update(db, current.ToJSON(), expectedVersion);
  }

  /**
   * What `updateEvent` answers once it holds the lock, and the table it
   * leaves: not found, a version other than the expected one, the capacity
   * error of a rejected delta, the written row, or a wrapped constraint
   * violation when the edited row breaks a CHECK.
   */
  predicate UpdateAnswers(before: seq<EventRecord>, after: seq<EventRecord>, id: string, data: UpdateEventData,
                          expectedVersion: Option<int>, at: int, r: Outcome<EventRecord>)
  {
    var i := EventRepository.IndexOf(before, id);
    && (i < 0 ==> r == Failure(NewNotFoundError("Event", id)))
    && (i >= 0 && expectedVersion.Some? && before[i].version != expectedVersion.value ==>
          r == Failure(NewConcurrencyError(Some("Event was modified by another operation"))))
    && (i >= 0 && (expectedVersion.None? || before[i].version == expectedVersion.value) ==>
          if !Accepted(before[i], data)
          then r == Failure(CapacityError(before[i], data.totalTickets.value).value)
          else if EventRepository.RowOk(Updated(before[i], data, at))
          then r == Success(Updated(before[i], data, at)) && after == before[i := r.value]
          else r == Failure(NewDatabaseError("Failed to update event", Some(PlainError(ConstraintViolation)))))
  }

  /**
   * The part of `updateEvent` that runs while the lock is held: the edit,
   * with not-found, concurrency and validation errors passed on unchanged
   * and anything else, a violated constraint included, wrapped as
   * `DatabaseError('Failed to update event')`.
   */
  method UpdateHeld(db: Database, id: string, data: UpdateEventData, expectedVersion: Option<int>, at: int)
    returns (r: Outcome<EventRecord>)
    requires StoreOk(db)
    modifies db`events
    ensures r.Failure? ==> db.events == old(db.events)
    ensures UpdateAnswers(old(db.events), db.events, id, data, expectedVersion, at, r)
    ensures StoreOk(db)
    ensures Consistent(old(db.events), db.bookings) ==> Consistent(db.events, db.bookings)
  {
    var outcome := EditEvent(db, id, data, expectedVersion, at);
    if outcome.Success? {
      var i := EventRepository.IndexOf(old(db.events), id);
      EventWriteKeepsSchema(old(db.events), db.bookings, db.waitingList, i, Edited(old(db.events)[i], data, at));
      if Consistent(old(db.events), db.bookings) {
        UpdateKeepsInventory(old(db.events), db.bookings, i, data, at);
      }
      r := outcome;
    } else {
      r := Failure(RethrowOrWrap(outcome.error, UpdatePassThrough, "Failed to update event"));
    }
  }

  /**
   * `updateEvent(id, data, expectedVersion)`: the edit runs under the lock
   * `event:update:{id}` (held 30 s, waited for 5 s in steps of 100 ms) and
   * the lock is released afterwards. Not-found, concurrency and validation
   * errors reach the caller unchanged; anything else, a violated constraint
   * included, becomes `DatabaseError('Failed to update event')`. Nothing is
   * written on failure, and an accepted update keeps the inventory
   * consistent.
   */
  method UpdateEvent(db: Database, locks: LockUtil.LockTable, id: string, data: UpdateEventData,
                     expectedVersion: Option<int>, holder: string, now: int)
    returns (r: Outcome<EventRecord>, at: int)
    requires StoreOk(db) && holder != ""
    modifies db`events, locks
    ensures !LockUtil.Free(old(locks.locks), UpdateLockKey(id), now + LockUtil.LastAttempt(5000, 100)) ==>
      r == Failure(LockUtil.LockTimeout(UpdateLockKey(id))) && locks.locks == old(locks.locks)
    ensures LockUtil.Free(old(locks.locks), UpdateLockKey(id), now + LockUtil.LastAttempt(5000, 100)) ==>
      now <= at < now + 5000
    ensures LockUtil.Free(old(locks.locks), UpdateLockKey(id), now + LockUtil.LastAttempt(5000, 100)) ==>
      locks.locks == old(locks.locks) - {UpdateLockKey(id)}
    ensures r.Failure? ==> db.events == old(db.events)
    ensures r != Failure(LockUtil.LockTimeout(UpdateLockKey(id))) ==>
      UpdateAnswers(old(db.events), db.events, id, data, expectedVersion, at, r)
    ensures StoreOk(db)
    ensures Consistent(old(db.events), db.bookings) ==> Consistent(db.events, db.bookings)
  {
    var lockKey := UpdateLockKey(id);
    var acquired;
    acquired, at := locks.Poll(lockKey, 30000, 5000, 100, holder, now);
    if !acquired {
      return Failure(LockUtil.LockTimeout(lockKey)), at;
    }
    assert LockUtil.Free(old(locks.locks), lockKey, now + LockUtil.LastAttempt(5000, 100));
    r := UpdateLocked(db, locks, id, data, expectedVersion, holder, at);
  }

  /** `updateEvent` from the moment it holds the lock: the edit, then the release of the lock. */
  method UpdateLocked(db: Database, locks: LockUtil.LockTable, id: string, data: UpdateEventData,
                      expectedVersion: Option<int>, holder: string, at: int)
    returns (r: Outcome<EventRecord>)
    requires StoreOk(db)
    requires UpdateLockKey(id) in locks.locks && locks.locks[UpdateLockKey(id)].holder == holder
    modifies db`events, locks
    ensures locks.locks == old(locks.locks) - {UpdateLockKey(id)}
    ensures r.Failure? ==> db.events == old(db.events)
    ensures UpdateAnswers(old(db.events), db.events, id, data, expectedVersion, at, r)
    ensures StoreOk(db)
    ensures Consistent(old(db.events), db.bookings) ==> Consistent(db.events, db.bookings)
  {
    r := UpdateHeld(db, id, data, expectedVersion, at);
    var _ := locks.Release(UpdateLockKey(id), Some(holder));
  }

  // ---- deleteEvent ----

  function DeleteLockKey(id: string): string
  {
    "event:delete:" + id
  }

  /**
   * `deleteEvent(id)`: under the lock `event:delete:{id}`, answers false and
   * changes nothing when the event does not exist; otherwise deletes it,
   * with its bookings, waiting-list entries and orders, and answers true.
   * The other events keep their counters, so the inventory stays consistent.
   */
  method DeleteEvent(db: Database, locks: LockUtil.LockTable, id: string, holder: string, now: int)
    returns (r: Outcome<bool>, at: int)
    requires StoreOk(db) && holder != ""
    modifies db`events, db`bookings, db`waitingList, db`orders, locks
    ensures var acquired := LockUtil.Free(old(locks.locks), DeleteLockKey(id), now + LockUtil.LastAttempt(5000, 100));
      && (!acquired ==> r == Failure(LockUtil.LockTimeout(DeleteLockKey(id))) && locks.locks == old(locks.locks))
      && (acquired ==> r == Success(EventExists(old(db.events), id)) && now <= at < now + 5000
                       && locks.locks == old(locks.locks) - {DeleteLockKey(id)})
    ensures r != Success(true) ==>
      db.events == old(db.events) && db.bookings == old(db.bookings)
      && db.waitingList == old(db.waitingList) && db.orders == old(db.orders)
    ensures r == Success(true) ==> var i := EventRepository.IndexOf(old(db.events), id);
      && db.events == old(db.events)[..i] + old(db.events)[i + 1..]
      && db.bookings == BookingRepository.WithoutEvent(old(db.bookings), id)
      && db.waitingList == WaitingListRepository.WithoutEvent(old(db.waitingList), id)
      && db.orders == OrderRepository.WithoutEvent(old(db.orders), id, EventRepository.BookingIdsOf(old(db.bookings), id))
    ensures r.Success? ==> !EventExists(db.events, id)
    ensures StoreOk(db)
    ensures Consistent(old(db.events), old(db.bookings)) ==> Consistent(db.events, db.bookings)
  {
    var lockKey := DeleteLockKey(id);
    var acquired;
    acquired, at := locks.Poll(lockKey, 30000, 5000, 100, holder, now);
    if !acquired {
      return Failure(LockUtil.LockTimeout(lockKey)), at;
    }
    var deleted := DeleteHeld(db, id);
    r := Success(deleted);
    var _ := locks.Release(lockKey, Some(holder));
  }

  /**
   * The part of `deleteEvent` that runs while the lock is held: the lookup,
   * then the delete with its cascade when the event exists.
   */
  method DeleteHeld(db: Database, id: string) returns (deleted: bool)
    requires StoreOk(db)
    modifies db`events, db`bookings, db`waitingList, db`orders
    ensures deleted <==> EventExists(old(db.events), id)
    ensures !deleted ==>
      db.events == old(db.events) && db.bookings == old(db.bookings)
      && db.waitingList == old(db.waitingList) && db.orders == old(db.orders)
    ensures deleted ==> var i := EventRepository.IndexOf(old(db.events), id);
      && db.events == old(db.events)[..i] + old(db.events)[i + 1..]
      && db.bookings == BookingRepository.WithoutEvent(old(db.bookings), id)
      && db.waitingList == WaitingListRepository.WithoutEvent(old(db.waitingList), id)
      && db.orders == OrderRepository.WithoutEvent(old(db.orders), id, EventRepository.BookingIdsOf(old(db.bookings), id))
    ensures !EventExists(db.events, id)
    ensures StoreOk(db)
    ensures Consistent(old(db.events), old(db.bookings)) ==> Consistent(db.events, db.bookings)
  {
    var event := EventRepository.FindById(db.events, id);
    if event.None? {
      return false;
    }
    var i := EventRepository.IndexOf(db.events, id);
    DeleteKeepsInventory(db.events, db.bookings, db.waitingList, i);
    deleted := EventRepository.Delete(db, id);
  }

  // ---- getAvailableTickets ----

  /** The object `getAvailableTickets` answers with. */
  datatype TicketAvailability = TicketAvailability(
    eventId: string, eventName: string, totalTickets: int,
    bookedTickets: int, availableTickets: int, isSoldOut: bool)

  /**
   * `getAvailableTickets(eventId)`: the booked count is the live sum of the
   * event's active bookings, not the stored counter; the available count is
   * capacity minus that sum, clamped at 0, and the event is sold out exactly
   * when the bookings fill its capacity. A missing event is a
   * `NotFoundError`, passed through unwrapped.
   */
  function GetAvailableTickets(events: seq<EventRecord>, bookings: seq<BookingEntity.BookingRecord>, eventId: string)
    : (r: Outcome<TicketAvailability>)
    ensures r.Failure? <==> !EventExists(events, eventId)
    ensures r.Failure? ==> r.error == NewNotFoundError("Event", eventId)
    ensures r.Success? ==> var e := events[EventRepository.IndexOf(events, eventId)];
      && r.value.eventId == eventId && r.value.eventName == e.name && r.value.totalTickets == e.totalTickets
      && r.value.bookedTickets == Booked(bookings, eventId)
      && r.value.availableTickets >= 0 && r.value.availableTickets + r.value.bookedTickets >= r.value.totalTickets
      && (r.value.availableTickets == 0 || r.value.availableTickets + r.value.bookedTickets == r.value.totalTickets)
      && (r.value.isSoldOut <==> r.value.bookedTickets >= r.value.totalTickets)
  {
    var found := EventRepository.FindById(events, eventId);
    if found.None? then Failure(NewNotFoundError("Event", eventId))
    else
      var event := found.value;
      var bookedTickets := BookingRepository.TotalBookedTickets(bookings, eventId);
      var availableTickets := Max(0, event.totalTickets - bookedTickets);
      Success(TicketAvailability(event.id, event.name, event.totalTickets, bookedTickets, availableTickets,
                                 availableTickets == 0))
  }

  /**
   * On a consistent store the live figures agree with the event's stored
   * counters, and the booked tickets never exceed the capacity, so the event
   * is sold out exactly when they fill it.
   */
  lemma AvailabilityMatchesCounters(events: seq<EventRecord>, bookings: seq<BookingEntity.BookingRecord>, eventId: string)
    requires Consistent(events, bookings) && EventExists(events, eventId)
    ensures var r := GetAvailableTickets(events, bookings, eventId);
      var e := events[EventRepository.IndexOf(events, eventId)];
      && r.Success? && r.value.bookedTickets == e.bookedTickets && r.value.availableTickets == e.availableTickets
      && r.value.bookedTickets <= r.value.totalTickets
      && (r.value.isSoldOut <==> r.value.bookedTickets == r.value.totalTickets)
  {
  }

  // ---- getAllEvents: the pagination block ----

  /**
   * The `pagination` block `getAllEvents` builds for `total` events: page
   * and limit fall back to 1 and 10 when missing, zero or `NaN` (the `||`
   * fallback), there are ceil(total / limit) pages, a next page exactly when
   * the current one is before the last, and a previous one exactly when it
   * is after the first.
   */
  function ListPagination(pagination: Option<Pagination.Params>, total: nat): (r: Pagination.PageInfo)
    ensures r.page == Some(if pagination.Some? then NumOr(pagination.value.page, 1) else 1)
    ensures r.limit == Some(if pagination.Some? then NumOr(pagination.value.limit, 10) else 10)
    ensures r.total == total && r.limit.value != 0 && r.totalPages.Some?
    ensures r.limit.value > 0 ==>
      (r.totalPages.value - 1) * r.limit.value < total <= r.totalPages.value * r.limit.value
    ensures r.hasNext <==> r.page.value < r.totalPages.value
    ensures r.hasPrev <==> r.page.value > 1
  {
    var page := if pagination.Some? then NumOr(pagination.value.page, 1) else 1;
    var limit := if pagination.Some? then NumOr(pagination.value.limit, 10) else 10;
    var totalPages := CeilDiv(total, limit);
    Pagination.PageInfo(Some(page), Some(limit), total, Some(totalPages), page < totalPages, page > 1)
  }

  /**
   * For every query the pagination parser produces with a numeric page and
   * limit, the inline block of `getAllEvents` agrees with `createResponse`;
   * and whatever the query, a next page exists exactly when rows remain
   * after the current page.
   */
  lemma ListPaginationMatchesCreateResponse(page: Option<string>, limit: Option<string>,
                                            sortBy: Option<string>, sortOrder: Option<string>, total: nat)
    ensures var p := Pagination.ParseParams(page, limit, sortBy, sortOrder);
      var r := ListPagination(Some(p), total);
      && (p.page.Some? && p.limit.Some? ==>
            r == Pagination.CreateResponse(total, Pagination.Present(p.page), Pagination.Present(p.limit)))
      && (r.hasNext <==> r.page.value * r.limit.value < total)
  {
    var p := Pagination.ParseParams(page, limit, sortBy, sortOrder);
    var r := ListPagination(Some(p), total);
    Pagination.HasNextIff(total, r.page.value, r.limit.value);
  }

  /**
   * A page or limit the parser reads as `NaN` (a value that is not a
   * number): `getAllEvents` falls back to page 1 and limit 10, while
   * `createResponse` keeps the `NaN`, reports no next page and, for a `NaN`
   * limit, no page count.
   */
  lemma ListPaginationDivergesOnNaN(page: Option<string>, limit: Option<string>,
                                    sortBy: Option<string>, sortOrder: Option<string>, total: nat)
    ensures var p := Pagination.ParseParams(page, limit, sortBy, sortOrder);
      var r := ListPagination(Some(p), total);
      var c := Pagination.CreateResponse(total, Pagination.Present(p.page), Pagination.Present(p.limit));
      (p.page.None? || p.limit.None?) ==>
        && !c.hasNext
        && (p.page.None? ==> r.page == Some(1) && c.page.None? && !c.hasPrev)
        && (p.limit.None? ==> r.limit == Some(10) && c.limit.None? && c.totalPages.None?)
  {
  }

  /**
   * `getAllEvents(pagination)` when the events are not cached: a sort field
   * `columnMap` inherits from `Object.prototype` makes `findAll` fail, and
   * the failure surfaces as `DatabaseError('Failed to fetch events')`;
   * every other query yields the list's pagination block.
   */
  function GetAllEvents(pagination: Option<Pagination.Params>, total: nat): (r: Result<Pagination.PageInfo, Error>)
    ensures r.Failure? <==> pagination.Some? && pagination.value.sortBy in EventRepository.PrototypeKeys
    ensures r.Failure? ==>
      r.error == NewDatabaseError("Failed to fetch events", Some(PlainError(SyntaxError)))
    ensures r.Success? ==> r.value == ListPagination(pagination, total)
  {
    var statement := EventRepository.ListStatement(pagination);
    if statement.Failure? then Failure(NewDatabaseError("Failed to fetch events", Some(statement.error)))
    else Success(ListPagination(pagination, total))
  }
}

=== FILE: inventory.dfy ===
/**
 * The ticket inventory across the events and bookings tables: the
 * guarantees the schema gives every state, the agreement between an
 * event's stored counters and its bookings, and the no-oversell
 * invariant: the active tickets of an event never exceed its capacity.
 */
module Inventory {
  import opened Numbers
  import opened EventEntity
  import opened BookingEntity
  import opened WaitingListEntity
  import opened Store
  import EventRepository
  import BookingRepository
  import WaitingListRepository

  /** Every row satisfies its CHECK constraints, ids are unique, and every foreign key resolves. */
  predicate Schema(events: seq<EventRecord>, bookings: seq<BookingRecord>, waitingList: seq<WaitingListRecord>)
  {
    && EventRepository.TableOk(events)
    && BookingRepository.TableOk(bookings)
    && WaitingListRepository.TableOk(waitingList)
    && (forall k :: 0 <= k < |bookings| ==> EventExists(events, bookings[k].eventId))
    && (forall k :: 0 <= k < |waitingList| ==> EventExists(events, waitingList[k].eventId))
  }

  predicate StoreOk(db: Database)
    reads db
  {
    Schema(db.events, db.bookings, db.waitingList)
  }

  /** The active tickets of an event: the sum `getTotalBookedTicketsForEvent` returns. */
  function Booked(bookings: seq<BookingRecord>, eventId: string): int
  {
    BookingRepository.TotalBookedTickets(bookings, eventId)
  }

  /** The event's stored counters agree with its bookings. */
  predicate Counted(e: EventRecord, bookings: seq<BookingRecord>)
  {
    e.bookedTickets == Booked(bookings, e.id) && e.availableTickets == Max(0, e.totalTickets - e.bookedTickets)
  }

  /** No oversell: the event's active tickets fit in its capacity. */
  predicate WithinCapacity(e: EventRecord, bookings: seq<BookingRecord>)
  {
    Booked(bookings, e.id) <= e.totalTickets
  }

  predicate Consistent(events: seq<EventRecord>, bookings: seq<BookingRecord>)
  {
    forall k :: 0 <= k < |events| ==> Counted(events[k], bookings) && WithinCapacity(events[k], bookings)
  }

  /**
   * The event after a booking change: bookedTickets is the recomputed
   * active sum, availableTickets is total − booked clamped at 0 by
   * `updateAvailableTickets`, and updatedAt is now; nothing else changes.
   */
  function Recounted(e: EventRecord, bookings: seq<BookingRecord>, now: int): (r: EventRecord)
    ensures Counted(r, bookings)
    ensures r == e.(bookedTickets := r.bookedTickets, availableTickets := r.availableTickets, updatedAt := now)
  {
    var total := Booked(bookings, e.id);
    WithAvailableRecomputed(e.(bookedTickets := total, availableTickets := e.totalTickets - total, updatedAt := now))
  }

  /** The stored row after the recount is written back through a version-checked update. */
  function Rewritten(e: EventRecord, bookings: seq<BookingRecord>, now: int): (r: EventRecord)
    ensures Counted(r, bookings) && r.version == e.version + 1 && r.updatedAt == now
    ensures r.id == e.id && r.name == e.name && r.totalTickets == e.totalTickets && r.createdAt == e.createdAt
  {
    EventRepository.Written(e, Recounted(e, bookings, now))
  }

  /** A recount of a valid row is a valid row when the active sum is non-negative. */
  lemma RewrittenRowOk(e: EventRecord, bookings: seq<BookingRecord>, now: int)
    requires EventRepository.RowOk(e) && BookingRepository.TableOk(bookings)
    ensures EventRepository.RowOk(Rewritten(e, bookings, now))
  {
    BookingRepository.TotalBookedNonNegative(bookings, e.id);
  }

  /**
   * After the bookings change for event `i` alone, writing its recount
   * keeps every event consistent, provided the event's new active sum fits
   * its capacity.
   */
  lemma RecountKeepsConsistent(events: seq<EventRecord>, before: seq<BookingRecord>, after: seq<BookingRecord>, i: int, now: int)
    requires Consistent(events, before) && EventRepository.UniqueIds(events) && 0 <= i < |events|
    requires forall j :: 0 <= j < |events| && j != i ==> Booked(after, events[j].id) == Booked(before, events[j].id)
    requires Booked(after, events[i].id) <= events[i].totalTickets
    ensures Consistent(events[i := Rewritten(events[i], after, now)], after)
  {
  }

  /** Replacing a row by one with the same id keeps every foreign key resolving. */
  lemma SameIdKeepsReferences(events: seq<EventRecord>, i: int, e: EventRecord, id: string)
    requires 0 <= i < |events| && e.id == events[i].id && EventExists(events, id)
    ensures EventExists(events[i := e], id)
  {
    var k :| 0 <= k < |events| && events[k].id == id;
    assert events[i := e][k].id == id;
  }

  /** The schema's guarantees survive writing a valid recount of event `i` together with new bookings. */
  lemma RewriteKeepsSchema(events: seq<EventRecord>, bookings: seq<BookingRecord>, waitingList: seq<WaitingListRecord>,
                           i: int, now: int)
    requires EventRepository.TableOk(events) && 0 <= i < |events|
    requires Schema(events, bookings, waitingList)
    ensures Schema(events[i := Rewritten(events[i], bookings, now)], bookings, waitingList)
  {
    var w := Rewritten(events[i], bookings, now);
    RewrittenRowOk(events[i], bookings, now);
    EventRepository.WrittenKeepsTable(events, i, Recounted(events[i], bookings, now));
    forall k | 0 <= k < |bookings| ensures EventExists(events[i := w], bookings[k].eventId) {
      SameIdKeepsReferences(events, i, w, bookings[k].eventId);
    }
    forall k | 0 <= k < |waitingList| ensures EventExists(events[i := w], waitingList[k].eventId) {
      SameIdKeepsReferences(events, i, w, waitingList[k].eventId);
    }
  }

  /** Writing a waiting-list entry keeps the schema: the writable columns carry no constraint. */
  lemma WaitingListWriteKeepsSchema(events: seq<EventRecord>, bookings: seq<BookingRecord>,
                                    waitingList: seq<WaitingListRecord>, i: int, w: WaitingListRecord)
    requires Schema(events, bookings, waitingList) && 0 <= i < |waitingList|
    ensures Schema(events, bookings, waitingList[i := WaitingListRepository.Written(waitingList[i], w)])
  {
    var after := waitingList[i := WaitingListRepository.Written(waitingList[i], w)];
    forall k | 0 <= k < |after| ensures EventExists(events, after[k].eventId) {
      assert after[k].eventId == waitingList[k].eventId;
    }
  }

  /** Appending a valid waiting-list entry with a fresh id and an existing event keeps the schema. */
  lemma WaitingListAppendKeepsSchema(events: seq<EventRecord>, bookings: seq<BookingRecord>,
                                     waitingList: seq<WaitingListRecord>, w: WaitingListRecord)
    requires Schema(events, bookings, waitingList)
    requires WaitingListRepository.IndexOf(waitingList, w.id) < 0 && WaitingListRepository.RowOk(w)
    requires EventExists(events, w.eventId)
    ensures Schema(events, bookings, waitingList + [w])
  {
    var after := waitingList + [w];
    forall i, j | 0 <= i < j < |after| ensures after[i].id != after[j].id {
      if j == |waitingList| {
        assert after[i] == waitingList[i];
      }
    }
    forall k | 0 <= k < |after| ensures EventExists(events, after[k].eventId) {
      if k < |waitingList| {
        assert after[k] == waitingList[k];
      }
    }
  }

  /** Appending a valid booking with a fresh id and an existing event keeps the schema. */
  lemma BookingAppendKeepsSchema(events: seq<EventRecord>, bookings: seq<BookingRecord>,
                                 waitingList: seq<WaitingListRecord>, b: BookingRecord)
    requires Schema(events, bookings, waitingList)
    requires BookingRepository.IndexOf(bookings, b.id) < 0 && BookingRepository.RowOk(b)
    requires EventExists(events, b.eventId)
    ensures Schema(events, bookings + [b], waitingList)
  {
    var after := bookings + [b];
    forall i, j | 0 <= i < j < |after| ensures after[i].id != after[j].id {
      if j == |bookings| {
        assert after[i] == bookings[i];
      }
    }
    forall k | 0 <= k < |after| ensures EventExists(events, after[k].eventId) {
      if k < |bookings| {
        assert after[k] == bookings[k];
      }
    }
  }

  /** Writing a booking that satisfies the CHECK keeps the schema. */
  lemma BookingWriteKeepsSchema(events: seq<EventRecord>, bookings: seq<BookingRecord>,
                                waitingList: seq<WaitingListRecord>, i: int, b: BookingRecord)
    requires Schema(events, bookings, waitingList) && 0 <= i < |bookings| && b.numberOfTickets > 0
    ensures Schema(events, bookings[i := BookingRepository.Written(bookings[i], b)], waitingList)
  {
    var after := bookings[i := BookingRepository.Written(bookings[i], b)];
    BookingRepository.WrittenKeepsTable(bookings, i, b);
    forall k | 0 <= k < |after| ensures EventExists(events, after[k].eventId) {
      assert after[k].eventId == bookings[k].eventId;
    }
  }

  /** Writing any valid row over event `i` keeps the schema: its id, and so every reference to it, stays. */
  lemma EventWriteKeepsSchema(events: seq<EventRecord>, bookings: seq<BookingRecord>,
                              waitingList: seq<WaitingListRecord>, i: int, e: EventRecord)
    requires Schema(events, bookings, waitingList) && 0 <= i < |events|
    requires EventRepository.RowOk(EventRepository.Written(events[i], e))
    ensures Schema(events[i := EventRepository.Written(events[i], e)], bookings, waitingList)
  {
    var w := EventRepository.Written(events[i], e);
    EventRepository.WrittenKeepsTable(events, i, e);
    forall k | 0 <= k < |bookings| ensures EventExists(events[i := w], bookings[k].eventId) {
      SameIdKeepsReferences(events, i, w, bookings[k].eventId);
    }
    forall k | 0 <= k < |waitingList| ensures EventExists(events[i := w], waitingList[k].eventId) {
      SameIdKeepsReferences(events, i, w, waitingList[k].eventId);
    }
  }

  /** An event no booking refers to has no active tickets. */
  lemma {:induction false} UnreferencedBookedNone(bookings: seq<BookingRecord>, id: string)
    requires forall k :: 0 <= k < |bookings| ==> bookings[k].eventId != id
    ensures Booked(bookings, id) == 0
  {
    if bookings != [] {
      UnreferencedBookedNone(bookings[..|bookings| - 1], id);
    }
  }

  /**
   * Inserting a valid event under a new id, with nothing booked and every
   * ticket available, keeps the schema and the inventory: no booking can
   * refer to an id that did not exist.
   */
  lemma AddEventKeepsInventory(events: seq<EventRecord>, bookings: seq<BookingRecord>,
                               waitingList: seq<WaitingListRecord>, e: EventRecord)
    requires Schema(events, bookings, waitingList) && !EventExists(events, e.id) && EventRepository.RowOk(e)
    requires e.bookedTickets == 0 && e.availableTickets == e.totalTickets
    ensures Schema(events + [e], bookings, waitingList)
    ensures Consistent(events, bookings) ==> Consistent(events + [e], bookings)
  {
    var after := events + [e];
    forall id | EventExists(events, id) ensures EventExists(after, id) {
      var k :| 0 <= k < |events| && events[k].id == id;
      assert after[k].id == id;
    }
    forall k | 0 <= k < |bookings| ensures bookings[k].eventId != e.id {
      assert EventExists(events, bookings[k].eventId);
    }
    UnreferencedBookedNone(bookings, e.id);
  }

  /**
   * Deleting event `i` with its bookings and waiting-list entries keeps the
   * schema and leaves every other event's counters and capacity as they were.
   */
  lemma DeleteKeepsInventory(events: seq<EventRecord>, bookings: seq<BookingRecord>,
                             waitingList: seq<WaitingListRecord>, i: int)
    requires Schema(events, bookings, waitingList) && 0 <= i < |events|
    ensures var id := events[i].id;
      Schema(events[..i] + events[i + 1..], BookingRepository.WithoutEvent(bookings, id),
             WaitingListRepository.WithoutEvent(waitingList, id))
    ensures var id := events[i].id;
      Consistent(events, bookings) ==>
      Consistent(events[..i] + events[i + 1..], BookingRepository.WithoutEvent(bookings, id))
  {
    var id := events[i].id;
    var rest := events[..i] + events[i + 1..];
    var bs := BookingRepository.WithoutEvent(bookings, id);
    var ws := WaitingListRepository.WithoutEvent(waitingList, id);
    EventRepository.DeleteLeavesOthers(events, i);
    BookingRepository.WithoutEventKeepsTable(bookings, id);
    WaitingListRepository.WithoutEventKeepsTable(waitingList, id);
    assert EventRepository.TableOk(rest) by {
      forall k | 0 <= k < |rest| ensures EventRepository.RowOk(rest[k]) {
        assert rest[k] == (if k < i then events[k] else events[k + 1]);
      }
    }
    forall x | EventExists(events, x) && x != id ensures EventExists(rest, x) {
      var m :| 0 <= m < |events| && events[m].id == x;
      assert events[m] in rest;
      var n :| 0 <= n < |rest| && rest[n] == events[m];
    }
    forall k | 0 <= k < |bs| ensures EventExists(rest, bs[k].eventId) {
      var m :| 0 <= m < |bookings| && bookings[m] == bs[k];
    }
    forall k | 0 <= k < |ws| ensures EventExists(rest, ws[k].eventId) {
      var m :| 0 <= m < |waitingList| && waitingList[m] == ws[k];
    }
    if Consistent(events, bookings) {
      forall k | 0 <= k < |rest| ensures Counted(rest[k], bs) && WithinCapacity(rest[k], bs) {
        var m := if k < i then k else k + 1;
        assert rest[k] == events[m];
        assert events[m].id != id;
        BookingRepository.TotalBookedWithoutOther(bookings, id, rest[k].id);
      }
    }
  }
}

=== FILE: js.dfy ===
/**
 * JavaScript value semantics the entities and handlers rely on: the `||`
 * fallback (which also replaces falsy values such as "" and 0), the `??`
 * fallback (which replaces only a missing value; `Option.GetOr`), and the
 * loosely typed request-body values the controller inspects with `typeof`.
 */
module Js {
  import opened Wrappers

  /** `value || fallback` on an optional string: an empty string counts as missing. */
  function StrOr(o: Option<string>, fallback: string): (r: string)
    ensures o.Some? && o.value != "" ==> r == o.value
    ensures o.None? || o.value == "" ==> r == fallback
  {
    if o.Some? && o.value != "" then o.value else fallback
  }

  /** `value || fallback` on an optional number: zero counts as missing. */
  function NumOr(o: Option<int>, fallback: int): (r: int)
    ensures o.Some? && o.value != 0 ==> r == o.value
    ensures o.None? || o.value == 0 ==> r == fallback
  {
    if o.Some? && o.value != 0 then o.value else fallback
  }

  /** `value || null` on an optional string: the database never stores "". */
  function OrNull(o: Option<string>): (r: Option<string>)
    ensures r != Some("")
    ensures o != Some("") ==> r == o
  {
    if o == Some("") then None else o
  }

  /** A value of a parsed JSON request body. */
  datatype JsValue = Undefined | Null | Str(s: string) | Num(n: real) | Bool(b: bool) | Object

  /** JavaScript truthiness (`NaN` is not modelled). */
  predicate Truthy(v: JsValue)
  {
    match v
    case Undefined => false
    case Null => false
    case Str(s) => s != ""
    case Num(n) => n != 0.0
    case Bool(b) => b
    case Object => true
  }

  /** `Number.isInteger(v)` */
  predicate IsInteger(v: JsValue)
  {
    v.Num? && v.n == v.n.Floor as real
  }
}

=== FILE: lock_util.dfy ===
/**
 * `LockUtil`: named locks with an expiry, kept in one shared map from key
 * to holder and expiry time. The clock is an explicit parameter.
 */
module LockUtil {
  import opened Wrappers
  import opened Js
  import opened CustomErrors

  datatype LockEntry = LockEntry(expiresAt: int, holder: string)

  /** `defaultTimeout`: 30 seconds. */
  const DefaultTimeout: int := 30000
  /** `withLock`'s default wait for the lock and pause between attempts. */
  const DefaultMaxWait: int := 5000
  const DefaultRetryInterval: int := 100

  /** The lock on `key` may be taken at `now`: there is none, or it has expired. */
  predicate Free(locks: map<string, LockEntry>, key: string, now: int)
  {
    key !in locks || now >= locks[key].expiresAt
  }

  /** `d` is a whole number of retry intervals. */
  predicate Steps(d: int, retryInterval: int)
    requires retryInterval > 0
    decreases d
  {
    d == 0 || (d >= retryInterval && Steps(d - retryInterval, retryInterval))
  }

  /**
   * The offset from the start of `withLock`'s last acquisition attempt: the
   * largest whole number of retry intervals below maxWait.
   */
  function LastAttempt(maxWait: int, retryInterval: int): (d: int)
    requires maxWait > 0 && retryInterval > 0
    ensures Steps(d, retryInterval) && d < maxWait <= d + retryInterval
    decreases maxWait
  {
    if maxWait <= retryInterval then 0 else retryInterval + LastAttempt(maxWait - retryInterval, retryInterval)
  }

  /** An attempt whose successor would come too late is the last one. */
  lemma {:induction false} LastAttemptIs(maxWait: int, retryInterval: int, d: int)
    requires retryInterval > 0 && Steps(d, retryInterval) && d < maxWait <= d + retryInterval
    ensures LastAttempt(maxWait, retryInterval) == d
    decreases d
  {
    if d != 0 {
      LastAttemptIs(maxWait - retryInterval, retryInterval, d - retryInterval);
    }
  }

  /** Every attempt before maxWait comes no later than the last one. */
  lemma {:induction false} AttemptBeforeLast(maxWait: int, retryInterval: int, d: int)
    requires retryInterval > 0 && Steps(d, retryInterval) && d < maxWait
    ensures d <= LastAttempt(maxWait, retryInterval)
    decreases d
  {
    if d != 0 {
      AttemptBeforeLast(maxWait - retryInterval, retryInterval, d - retryInterval);
    }
  }

  /** What `withLock` throws when the wait for the lock runs out. */
  function LockTimeout(key: string): (e: Error)
    ensures e.PlainError? && e.message == "Failed to acquire lock for key: " + key
  {
    PlainError("Failed to acquire lock for key: " + key)
  }

  /** Every entry whose expiry is still ahead of `now`. */
  function Unexpired(locks: map<string, LockEntry>, now: int): (r: map<string, LockEntry>)
    ensures forall k :: k in r <==> k in locks && now < locks[k].expiresAt
    ensures forall k :: k in r ==> r[k] == locks[k]
  {
    map k | k in locks && now < locks[k].expiresAt :: locks[k]
  }

  class LockTable {
    var locks: map<string, LockEntry>

    constructor()
      ensures locks == map[]
    {
      locks := map[];
    }

    /**
     * `acquire(key, timeoutMs, holder)`: refused, changing nothing, while an
     * unexpired lock exists; otherwise the entry is overwritten with expiry
     * now + timeoutMs and the given holder, or the generated token when none
     * (or an empty one) is given.
     */
    method Acquire(key: string, timeoutMs: int, holder: Option<string>, generated: string, now: int) returns (acquired: bool)
      modifies this
      ensures acquired <==> Free(old(locks), key, now)
      ensures acquired ==> locks == old(locks)[key := LockEntry(now + timeoutMs, StrOr(holder, generated))]
      ensures !acquired ==> locks == old(locks)
    {
      if key in locks && now < locks[key].expiresAt {
        return false;
      }
      locks := locks[key := LockEntry(now + timeoutMs, StrOr(holder, generated))];
      acquired := true;
    }

    /**
     * `release(key, holder)`: removes the lock unless there is none or a
     * (non-empty) holder is given that is not the lock's; without a holder
     * anyone's lock is removed. Another holder's lock is never touched.
     */
    method Release(key: string, holder: Option<string>) returns (released: bool)
      modifies this
      ensures released <==> key in old(locks) && (holder.None? || holder.value == "" || old(locks)[key].holder == holder.value)
      ensures released ==> locks == old(locks) - {key}
      ensures !released ==> locks == old(locks)
      ensures key in old(locks) && holder.Some? && holder.value != "" && old(locks)[key].holder != holder.value
              ==> key in locks && locks[key] == old(locks)[key]
    {
      if key !in locks {
        return false;
      }
      if holder.Some? && holder.value != "" && locks[key].holder != holder.value {
        return false;
      }
      locks := locks - {key};
      released := true;
    }

    /** `isLocked(key)`: an unexpired lock exists; an expired one is deleted on the way. */
    method IsLocked(key: string, now: int) returns (locked: bool)
      modifies this
      ensures locked <==> !Free(old(locks), key, now)
      ensures locked || key !in old(locks) ==> locks == old(locks)
      ensures !locked && key in old(locks) ==> locks == old(locks) - {key}
    {
      if key !in locks {
        return false;
      }
      if now >= locks[key].expiresAt {
        locks := locks - {key};
        return false;
      }
      locked := true;
    }

    /** `cleanup()`: removes exactly the entries that have expired at `now`. */
    method Cleanup(now: int)
      modifies this
      ensures locks == Unexpired(old(locks), now)
    {
      var keys := locks.Keys;
      while keys != {}
        invariant keys <= old(locks).Keys
        invariant forall k :: k in locks <==> k in old(locks) && (k in keys || now < old(locks)[k].expiresAt)
        invariant forall k :: k in locks ==> locks[k] == old(locks)[k]
        decreases keys
      {
        var k :| k in keys;
        if now >= locks[k].expiresAt {
          locks := locks - {k};
        }
        keys := keys - {k};
      }
    }

    /**
     * The waiting loop of `withLock(key, …, timeoutMs, maxWaitMs,
     * retryIntervalMs)` with its own non-empty holder token, started at
     * `start`: one acquisition attempt every retryIntervalMs while less than
     * maxWaitMs has passed. It succeeds exactly when the lock is free at the
     * last attempt (locks only expire while it waits), at the first attempt
     * `at` that finds it free; a failed wait changes nothing.
     */
    method Poll(key: string, timeoutMs: int, maxWaitMs: int, retryIntervalMs: int, holder: string, start: int)
      returns (acquired: bool, at: int)
      requires retryIntervalMs > 0 && holder != ""
      modifies this
      ensures acquired <==> maxWaitMs > 0 && Free(old(locks), key, start + LastAttempt(maxWaitMs, retryIntervalMs))
      ensures acquired ==> start <= at < start + maxWaitMs && Steps(at - start, retryIntervalMs)
      ensures acquired ==> Free(old(locks), key, at) && (at == start || !Free(old(locks), key, at - retryIntervalMs))
      ensures acquired ==> locks == old(locks)[key := LockEntry(at + timeoutMs, holder)]
      ensures !acquired ==> locks == old(locks)
    {
      at := start;
      while at - start < maxWaitMs
        invariant at >= start && Steps(at - start, retryIntervalMs)
        invariant at > start ==> at - start - retryIntervalMs < maxWaitMs
        invariant at > start ==> !Free(old(locks), key, at - retryIntervalMs)
        invariant locks == old(locks)
        decreases maxWaitMs - (at - start)
      {
        acquired := Acquire(key, timeoutMs, Some(holder), holder, at);
        if acquired {
          AttemptBeforeLast(maxWaitMs, retryIntervalMs, at - start);
          return true, at;
        }
        assert Steps(at + retryIntervalMs - start - retryIntervalMs, retryIntervalMs);
        at := at + retryIntervalMs;
      }
      if at > start {
        LastAttemptIs(maxWaitMs, retryIntervalMs, at - start - retryIntervalMs);
      }
      acquired := false;
    }
  
    /**
     * `withLock(key, operation, …)` for an operation whose outcome depends
     * only on when it runs: the operation runs at most once, only after the
     * lock was taken with the own holder token, and the lock is released
     * afterwards whatever the outcome; a wait that ends without the lock
     * throws without running the operation.
     */
    method WithLock<T>(key: string, operation: int -> Outcome<T>, timeoutMs: int, maxWaitMs: int,
                       retryIntervalMs: int, holder: string, start: int)
      returns (r: Outcome<T>, ran: bool, at: int)
      requires retryIntervalMs > 0 && holder != ""
      modifies this
      ensures ran <==> maxWaitMs > 0 && Free(old(locks), key, start + LastAttempt(maxWaitMs, retryIntervalMs))
      ensures ran ==> r == operation(at) && start <= at < start + maxWaitMs && locks == old(locks) - {key}
      ensures !ran ==> r == Failure(LockTimeout(key)) && locks == old(locks)
    {
      ran, at := Poll(key, timeoutMs, maxWaitMs, retryIntervalMs, holder, start);
      if !ran {
        return Failure(LockTimeout(key)), false, at;
      }
      r := operation(at);
      var _ := Release(key, Some(holder));
    }
  }
}

=== FILE: login_request.dfy ===
/** The body of a login request and its validation. */
module LoginRequest {
  import opened Wrappers
  import opened Validation

  datatype LoginRequest = LoginRequest(email: Option<string>, password: Option<string>)

  /** The messages `validate` can report, in the order of its checks. */
  datatype Message = EmailRequired | PasswordRequired
  {
    function Text(): string
    {
      match this
      case EmailRequired => "Email is required"
      case PasswordRequired => "Password is required"
    }

    function Rank(): nat
    {
      match this
      case EmailRequired => 0
      case PasswordRequired => 1
    }
  }

  /** The checks of `validate`, in the order it runs them. */
  function Checks(req: LoginRequest): seq<Check<Message>>
  {
    [ Check(MissingOrBlank(req.email), EmailRequired),
      Check(MissingOrEmpty(req.password), PasswordRequired) ]
  }

  /** Runs both checks and collects the messages of those that fail. */
  method Validate(req: LoginRequest) returns (isValid: bool, errors: seq<Message>)
    ensures errors == Failed(Checks(req))
    ensures isValid <==> errors == []
  {
    ghost var cs := Checks(req);
    errors := [];
    errors := Report(cs, 0, errors, MissingOrBlank(req.email), EmailRequired);
    errors := Report(cs, 1, errors, MissingOrEmpty(req.password), PasswordRequired);
    assert cs[..2] == cs;
    isValid := |errors| == 0;
  }

  /**
   * A missing or whitespace-only email is reported; a missing or empty
   * password is reported, while a whitespace-only one is not; when both are
   * missing exactly the two messages appear, the email's first.
   */
  lemma ValidateMeaning(req: LoginRequest)
    ensures var errors := Failed(Checks(req));
      && (EmailRequired in errors <==> MissingOrBlank(req.email))
      && (PasswordRequired in errors <==> req.password.None? || req.password.value == "")
      && (errors == [] <==> !MissingOrBlank(req.email) && req.password.Some? && req.password.value != "")
      && (MissingOrBlank(req.email) && MissingOrEmpty(req.password) ==> errors == [EmailRequired, PasswordRequired])
  {
    var cs := Checks(req);
    FailedSnoc([cs[0]], cs[1]);
    assert cs == [cs[0]] + [cs[1]];
    assert Failed([cs[0]]) == Failed([]) + if cs[0].failed then [EmailRequired] else [];
  }
}

=== FILE: numbers.dfy ===
/** Integer helpers for the `Math.*` calls of the source. */
module Numbers {

  function Max(a: int, b: int): (r: int)
    ensures r >= a && r >= b && (r == a || r == b)
  {
    if a >= b then a else b
  }

  function Min(a: int, b: int): (r: int)
    ensures r <= a && r <= b && (r == a || r == b)
  {
    if a <= b then a else b
  }

  /** `Math.abs` */
  function Abs(a: int): (r: int)
    ensures r >= 0 && (r == a || r == -a)
  {
    if a < 0 then -a else a
  }

  /** `Math.ceil(a / b)` for a non-zero divisor. */
  function CeilDiv(a: int, b: int): (r: int)
    requires b != 0
    ensures b > 0 ==> (r - 1) * b < a <= r * b
    ensures b < 0 ==> r * b <= a < (r - 1) * b
  {
    if b > 0 then -((-a) / b) else a / b
  }
}

=== FILE: order_entity.dfy ===
/** The `Order` entity: the payment record attached to one booking. */
module OrderEntity {
  import opened Wrappers
  import opened Js
  import Constants

  type OrderStatus = Constants.OrderStatus
  type PaymentStatus = Constants.PaymentStatus

  /** The argument of `new Order(data)`; every field may be missing. Amounts are reals. */
  datatype OrderData = OrderData(
    id: Option<string>, userId: Option<string>, eventId: Option<string>, bookingId: Option<string>,
    orderNumber: Option<string>, totalAmount: Option<real>, currency: Option<string>,
    status: Option<OrderStatus>, paymentStatus: Option<PaymentStatus>,
    paymentMethod: Option<string>, paymentTransactionId: Option<string>,
    customerName: Option<string>, customerEmail: Option<string>, customerPhone: Option<string>,
    billingAddress: Option<string>, notes: Option<string>,
    version: Option<int>, createdAt: Option<int>, updatedAt: Option<int>,
    paidAt: Option<int>, cancelledAt: Option<int>)

  /** The fields `toJSON` returns; a row of the orders table has the same shape. */
  datatype OrderRecord = OrderRecord(
    id: string, userId: string, eventId: string, bookingId: string,
    orderNumber: string, totalAmount: real, currency: string,
    status: OrderStatus, paymentStatus: PaymentStatus,
    paymentMethod: Option<string>, paymentTransactionId: Option<string>,
    customerName: Option<string>, customerEmail: Option<string>, customerPhone: Option<string>,
    billingAddress: Option<string>, notes: Option<string>,
    version: int, createdAt: int, updatedAt: int,
    paidAt: Option<int>, cancelledAt: Option<int>)


  /**
   * The constructor's defaults: empty ids and order number, amount 0,
   * currency 'NGN' (also for an empty currency), status and payment status
   * pending unless given, version 0 (an explicit 0 is kept), timestamps now; the optional
   * customer and payment fields are copied as given.
   */
  function FromData(d: OrderData, now: int): (r: OrderRecord)
    ensures r.id == StrOr(d.id, "") && r.userId == StrOr(d.userId, "") && r.eventId == StrOr(d.eventId, "")
    ensures r.bookingId == StrOr(d.bookingId, "") && r.orderNumber == StrOr(d.orderNumber, "")
    ensures r.totalAmount == d.totalAmount.GetOr(0.0)
    ensures r.currency == StrOr(d.currency, "NGN")
    ensures d.status.None? ==> r.status == Constants.OrderStatus.Pending
    ensures d.status.Some? ==> r.status == d.status.value
    ensures d.paymentStatus.None? ==> r.paymentStatus == Constants.PaymentStatus.Pending
    ensures d.paymentStatus.Some? ==> r.paymentStatus == d.paymentStatus.value
    ensures r.paymentMethod == d.paymentMethod && r.paymentTransactionId == d.paymentTransactionId
    ensures r.customerName == d.customerName && r.customerEmail == d.customerEmail
    ensures r.customerPhone == d.customerPhone && r.billingAddress == d.billingAddress && r.notes == d.notes
    ensures d.version.Some? ==> r.version == d.version.value
    ensures d.version.None? ==> r.version == 0
    ensures r.createdAt == d.createdAt.GetOr(now) && r.updatedAt == d.updatedAt.GetOr(now)
    ensures r.paidAt == d.paidAt && r.cancelledAt == d.cancelledAt
  {
    OrderRecord(StrOr(d.id, ""), StrOr(d.userId, ""), StrOr(d.eventId, ""), StrOr(d.bookingId, ""),
      StrOr(d.orderNumber, ""), d.totalAmount.GetOr(0.0), StrOr(d.currency, "NGN"),
      d.status.GetOr(Constants.OrderStatus.Pending), d.paymentStatus.GetOr(Constants.PaymentStatus.Pending),
      d.paymentMethod, d.paymentTransactionId, d.customerName, d.customerEmail, d.customerPhone,
      d.billingAddress, d.notes, d.version.GetOr(0), d.createdAt.GetOr(now), d.updatedAt.GetOr(now),
      d.paidAt, d.cancelledAt)
  }

  /** The constructor argument the repository builds from a stored row. */
  function AsData(r: OrderRecord): OrderData
  {
    OrderData(Some(r.id), Some(r.userId), Some(r.eventId), Some(r.bookingId), Some(r.orderNumber),
      Some(r.totalAmount), Some(r.currency), Some(r.status), Some(r.paymentStatus),
      r.paymentMethod, r.paymentTransactionId, r.customerName, r.customerEmail, r.customerPhone,
      r.billingAddress, r.notes, Some(r.version), Some(r.createdAt), Some(r.updatedAt), r.paidAt, r.cancelledAt)
  }

  /** Reading a row back through the constructor loses nothing, except that an empty currency reads as naira. */
  lemma RowRoundTrip(r: OrderRecord, now: int)
    ensures FromData(AsData(r), now) == r.(currency := StrOr(Some(r.currency), "NGN"))
  {
  }

  /**
   * `markAsPaid(transactionId)`: the order becomes paid with a completed
   * payment at `now`; the transaction id is replaced only by a non-empty one.
   */
  function AsPaid(o: OrderRecord, transactionId: Option<string>, now: int): (r: OrderRecord)
    ensures r.status == Constants.OrderStatus.Paid && r.paymentStatus == Constants.PaymentStatus.Completed
    ensures r.paidAt == Some(now) && r.updatedAt == now
    ensures r.paymentTransactionId == (if transactionId.Some? && transactionId.value != "" then transactionId else o.paymentTransactionId)
    ensures r.(status := o.status, paymentStatus := o.paymentStatus, paidAt := o.paidAt,
               updatedAt := o.updatedAt, paymentTransactionId := o.paymentTransactionId) == o
  {
    o.(status := Constants.OrderStatus.Paid, paymentStatus := Constants.PaymentStatus.Completed,
       paidAt := Some(now), updatedAt := now,
       paymentTransactionId := if transactionId.Some? && transactionId.value != "" then transactionId else o.paymentTransactionId)
  }

  /**
   * `markAsCancelled()`: the order becomes cancelled at `now`; a completed
   * payment is refunded, any other payment is marked failed.
   */
  function AsCancelled(o: OrderRecord, now: int): (r: OrderRecord)
    ensures r.status == Constants.OrderStatus.Cancelled && r.cancelledAt == Some(now) && r.updatedAt == now
    ensures r.paymentStatus == Constants.PaymentStatus.Refunded <==> o.paymentStatus == Constants.PaymentStatus.Completed
    ensures r.paymentStatus == Constants.PaymentStatus.Refunded || r.paymentStatus == Constants.PaymentStatus.Failed
    ensures r.(status := o.status, paymentStatus := o.paymentStatus, cancelledAt := o.cancelledAt,
               updatedAt := o.updatedAt) == o
  {
    o.(status := Constants.OrderStatus.Cancelled,
       paymentStatus := if o.paymentStatus == Constants.PaymentStatus.Completed
                        then Constants.PaymentStatus.Refunded else Constants.PaymentStatus.Failed,
       cancelledAt := Some(now), updatedAt := now)
  }

  class Order {
    var id: string
    var userId: string
    var eventId: string
    var bookingId: string
    var orderNumber: string
    var totalAmount: real
    var currency: string
    var status: OrderStatus
    var paymentStatus: PaymentStatus
    var paymentMethod: Option<string>
    var paymentTransactionId: Option<string>
    var customerName: Option<string>
    var customerEmail: Option<string>
    var customerPhone: Option<string>
    var billingAddress: Option<string>
    var notes: Option<string>
    var version: int
    var createdAt: int
    var updatedAt: int
    var paidAt: Option<int>
    var cancelledAt: Option<int>

    function ToJSON(): OrderRecord
      reads this
    {
      OrderRecord(id, userId, eventId, bookingId, orderNumber, totalAmount, currency, status, paymentStatus,
        paymentMethod, paymentTransactionId, customerName, customerEmail, customerPhone, billingAddress, notes,
        version, createdAt, updatedAt, paidAt, cancelledAt)
    }

    constructor(data: OrderData, now: int)
      ensures ToJSON() == FromData(data, now)
    {
      var r := FromData(data, now);
      id, userId, eventId, bookingId, orderNumber := r.id, r.userId, r.eventId, r.bookingId, r.orderNumber;
      totalAmount, currency, status, paymentStatus := r.totalAmount, r.currency, r.status, r.paymentStatus;
      paymentMethod, paymentTransactionId := r.paymentMethod, r.paymentTransactionId;
      customerName, customerEmail, customerPhone := r.customerName, r.customerEmail, r.customerPhone;
      billingAddress, notes := r.billingAddress, r.notes;
      version, createdAt, updatedAt, paidAt, cancelledAt := r.version, r.createdAt, r.updatedAt, r.paidAt, r.cancelledAt;
    }

    function GetVersion(): int
      reads this
    {
      version
    }

    method SetVersion(v: int)
      modifies this`version
      ensures GetVersion() == v
      ensures ToJSON() == old(ToJSON()).(version := v)
    {
      version := v;
    }

    method MarkAsPaid(transactionId: Option<string>, now: int)
      modifies this`status, this`paymentStatus, this`paidAt, this`updatedAt, this`paymentTransactionId
      ensures ToJSON() == AsPaid(old(ToJSON()), transactionId, now)
    {
      ghost var before := ToJSON();
      status := Constants.OrderStatus.Paid;
      paymentStatus := Constants.PaymentStatus.Completed;
      paidAt := Some(now);
      updatedAt := now;
      paymentTransactionId := if transactionId.Some? && transactionId.value != "" then transactionId else paymentTransactionId;
      assert ToJSON() == before.(status := status, paymentStatus := paymentStatus, paidAt := paidAt,
                                 updatedAt := updatedAt, paymentTransactionId := paymentTransactionId);
    }

    method MarkAsCancelled(now: int)
      modifies this`status, this`paymentStatus, this`cancelledAt, this`updatedAt
      ensures ToJSON() == AsCancelled(old(ToJSON()), now)
    {
      ghost var before := ToJSON();
      status := Constants.OrderStatus.Cancelled;
      paymentStatus := if paymentStatus == Constants.PaymentStatus.Completed
                       then Constants.PaymentStatus.Refunded else Constants.PaymentStatus.Failed;
      cancelledAt := Some(now);
      updatedAt := now;
      assert ToJSON() == before.(status := status, paymentStatus := paymentStatus, cancelledAt := cancelledAt,
                                 updatedAt := updatedAt);
    }
  }
}

=== FILE: order_repository.dfy ===
/**
 * The orders table, to the extent the order workflow reads and writes it:
 * lookups by id and by booking, the INSERT with its constraints, and the
 * version-checked UPDATE.
 */
module OrderRepository {
  import opened Wrappers
  import opened Js
  import opened CustomErrors
  import opened OrderEntity
  import opened Store

  function IndexOf(rows: seq<OrderRecord>, id: string): (i: int)
    ensures -1 <= i < |rows|
    ensures i >= 0 ==> rows[i].id == id
    ensures i < 0 ==> forall k :: 0 <= k < |rows| ==> rows[k].id != id
  {
    if rows == [] then -1
    else if rows[|rows| - 1].id == id then |rows| - 1
    else IndexOf(rows[..|rows| - 1], id)
  }

  /** `findById`: the stored row, or null. */
  function FindById(rows: seq<OrderRecord>, id: string): (r: Option<OrderRecord>)
    ensures r.Some? <==> exists k :: 0 <= k < |rows| && rows[k].id == id
    ensures r.Some? ==> r.value.id == id && r.value in rows
  {
    var i := IndexOf(rows, id);
    if i < 0 then None else Some(rows[i])
  }

  /** `findByBookingId`: the first stored order of the booking, or null. */
  function FindByBookingId(rows: seq<OrderRecord>, bookingId: string): (r: Option<OrderRecord>)
    ensures r.Some? <==> exists k :: 0 <= k < |rows| && rows[k].bookingId == bookingId
    ensures r.Some? ==> r.value.bookingId == bookingId && r.value in rows
  {
    if rows == [] then None
    else if rows[0].bookingId == bookingId then Some(rows[0])
    else
      var r := FindByBookingId(rows[1..], bookingId);
      assert forall k :: 1 <= k < |rows| ==> rows[1..][k - 1] == rows[k];
      r
  }

  /** A nullable VARCHAR(n) column: NULL, or at most `n` characters. */
  predicate FitsIn(s: Option<string>, n: nat)
  {
    s.None? || |s.value| <= n
  }

  /**
   * The character limits of the VARCHAR columns: user id 255, order number
   * 50, currency 3, payment method 50, transaction id 255, customer name
   * and e-mail 255, customer phone 50.
   */
  predicate ColumnsFit(o: OrderRecord)
  {
    && |o.userId| <= 255 && |o.orderNumber| <= 50 && |o.currency| <= 3
    && FitsIn(o.paymentMethod, 50) && FitsIn(o.paymentTransactionId, 255)
    && FitsIn(o.customerName, 255) && FitsIn(o.customerEmail, 255) && FitsIn(o.customerPhone, 50)
  }

  /**
   * The table's constraints on one row: the column limits, a non-negative
   * amount, and existing event and booking.
   */
  predicate RowOk(o: OrderRecord, db: Database)
    reads db
  {
    ColumnsFit(o) && o.totalAmount >= 0.0
    && EventExists(db.events, o.eventId) && BookingExists(db.bookings, o.bookingId)
  }

  /** The UNIQUE constraint on `order_number`. */
  predicate NumberTaken(rows: seq<OrderRecord>, orderNumber: string)
  {
    exists k :: 0 <= k < |rows| && rows[k].orderNumber == orderNumber
  }

  /** The row `create` stores: empty optional strings become NULL. */
  function Stored(o: OrderRecord): (r: OrderRecord)
    ensures r.paymentMethod != Some("") && r.paymentTransactionId != Some("") && r.notes != Some("")
    ensures r.customerName != Some("") && r.customerEmail != Some("")
    ensures r.customerPhone != Some("") && r.billingAddress != Some("")
    ensures r.(paymentMethod := o.paymentMethod, paymentTransactionId := o.paymentTransactionId,
               customerName := o.customerName, customerEmail := o.customerEmail,
               customerPhone := o.customerPhone, billingAddress := o.billingAddress, notes := o.notes) == o
  {
    o.(paymentMethod := OrNull(o.paymentMethod), paymentTransactionId := OrNull(o.paymentTransactionId),
       customerName := OrNull(o.customerName), customerEmail := OrNull(o.customerEmail),
       customerPhone := OrNull(o.customerPhone), billingAddress := OrNull(o.billingAddress),
       notes := OrNull(o.notes))
  }

  /**
   * `create`: the INSERT succeeds when the id and the order number are new
   * and the row satisfies its constraints.
   */
  method Create(db: Database, o: OrderRecord) returns (r: Outcome<OrderRecord>)
    modifies db`orders
    ensures r.Success? <==> IndexOf(old(db.orders), o.id) < 0 && !NumberTaken(old(db.orders), o.orderNumber) && RowOk(o, db)
    ensures r.Success? ==> r.value == Stored(o) && db.orders == old(db.orders) + [Stored(o)]
    ensures r.Failure? ==> r.error == PlainError(ConstraintViolation) && db.orders == old(db.orders)
  {
    if IndexOf(db.orders, o.id) >= 0 || NumberTaken(db.orders, o.orderNumber) || !RowOk(o, db) {
      return Failure(PlainError(ConstraintViolation));
    }
    db.orders := db.orders + [Stored(o)];
    r := Success(Stored(o));
  }

  /**
   * The row a successful `update` leaves: the statuses, the payment and
   * customer fields, paidAt, cancelledAt and updatedAt come from the
   * entity; the version goes up by one; ids, number, amount, currency and
   * creation time stay as stored.
   */
  function Written(stored: OrderRecord, o: OrderRecord): (r: OrderRecord)
    ensures r.id == stored.id && r.userId == stored.userId && r.eventId == stored.eventId
    ensures r.bookingId == stored.bookingId && r.orderNumber == stored.orderNumber
    ensures r.totalAmount == stored.totalAmount && r.currency == stored.currency && r.createdAt == stored.createdAt
    ensures r.version == stored.version + 1
    ensures r.status == o.status && r.paymentStatus == o.paymentStatus
    ensures r.paidAt == o.paidAt && r.cancelledAt == o.cancelledAt && r.updatedAt == o.updatedAt
    ensures r.paymentMethod == OrNull(o.paymentMethod) && r.paymentTransactionId == OrNull(o.paymentTransactionId)
    ensures r.customerName == OrNull(o.customerName) && r.customerEmail == OrNull(o.customerEmail)
    ensures r.customerPhone == OrNull(o.customerPhone) && r.billingAddress == OrNull(o.billingAddress)
    ensures r.notes == OrNull(o.notes)
  {
    Stored(o).(id := stored.id, userId := stored.userId, eventId := stored.eventId, bookingId := stored.bookingId,
               orderNumber := stored.orderNumber, totalAmount := stored.totalAmount, currency := stored.currency,
               createdAt := stored.createdAt, version := stored.version + 1)
  }

  /** The message `update` throws when its UPDATE matched no row. */
  const NotFoundOrMismatch: string := "Order not found or version mismatch"

  /**
   * `update(order, expectedVersion)`: like the other tables' CAS update,
   * except that a missing row fails with the same plain error with or
   * without an expected version. A written value too long for its column
   * is rejected by the database. Nothing changes on failure.
   */
  method Update(db: Database, o: OrderRecord, expectedVersion: Option<int>) returns (r: Outcome<OrderRecord>)
    modifies db`orders
    ensures var i := IndexOf(old(db.orders), o.id);
      && (i < 0 || (expectedVersion.Some? && old(db.orders)[i].version != expectedVersion.value)
          ==> r == Failure(PlainError(NotFoundOrMismatch)) && db.orders == old(db.orders))
      && (i >= 0 && (expectedVersion.None? || old(db.orders)[i].version == expectedVersion.value)
          && !ColumnsFit(Written(old(db.orders)[i], o))
          ==> r == Failure(PlainError(ConstraintViolation)) && db.orders == old(db.orders))
      && (i >= 0 && (expectedVersion.None? || old(db.orders)[i].version == expectedVersion.value)
          && ColumnsFit(Written(old(db.orders)[i], o))
          ==> r == Success(Written(old(db.orders)[i], o)) && db.orders == old(db.orders)[i := r.value])
  {
    var i := IndexOf(db.orders, o.id);
    if i < 0 || (expectedVersion.Some? && db.orders[i].version != expectedVersion.value) {
      return Failure(PlainError(NotFoundOrMismatch));
    }
    var written := Written(db.orders[i], o);
    if !ColumnsFit(written) {
      return Failure(PlainError(ConstraintViolation));
    }
    db.orders := db.orders[i := written];
    r := Success(written);
  }

  /**
   * The rows that survive `ON DELETE CASCADE` when an event and the
   * bookings in `goneBookings` are deleted.
   */
  function WithoutEvent(rows: seq<OrderRecord>, eventId: string, goneBookings: set<string>): (r: seq<OrderRecord>)
    ensures forall x :: x in r <==> x in rows && x.eventId != eventId && x.bookingId !in goneBookings
  {
    if rows == [] then []
    else
      var n := |rows| - 1;
      var rest := WithoutEvent(rows[..n], eventId, goneBookings);
      assert rows == rows[..n] + [rows[n]];
      if rows[n].eventId == eventId || rows[n].bookingId in goneBookings then rest else rest + [rows[n]]
  }
}

=== FILE: order_service.dfy ===
/**
 * `OrderService`: the payment record of a booking. At most one order is
 * created per booking; an update overwrites the fields the request gives.
 */
module OrderService {
  import opened Wrappers
  import opened Js
  import opened CustomErrors
  import opened OrderEntity
  import opened Store
  import Constants
  import BookingRepository
  import OrderRepository

  /** No two orders refer to the same booking. */
  predicate OneOrderPerBooking(orders: seq<OrderRecord>)
  {
    forall i, j :: 0 <= i < j < |orders| ==> orders[i].bookingId != orders[j].bookingId
  }

  // ---- createOrder ----

  /** The fields of a create-order request the service reads. */
  datatype CreateOrderData = CreateOrderData(
    userId: string, eventId: string, bookingId: string, totalAmount: Option<real>, currency: Option<string>,
    paymentMethod: Option<string>, customerName: Option<string>, customerEmail: Option<string>,
    customerPhone: Option<string>, billingAddress: Option<string>, notes: Option<string>)

  /** The argument `createOrder` gives the `Order` constructor, with the generated id and order number. */
  function NewOrderData(id: string, orderNumber: string, data: CreateOrderData, now: int): OrderData
  {
    OrderData(Some(id), Some(data.userId), Some(data.eventId), Some(data.bookingId), Some(orderNumber),
      data.totalAmount, Some(StrOr(data.currency, "NGN")),
      Some(Constants.OrderStatus.Pending), Some(Constants.PaymentStatus.Pending),
      data.paymentMethod, None, data.customerName, data.customerEmail, data.customerPhone,
      data.billingAddress, data.notes, Some(0), Some(now), Some(now), None, None)
  }

  /** The order `createOrder` builds: pending and unpaid, version 0, in the given currency or naira. */
  function NewOrder(id: string, orderNumber: string, data: CreateOrderData, now: int): (o: OrderRecord)
    ensures o.id == StrOr(Some(id), "") && o.bookingId == StrOr(Some(data.bookingId), "")
    ensures o.orderNumber == StrOr(Some(orderNumber), "") && o.totalAmount == data.totalAmount.GetOr(0.0)
    ensures o.currency == StrOr(data.currency, "NGN") && o.currency != ""
    ensures o.status == Constants.OrderStatus.Pending && o.paymentStatus == Constants.PaymentStatus.Pending
    ensures o.version == 0 && o.createdAt == now && o.updatedAt == now
    ensures o.paidAt.None? && o.cancelledAt.None? && o.paymentTransactionId.None?
  {
    FromData(NewOrderData(id, orderNumber, data, now), now)
  }

  /** The error classes `createOrder` rethrows unchanged. */
  predicate CreatePassThrough(e: Error)
  {
    e.NotFoundError? || e.ConflictError?
  }

  /**
   * `createOrder(data)` with the generated id and order number: a missing
   * booking is a `NotFoundError`, a booking that already has an order a
   * `ConflictError`; otherwise the order is inserted when the table's
   * constraints hold, and any other failure becomes
   * `DatabaseError('Failed to create order')`. Nothing changes on failure,
   * and a booking never gets a second order.
   */
  method CreateOrder(db: Database, data: CreateOrderData, orderId: string, orderNumber: string, now: int)
    returns (r: Outcome<OrderRecord>)
    modifies db`orders
    ensures r.Failure? ==> db.orders == old(db.orders)
    ensures !BookingExists(db.bookings, data.bookingId) ==>
      r == Failure(NewNotFoundError("Booking", data.bookingId))
    ensures BookingExists(db.bookings, data.bookingId) && OrderRepository.FindByBookingId(old(db.orders), data.bookingId).Some? ==>
      r == Failure(NewConflictError("Order already exists for this booking"))
    ensures BookingExists(db.bookings, data.bookingId) && OrderRepository.FindByBookingId(old(db.orders), data.bookingId).None? ==>
      var o := NewOrder(orderId, orderNumber, data, now);
      if OrderRepository.IndexOf(old(db.orders), o.id) < 0 && !OrderRepository.NumberTaken(old(db.orders), o.orderNumber)
         && OrderRepository.RowOk(o, db)
      then r == Success(OrderRepository.Stored(o)) && db.orders == old(db.orders) + [r.value]
      else r == Failure(NewDatabaseError("Failed to create order", Some(PlainError(ConstraintViolation))))
    ensures OneOrderPerBooking(old(db.orders)) ==> OneOrderPerBooking(db.orders)
  {
    var outcome: Outcome<OrderRecord>;
    var booking := BookingRepository.FindById(db.bookings, data.bookingId);
    if booking.None? {
      outcome := Failure(NewNotFoundError("Booking", data.bookingId));
    } else {
      var existingOrder := OrderRepository.FindByBookingId(db.orders, data.bookingId);
      if existingOrder.Some? {
        outcome := Failure(NewConflictError("Order already exists for this booking"));
      } else {
        var order := new Order(NewOrderData(orderId, orderNumber, data, now), now);
        outcome := OrderRepository.Create(db, order.ToJSON());
        if outcome.Success? {
          assert forall k :: 0 <= k < |old(db.orders)| ==> old(db.orders)[k].bookingId != outcome.value.bookingId;
        }
      }
    }
    r := if outcome.Success? then outcome else Failure(RethrowOrWrap(outcome.error, CreatePassThrough, "Failed to create order"));
  }

  // ---- updateOrder ----

  /** The fields of an update-order request; a missing one is left as stored. */
  datatype UpdateOrderData = UpdateOrderData(
    status: Option<Constants.OrderStatus>, paymentStatus: Option<Constants.PaymentStatus>,
    paymentMethod: Option<string>, paymentTransactionId: Option<string>,
    customerName: Option<string>, customerEmail: Option<string>, customerPhone: Option<string>,
    billingAddress: Option<string>, notes: Option<string>)

  /** `value !== undefined ? value : current` */
  function Given<T>(value: Option<T>, current: T): T
  {
    if value.Some? then value.value else current
  }

  /** `if (value !== undefined) field = value` on an optional field. */
  function Replaced<T>(value: Option<T>, current: Option<T>): Option<T>
  {
    if value.Some? then value else current
  }

  /**
   * The order `updateOrder` writes back: every field the request gives is
   * overwritten, every other field keeps its value, and the update time is
   * set. The paid and cancelled timestamps are never touched, whatever
   * status the request asks for.
   */
  function OrderEdited(o: OrderRecord, data: UpdateOrderData, now: int): (r: OrderRecord)
    ensures r.status == Given(data.status, o.status) && r.paymentStatus == Given(data.paymentStatus, o.paymentStatus)
    ensures r.paymentMethod == Replaced(data.paymentMethod, o.paymentMethod)
    ensures r.paymentTransactionId == Replaced(data.paymentTransactionId, o.paymentTransactionId)
    ensures r.customerName == Replaced(data.customerName, o.customerName)
    ensures r.customerEmail == Replaced(data.customerEmail, o.customerEmail)
    ensures r.customerPhone == Replaced(data.customerPhone, o.customerPhone)
    ensures r.billingAddress == Replaced(data.billingAddress, o.billingAddress)
    ensures r.notes == Replaced(data.notes, o.notes)
    ensures r.paidAt == o.paidAt && r.cancelledAt == o.cancelledAt && r.updatedAt == now
    ensures r.id == o.id && r.bookingId == o.bookingId && r.version == o.version && r.totalAmount == o.totalAmount
  {
    o.(status := Given(data.status, o.status), paymentStatus := Given(data.paymentStatus, o.paymentStatus),
       paymentMethod := Replaced(data.paymentMethod, o.paymentMethod),
       paymentTransactionId := Replaced(data.paymentTransactionId, o.paymentTransactionId),
       customerName := Replaced(data.customerName, o.customerName),
       customerEmail := Replaced(data.customerEmail, o.customerEmail),
       customerPhone := Replaced(data.customerPhone, o.customerPhone),
       billingAddress := Replaced(data.billingAddress, o.billingAddress),
       notes := Replaced(data.notes, o.notes),
       updatedAt := now)
  }

  /** The request's status and payment fields copied onto the loaded entity. */
  method ApplyPaymentFields(order: Order, data: UpdateOrderData)
    modifies order`status, order`paymentStatus, order`paymentMethod, order`paymentTransactionId
    ensures order.status == Given(data.status, old(order.status))
    ensures order.paymentStatus == Given(data.paymentStatus, old(order.paymentStatus))
    ensures order.paymentMethod == Replaced(data.paymentMethod, old(order.paymentMethod))
    ensures order.paymentTransactionId ==
      Replaced(data.paymentTransactionId, old(order.paymentTransactionId))
  {
    if data.status.Some? { order.status := data.status.value; }
    if data.paymentStatus.Some? { order.paymentStatus := data.paymentStatus.value; }
    if data.paymentMethod.Some? { order.paymentMethod := data.paymentMethod; }
    if data.paymentTransactionId.Some? { order.paymentTransactionId := data.paymentTransactionId; }
  }

  /** The request's customer fields and notes copied onto the loaded entity. */
  method ApplyCustomerFields(order: Order, data: UpdateOrderData)
    modifies order`customerName, order`customerEmail, order`customerPhone, order`billingAddress, order`notes
    ensures order.customerName == Replaced(data.customerName, old(order.customerName))
    ensures order.customerEmail == Replaced(data.customerEmail, old(order.customerEmail))
    ensures order.customerPhone == Replaced(data.customerPhone, old(order.customerPhone))
    ensures order.billingAddress == Replaced(data.billingAddress, old(order.billingAddress))
    ensures order.notes == Replaced(data.notes, old(order.notes))
  {
    if data.customerName.Some? { order.customerName := data.customerName; }
    if data.customerEmail.Some? { order.customerEmail := data.customerEmail; }
    if data.customerPhone.Some? { order.customerPhone := data.customerPhone; }
    if data.billingAddress.Some? { order.billingAddress := data.billingAddress; }
    if data.notes.Some? { order.notes := data.notes; }
  }

  /**
   * The status branch that follows the copied fields: the status was
   * already overwritten with the requested one, so neither `markAsPaid` nor
   * `markAsCancelled` can run and only the plain timestamp update does.
   */
  method StampUpdate(order: Order, data: UpdateOrderData, now: int)
    requires data.status.Some? ==> order.status == data.status.value
    modifies order`updatedAt
    ensures order.updatedAt == now
  {
    if data.status == Some(Constants.OrderStatus.Paid) && order.status != Constants.OrderStatus.Paid {
      assert false;
    } else if data.status == Some(Constants.OrderStatus.Cancelled) && order.status != Constants.OrderStatus.Cancelled {
      assert false;
    } else {
      order.updatedAt := now;
    }
  }

  /** The request applied to the loaded entity, then the status branch. */
  method ApplyOrderUpdate(order: Order, data: UpdateOrderData, now: int)
    modifies order
    ensures order.ToJSON() == OrderEdited(old(order.ToJSON()), data, now)
  {
    ApplyPaymentFields(order, data);
    ApplyCustomerFields(order, data);
    StampUpdate(order, data, now);
  }

  /**
   * `updateOrder(id, data)`: a missing order is a `NotFoundError`; otherwise
   * the edited order is written back with the version it was read with, so
   * the version check always passes; a value too long for its column makes
   * the write fail, which becomes `DatabaseError('Failed to update order')`.
   * Orders keep their booking, so a booking still has at most one order.
   */
  method UpdateOrder(db: Database, id: string, data: UpdateOrderData, now: int) returns (r: Outcome<OrderRecord>)
    modifies db`orders
    ensures var i := OrderRepository.IndexOf(old(db.orders), id);
      && (i < 0 ==> r == Failure(NewNotFoundError("Order", id)) && db.orders == old(db.orders))
      && (i >= 0 ==>
            var w := OrderRepository.Written(old(db.orders)[i], OrderEdited(old(db.orders)[i], data, now));
            && (OrderRepository.ColumnsFit(w) ==> r == Success(w) && db.orders == old(db.orders)[i := w])
            && (!OrderRepository.ColumnsFit(w) ==>
                  r == Failure(NewDatabaseError("Failed to update order", Some(PlainError(ConstraintViolation))))
                  && db.orders == old(db.orders)))
    ensures OneOrderPerBooking(old(db.orders)) ==> OneOrderPerBooking(db.orders)
  {
    var i := OrderRepository.IndexOf(db.orders, id);
    if i < 0 {
      return Failure(NewNotFoundError("Order", id));
    }
    var stored := db.orders[i];
    var order := new Order(AsData(stored), now);
    RowRoundTrip(stored, now);
    ApplyOrderUpdate(order, data, now);
    var updated := OrderRepository.Update(db, order.ToJSON(), Some(order.GetVersion()));
    r := if updated.Success? then updated else Failure(NewDatabaseError("Failed to update order", Some(updated.error)));
  }

  /**
   * Asking `updateOrder` for a paid order sets the status alone: the order
   * gets no paid timestamp and its payment status stays as stored unless
   * the request gives one, unlike `markAsPaid`.
   */
  lemma UpdateOrderNeverMarksPaid(o: OrderRecord, data: UpdateOrderData, now: int)
    requires data.status == Some(Constants.OrderStatus.Paid) && data.paymentStatus.None? && o.paidAt.None?
    requires o.paymentStatus != Constants.PaymentStatus.Completed
    ensures OrderEdited(o, data, now).status == Constants.OrderStatus.Paid
    ensures OrderEdited(o, data, now).paidAt.None?
    ensures OrderEdited(o, data, now) != AsPaid(o, data.paymentTransactionId, now)
  {
  }

  /** Likewise a cancellation request sets the status but neither the cancellation time nor a refund. */
  lemma UpdateOrderNeverMarksCancelled(o: OrderRecord, data: UpdateOrderData, now: int)
    requires data.status == Some(Constants.OrderStatus.Cancelled) && data.paymentStatus.None? && o.cancelledAt.None?
    ensures OrderEdited(o, data, now).status == Constants.OrderStatus.Cancelled
    ensures OrderEdited(o, data, now).cancelledAt.None?
    ensures OrderEdited(o, data, now).paymentStatus == o.paymentStatus
    ensures OrderEdited(o, data, now) != AsCancelled(o, now)
  {
  }
}

=== FILE: pagination_util.dfy ===
/**
 * `PaginationUtil`: query-string parsing, offsets and the page summary of
 * a list response. A number that JavaScript would compute as `NaN` is
 * `None` here.
 */
module Pagination {
  import opened Wrappers
  import opened Numbers
  import opened Strings

  /** The parsed query: page and limit (`None` is `NaN`), sort field and direction. */
  datatype Params = Params(page: Option<int>, limit: Option<int>, sortBy: string, sortOrder: string)

  /** A query-string value is truthy when present and non-empty. */
  predicate Given(v: Option<string>)
  {
    v.Some? && v.value != ""
  }

  /** `Math.max(1, parseInt(page))` */
  function PageOf(s: string): (r: Option<int>)
    ensures r.Some? <==> ParseInt(s).Some?
    ensures r.Some? ==> r.value >= 1 && r.value == Max(1, ParseInt(s).value)
  {
    var n := ParseInt(s);
    if n.None? then None else Some(Max(1, n.value))
  }

  /** `Math.min(100, Math.max(1, parseInt(limit)))` */
  function LimitOf(s: string): (r: Option<int>)
    ensures r.Some? <==> ParseInt(s).Some?
    ensures r.Some? ==> 1 <= r.value <= 100
    ensures r.Some? && 1 <= ParseInt(s).value <= 100 ==> r.value == ParseInt(s).value
  {
    var n := ParseInt(s);
    if n.None? then None else Some(Min(100, Max(1, n.value)))
  }

  /**
   * `parseParams(query)`: page at least 1 (1 when not given), limit between
   * 1 and 100 (10 when not given), sortBy 'createdAt' when not given, and
   * sortOrder 'asc' or 'desc' ('desc' for anything else).
   */
  function ParseParams(page: Option<string>, limit: Option<string>, sortBy: Option<string>, sortOrder: Option<string>): (r: Params)
    ensures !Given(page) ==> r.page == Some(1)
    ensures Given(page) ==> r.page == PageOf(page.value)
    ensures !Given(limit) ==> r.limit == Some(10)
    ensures Given(limit) ==> r.limit == LimitOf(limit.value)
    ensures r.page.Some? ==> r.page.value >= 1
    ensures r.limit.Some? ==> 1 <= r.limit.value <= 100
    ensures r.sortBy == (if Given(sortBy) then sortBy.value else "createdAt")
    ensures r.sortOrder == "asc" || r.sortOrder == "desc"
    ensures r.sortOrder == "asc" <==> sortOrder == Some("asc")
  {
    Params(
      if Given(page) then PageOf(page.value) else Some(1),
      if Given(limit) then LimitOf(limit.value) else Some(10),
      if Given(sortBy) then sortBy.value else "createdAt",
      if sortOrder == Some("asc") || sortOrder == Some("desc") then sortOrder.value else "desc")
  }

  /** A page number written in decimal is read back, raised to at least 1. */
  lemma ParsePageOfDecimal(n: int)
    ensures ParseParams(Some(IntToString(n)), None, None, None).page == Some(Max(1, n))
  {
    ParseIntOfIntToString(n);
  }

  /** A limit written in decimal is read back, clamped into 1..100. */
  lemma ParseLimitOfDecimal(n: int)
    ensures ParseParams(None, Some(IntToString(n)), None, None).limit == Some(Min(100, Max(1, n)))
  {
    ParseIntOfIntToString(n);
  }

  /** `calculateOffset(page, limit)`: the number of rows on the pages before `page`. */
  function CalculateOffset(page: int, limit: int): (r: int)
    ensures page >= 1 && limit >= 0 ==> r >= 0
    ensures r + limit == page * limit
  {
    (page - 1) * limit
  }

  /** Row `i` lies on page `page` exactly when `page` is the page index formula gives. */
  lemma {:induction false} RowOnPage(i: nat, page: int, limit: int)
    requires limit > 0
    ensures CalculateOffset(page, limit) <= i < CalculateOffset(page, limit) + limit <==> page == i / limit + 1
  {
    var q := i / limit;
    assert q * limit <= i < q * limit + limit;
    if page <= q {
      assert (page - 1) * limit + limit == page * limit <= q * limit;
    } else if page >= q + 2 {
      assert (page - 1) * limit >= (q + 1) * limit;
    }
  }

  /**
   * The `pagination` block of a list response. `page`, `limit` and
   * `totalPages` are `None` where JavaScript holds `NaN` or `Infinity`,
   * both of which the JSON response carries as `null`.
   */
  datatype PageInfo = PageInfo(page: Option<int>, limit: Option<int>, total: int, totalPages: Option<int>, hasNext: bool, hasPrev: bool)

  /** A field of the `params` object `createResponse` destructures: absent, or a number (`None` is `NaN`). */
  datatype Field = Missing | Present(value: Option<int>)

  /** `{ x = d } = params`: only an absent field takes the default; `NaN` stays `NaN`. */
  function Default(f: Field, d: int): (r: Option<int>)
    ensures f.Missing? ==> r == Some(d)
    ensures f.Present? ==> r == f.value
  {
    if f.Missing? then Some(d) else f.value
  }

  /**
   * `createResponse(data, total, { page = 1, limit = 10 })`. Absent fields
   * take their defaults, a `NaN` field stays `NaN`. With a positive limit
   * totalPages is the least number of pages of `limit` rows that holds all
   * `total` rows, and there is a next page exactly when the pages up to this
   * one hold fewer than `total` rows. A zero limit divides by zero
   * (`Infinity` pages when there are rows, `NaN` when there are none), a
   * `NaN` limit gives `NaN` pages, and every comparison with `NaN` is false.
   */
  function CreateResponse(total: nat, page: Field, limit: Field): (r: PageInfo)
    ensures r.page == Default(page, 1) && r.limit == Default(limit, 10) && r.total == total
    ensures r.totalPages.None? <==> r.limit.None? || r.limit.value == 0
    ensures r.totalPages.Some? && r.limit.value > 0 ==>
      (r.totalPages.value - 1) * r.limit.value < total <= r.totalPages.value * r.limit.value
    ensures r.totalPages.Some? && r.limit.value < 0 ==>
      r.totalPages.value * r.limit.value <= total < (r.totalPages.value - 1) * r.limit.value
    ensures r.page.None? || r.limit.None? ==> !r.hasNext
    ensures r.page.Some? && r.limit == Some(0) ==> (r.hasNext <==> total > 0)
    ensures r.page.Some? && r.limit.Some? && r.limit.value > 0 ==>
      (r.hasNext <==> r.page.value * r.limit.value < total)
    ensures r.page.Some? && r.totalPages.Some? ==> (r.hasNext <==> r.page.value < r.totalPages.value)
    ensures r.hasPrev <==> r.page.Some? && r.page.value > 1
  {
    var p := Default(page, 1);
    var l := Default(limit, 10);
    if l.None? || l.value == 0 then
      PageInfo(p, l, total, None, p.Some? && l.Some? && total > 0, p.Some? && p.value > 1)
    else
      var pages := CeilDiv(total, l.value);
      var hasNext := p.Some? && p.value < pages;
      assert p.Some? && l.value > 0 ==> (hasNext <==> p.value * l.value < total) by {
        if p.Some? && l.value > 0 { HasNextIff(total, p.value, l.value); }
      }
      PageInfo(p, l, total, Some(pages), hasNext, p.Some? && p.value > 1)
  }

  /** `page < ceil(total / limit)` says that rows remain after page `page`. */
  lemma HasNextIff(total: nat, page: int, limit: int)
    requires limit > 0
    ensures page < CeilDiv(total, limit) <==> page * limit < total
  {
    var c := CeilDiv(total, limit);
    if page < c {
      assert page * limit <= (c - 1) * limit;
    } else {
      assert c * limit <= page * limit;
    }
  }

  /** `validateSortField(field, allowed)`: membership in the allowed list. */
  function ValidateSortField(field: string, allowedFields: seq<string>): (r: bool)
    ensures r <==> exists i :: 0 <= i < |allowedFields| && allowedFields[i] == field
  {
    field in allowedFields
  }
}

=== FILE: patterns.dfy ===
/** The two regular expressions the request validators test strings against. */
module Patterns {
  import opened Strings

  /** No whitespace (`\s`) and no '@': the class `[^\s@]`. */
  predicate NoSpaceOrAt(s: string)
  {
    forall k :: 0 <= k < |s| ==> !IsWhitespace(s[k]) && s[k] != '@'
  }

  /**
   * `/^[^\s@]+@[^\s@]+\.[^\s@]+$/.test(s)`: a non-empty local part, one '@',
   * a non-empty host part, a '.', and a non-empty last part, none of them
   * holding whitespace or another '@'.
   */
  predicate IsEmail(s: string)
  {
    exists i, j | 0 < i < |s| && 0 < j < |s| ::
      i + 1 < j && j + 1 < |s| && s[i] == '@' && s[j] == '.'
      && NoSpaceOrAt(s[..i]) && NoSpaceOrAt(s[i + 1..j]) && NoSpaceOrAt(s[j + 1..])
  }

  /** The digits `/^\+?[1-9]\d{1,14}$/` requires after an optional leading '+'. */
  function PhoneDigits(s: string): (d: string)
    ensures |d| <= |s| && (|d| < |s| <==> s != [] && s[0] == '+')
  {
    if s != [] && s[0] == '+' then s[1..] else s
  }

  /**
   * `/^\+?[1-9]\d{1,14}$/.test(s)`: an optional '+', then two to fifteen
   * digits of which the first is not '0'.
   */
  predicate IsPhone(s: string)
  {
    var d := PhoneDigits(s);
    2 <= |d| <= 15 && '1' <= d[0] <= '9' && forall k :: 0 <= k < |d| ==> IsDigit(d[k])
  }

  /** Every accepted phone number is 2 to 16 characters long and holds no whitespace. */
  lemma PhoneShape(s: string)
    requires IsPhone(s)
    ensures 2 <= |s| <= 16
    ensures forall k :: 0 <= k < |s| ==> !IsWhitespace(s[k])
  {
    var d := PhoneDigits(s);
    forall k | 0 <= k < |s| ensures !IsWhitespace(s[k]) {
      if |d| < |s| && k > 0 { assert s[k] == d[k - 1]; }
      else if |d| == |s| { assert s[k] == d[k]; }
    }
  }

  /** An accepted address holds exactly one '@'. */
  lemma EmailHasOneAt(s: string)
    requires IsEmail(s)
    ensures exists i :: 0 < i < |s| && s[i] == '@' && forall k :: 0 <= k < |s| && k != i ==> s[k] != '@'
  {
    var i, j :| 0 < i < |s| && 0 < j < |s| &&
      i + 1 < j && j + 1 < |s| && s[i] == '@' && s[j] == '.'
      && NoSpaceOrAt(s[..i]) && NoSpaceOrAt(s[i + 1..j]) && NoSpaceOrAt(s[j + 1..]);
    forall k | 0 <= k < |s| && k != i ensures s[k] != '@' {
      if k < i { assert s[..i][k] == s[k]; }
      else if k < j { assert s[i + 1..j][k - i - 1] == s[k]; }
      else if k > j { assert s[j + 1..][k - j - 1] == s[k]; }
    }
  }
}

=== FILE: register_request.dfy ===
/** The body of a registration request and its validation. */
module RegisterRequest {
  import opened Wrappers
  import opened Strings
  import opened Patterns
  import opened Validation

  datatype RegisterRequest = RegisterRequest(
    email: Option<string>,
    password: Option<string>,
    name: Option<string>,
    phone: Option<string>)

  /** The messages `validate` can report, in the order of its checks. */
  datatype Message =
    | EmailRequired
    | InvalidEmail
    | PasswordRequired
    | PasswordTooShort
    | NameTooLong
    | InvalidPhone
  {
    function Text(): string
    {
      match this
      case EmailRequired => "Email is required"
      case InvalidEmail => "Invalid email format"
      case PasswordRequired => "Password is required"
      case PasswordTooShort => "Password must be at least 8 characters long"
      case NameTooLong => "Name must be less than 200 characters"
      case InvalidPhone => "Invalid phone number format"
    }

    function Rank(): nat
    {
      match this
      case EmailRequired => 0
      case InvalidEmail => 1
      case PasswordRequired => 2
      case PasswordTooShort => 3
      case NameTooLong => 4
      case InvalidPhone => 5
    }
  }

  const MinPasswordLength := 8
  const MaxNameLength := 200

  /**
   * The checks of `validate`, in the order it runs them. The format check
   * of the email and the length check of the password sit in `else`
   * branches, so each runs only when the field is present.
   */
  function Checks(req: RegisterRequest): seq<Check<Message>>
  {
    [ Check(MissingOrBlank(req.email), EmailRequired),
      Check(!MissingOrBlank(req.email) && !IsEmail(req.email.value), InvalidEmail),
      Check(MissingOrEmpty(req.password), PasswordRequired),
      Check(!MissingOrEmpty(req.password) && Utf16Length(req.password.value) < MinPasswordLength, PasswordTooShort),
      Check(LongerThan(req.name, MaxNameLength), NameTooLong),
      Check(req.phone.Some? && req.phone.value != "" && !IsPhone(req.phone.value), InvalidPhone) ]
  }

  /** Runs the checks and collects the messages of those that fail. */
  method Validate(req: RegisterRequest) returns (isValid: bool, errors: seq<Message>)
    ensures errors == Failed(Checks(req))
    ensures isValid <==> errors == []
  {
    ghost var cs := Checks(req);
    errors := [];
    if MissingOrBlank(req.email) {
      errors := Report(cs, 0, errors, true, EmailRequired);
      errors := Report(cs, 1, errors, false, InvalidEmail);
    } else {
      errors := Report(cs, 0, errors, false, EmailRequired);
      errors := Report(cs, 1, errors, !IsEmail(req.email.value), InvalidEmail);
    }
    if MissingOrEmpty(req.password) {
      errors := Report(cs, 2, errors, true, PasswordRequired);
      errors := Report(cs, 3, errors, false, PasswordTooShort);
    } else {
      errors := Report(cs, 2, errors, false, PasswordRequired);
      errors := Report(cs, 3, errors, Utf16Length(req.password.value) < MinPasswordLength, PasswordTooShort);
    }
    errors := Report(cs, 4, errors, LongerThan(req.name, MaxNameLength), NameTooLong);
    errors := Report(cs, 5, errors, req.phone.Some? && req.phone.value != "" && !IsPhone(req.phone.value), InvalidPhone);
    assert cs[..6] == cs;
    isValid := |errors| == 0;
  }

  /**
   * Errors come in check order and each appears exactly when its condition
   * holds; in particular a blank email is reported only as missing, never
   * also as malformed, and a missing password never also as too short.
   */
  lemma ValidateMeaning(req: RegisterRequest)
    ensures var errors := Failed(Checks(req));
      && InRankOrder(errors, (m: Message) => m.Rank())
      && (EmailRequired in errors <==> MissingOrBlank(req.email))
      && (InvalidEmail in errors <==> req.email.Some? && !AllWhitespace(req.email.value) && !IsEmail(req.email.value))
      && !(EmailRequired in errors && InvalidEmail in errors)
      && (PasswordRequired in errors <==> req.password.None? || req.password.value == "")
      && (PasswordTooShort in errors <==> req.password.Some? && 0 < Utf16Length(req.password.value) < 8)
      && !(PasswordRequired in errors && PasswordTooShort in errors)
      && (NameTooLong in errors <==> req.name.Some? && Utf16Length(req.name.value) > 200)
      && (InvalidPhone in errors <==> req.phone.Some? && req.phone.value != "" && !IsPhone(req.phone.value))
  {
    var cs := Checks(req);
    assert cs[0].msg == EmailRequired && cs[1].msg == InvalidEmail && cs[2].msg == PasswordRequired;
    assert cs[3].msg == PasswordTooShort && cs[4].msg == NameTooLong && cs[5].msg == InvalidPhone;
    assert forall i, j :: 0 <= i < j < |cs| ==> cs[i].msg.Rank() < cs[j].msg.Rank();
    FailedSpec(cs, (m: Message) => m.Rank());
  }

  /**
   * The phone pattern accepts from two to fifteen digits, so both a
   * ten-digit number without a country code and a three-digit number pass.
   */
  lemma ShortPhonesAccepted(req: RegisterRequest)
    requires req.phone == Some("1234567890") || req.phone == Some("123")
    ensures InvalidPhone !in Failed(Checks(req))
  {
    ValidateMeaning(req);
    var d := PhoneDigits(req.phone.value);
    assert d == req.phone.value;
    assert forall k :: 0 <= k < |d| ==> IsDigit(d[k]);
  }
}

=== FILE: store.dfy ===
/**
 * The relational store behind the repositories: one sequence of rows per
 * table, in insertion order. Each repository module reads and writes its
 * own field; foreign keys are checked against the events and bookings
 * tables when a row is inserted.
 */
module Store {
  import opened EventEntity
  import opened BookingEntity
  import opened WaitingListEntity
  import opened OrderEntity

  class Database {
    var events: seq<EventRecord>
    var bookings: seq<BookingRecord>
    var waitingList: seq<WaitingListRecord>
    var orders: seq<OrderRecord>

    constructor()
      ensures events == [] && bookings == [] && waitingList == [] && orders == []
    {
      events, bookings, waitingList, orders := [], [], [], [];
    }
  }

  /** A foreign key `REFERENCES events(id)` is satisfied. */
  predicate EventExists(events: seq<EventRecord>, id: string)
  {
    exists k :: 0 <= k < |events| && events[k].id == id
  }

  /** A foreign key `REFERENCES bookings(id)` is satisfied. */
  predicate BookingExists(bookings: seq<BookingRecord>, id: string)
  {
    exists k :: 0 <= k < |bookings| && bookings[k].id == id
  }

  /** The error a violated PRIMARY KEY, UNIQUE, CHECK or FOREIGN KEY constraint raises. */
  const ConstraintViolation: string := "violates constraint"
  /** The error the repositories throw when a versioned UPDATE matches no row. */
  const VersionMismatch: string := "ConcurrencyError"
  /** What mapping the missing row of an unversioned UPDATE throws. */
  const MissingRow: string := "Cannot read properties of undefined (reading 'id')"
  /** The error the database raises for a statement it cannot parse. */
  const SyntaxError: string := "syntax error"
}

=== FILE: strings.dfy ===
/**
 * The handful of JavaScript string primitives the core relies on:
 * `String.prototype.trim`, `includes`, `parseInt(s, 10)` and the decimal
 * rendering of an integer inside a template literal.
 */
module Strings {
  import opened Wrappers

  /** The characters `trim` strips and the regular-expression class `\s` matches. */
  predicate IsWhitespace(c: char)
  {
    c == ' ' || c == '\t' || c == '\n' || c == '\r' || c == '\U{000B}' || c == '\U{000C}'
    || c == '\U{00A0}' || c == '\U{1680}' || ('\U{2000}' <= c <= '\U{200A}')
    || c == '\U{2028}' || c == '\U{2029}' || c == '\U{202F}' || c == '\U{205F}'
    || c == '\U{3000}' || c == '\U{FEFF}'
  }

  predicate AllWhitespace(s: string)
  {
    forall k :: 0 <= k < |s| ==> IsWhitespace(s[k])
  }

  /** Drops leading whitespace: what is left is a suffix that starts with a non-blank. */
  function TrimStart(s: string): (r: string)
    ensures |r| <= |s| && r == s[|s| - |r|..]
    ensures AllWhitespace(s[..|s| - |r|])
    ensures r != [] ==> !IsWhitespace(r[0])
  {
    if s != [] && IsWhitespace(s[0]) then
      var r := TrimStart(s[1..]);
      assert s[1..][..|s| - 1 - |r|] == s[1..|s| - |r|];
      r
    else s
  }

  /** Drops trailing whitespace: what is left is a prefix that ends with a non-blank. */
  function TrimEnd(s: string): (r: string)
    ensures |r| <= |s| && r == s[..|r|]
    ensures AllWhitespace(s[|r|..])
    ensures r != [] ==> !IsWhitespace(r[|r| - 1])
  {
    if s != [] && IsWhitespace(s[|s| - 1]) then
      var t := s[..|s| - 1];
      var r := TrimEnd(t);
      assert r == s[..|r|] by {
        assert t[..|r|] == s[..|r|];
      }
      assert AllWhitespace(s[|r|..]) by {
        forall k | 0 <= k < |s| - |r|
          ensures IsWhitespace(s[|r|..][k])
        {
          if |r| + k < |t| {
            assert s[|r|..][k] == t[|r|..][k];
          }
        }
      }
      r
    else s
  }

  /** `r` sits at offset `i` of `s` with only whitespace around it. */
  predicate TrimmedAt(s: string, r: string, i: int)
  {
    0 <= i <= i + |r| <= |s| && r == s[i..i + |r|]
    && AllWhitespace(s[..i]) && AllWhitespace(s[i + |r|..])
  }

  /** `s.trim()` */
  function Trim(s: string): (r: string)
    ensures exists i :: TrimmedAt(s, r, i)
    ensures r != [] ==> !IsWhitespace(r[0]) && !IsWhitespace(r[|r| - 1])
  {
    var t := TrimStart(s);
    var r := TrimEnd(t);
    var i := |s| - |t|;
    assert t == s[i..];
    assert r == s[i..i + |r|] by {
      assert t[..|r|] == s[i..i + |r|];
    }
    assert s[i + |r|..] == t[|r|..];
    assert TrimmedAt(s, r, i);
    r
  }

  /** A string `!value || !value.trim()` rejects: only whitespace, or nothing at all. */
  predicate IsBlank(s: string)
  {
    Trim(s) == []
  }

  lemma BlankIffAllWhitespace(s: string)
    ensures IsBlank(s) <==> AllWhitespace(s)
  {
    var r := Trim(s);
    var i :| TrimmedAt(s, r, i);
    if r == [] {
      forall k | 0 <= k < |s| ensures IsWhitespace(s[k]) {
        if k < i { assert s[..i][k] == s[k]; } else { assert s[i..][k - i] == s[k]; }
      }
    } else {
      assert s[i] == r[0];
    }
  }

  /** A character outside the Basic Multilingual Plane, which UTF-16 stores as a surrogate pair. */
  predicate IsAstral(c: char)
  {
    c as int >= 0x10000
  }

  /**
   * JavaScript's `.length`: the number of UTF-16 code units, one per
   * character of the Basic Multilingual Plane and two per other character.
   */
  function Utf16Length(s: string): (n: nat)
    ensures |s| <= n <= 2 * |s|
    ensures n == 0 <==> s == []
    ensures n == |s| <==> forall i :: 0 <= i < |s| ==> !IsAstral(s[i])
  {
    if s == [] then 0
    else
      var rest := Utf16Length(s[1..]);
      assert forall i :: 1 <= i < |s| ==> s[i] == s[1..][i - 1];
      (if IsAstral(s[0]) then 2 else 1) + rest
  }

  /** `s.includes(p)` */
  predicate Contains(s: string, p: string)
    decreases |s|
  {
    p <= s || (s != [] && Contains(s[1..], p))
  }

  /** `p` occurs in `s` starting at offset `i`. */
  predicate OccursAt(s: string, p: string, i: int)
  {
    0 <= i && i + |p| <= |s| && s[i..i + |p|] == p
  }

  lemma {:induction false} ContainsIff(s: string, p: string)
    ensures Contains(s, p) <==> exists i :: OccursAt(s, p, i)
    decreases |s|
  {
    if p <= s {
      assert OccursAt(s, p, 0);
    } else if s == [] {
    } else {
      ContainsIff(s[1..], p);
      if Contains(s[1..], p) {
        var i :| OccursAt(s[1..], p, i);
        assert s[1..][i..i + |p|] == s[i + 1..i + 1 + |p|];
        assert OccursAt(s, p, i + 1);
      }
      if exists i :: OccursAt(s, p, i) {
        var i :| OccursAt(s, p, i);
        assert i != 0;
        assert s[1..][i - 1..i - 1 + |p|] == s[i..i + |p|];
        assert OccursAt(s[1..], p, i - 1);
      }
    }
  }

  /** An occurrence at a known offset is found. */
  lemma ContainsAt(s: string, p: string, i: int)
    requires OccursAt(s, p, i)
    ensures Contains(s, p)
  {
    ContainsIff(s, p);
  }

  /** A piece placed between two others is contained in the result. */
  lemma ContainsInfix(a: string, p: string, b: string)
    ensures Contains(a + p + b, p)
  {
    assert OccursAt(a + p + b, p, |a|) by {
      assert (a + p + b)[|a|..|a| + |p|] == p;
    }
    ContainsAt(a + p + b, p, |a|);
  }

  // ---- decimal digits ----

  predicate IsDigit(c: char)
  {
    '0' <= c <= '9'
  }

  function DigitChar(d: nat): (c: char)
    requires d < 10
    ensures IsDigit(c) && (c as int) - ('0' as int) == d
  {
    ['0', '1', '2', '3', '4', '5', '6', '7', '8', '9'][d]
  }

  function DigitValue(c: char): (d: nat)
    requires IsDigit(c)
    ensures d < 10 && DigitChar(d) == c
  {
    (c as int) - ('0' as int)
  }

  /** Decimal rendering of a natural number, as `${n}` prints it. */
  function NatToString(n: nat): (r: string)
    ensures r != [] && forall k :: 0 <= k < |r| ==> IsDigit(r[k])
    ensures |r| > 1 ==> r[0] != '0'
  {
    if n < 10 then [DigitChar(n)] else NatToString(n / 10) + [DigitChar(n % 10)]
  }

  /** Decimal rendering of an integer, with a leading '-' when negative. */
  function IntToString(i: int): (r: string)
    ensures r != [] && (i < 0 <==> r[0] == '-')
  {
    if i < 0 then "-" + NatToString(-i) else NatToString(i)
  }

  /** The value of a run of decimal digits, most significant first. */
  function DigitsValue(ds: string): (v: nat)
    requires forall k :: 0 <= k < |ds| ==> IsDigit(ds[k])
  {
    if ds == [] then 0 else DigitsValue(ds[..|ds| - 1]) * 10 + DigitValue(ds[|ds| - 1])
  }

  /** The longest prefix made of decimal digits. */
  function DigitPrefix(s: string): (ds: string)
    ensures ds <= s && forall k :: 0 <= k < |ds| ==> IsDigit(ds[k])
    ensures |ds| < |s| ==> !IsDigit(s[|ds|])
  {
    if s != [] && IsDigit(s[0]) then [s[0]] + DigitPrefix(s[1..]) else []
  }

  /**
   * `parseInt(s, 10)`: leading whitespace is skipped, then an optional sign,
   * then the longest run of digits; `None` stands for `NaN` (no digits).
   */
  function ParseInt(s: string): Option<int>
  {
    var t := TrimStart(s);
    var negative := t != [] && t[0] == '-';
    var body := if t != [] && (t[0] == '-' || t[0] == '+') then t[1..] else t;
    var ds := DigitPrefix(body);
    if ds == [] then None
    else Some(if negative then -(DigitsValue(ds) as int) else DigitsValue(ds))
  }

  lemma {:induction false} DigitsValueOfNatToString(n: nat)
    ensures DigitsValue(NatToString(n)) == n
  {
    if n >= 10 {
      DigitsValueOfNatToString(n / 10);
      var s := NatToString(n);
      assert s[..|s| - 1] == NatToString(n / 10);
    }
  }

  lemma {:induction false} DigitPrefixOfDigits(s: string)
    requires forall k :: 0 <= k < |s| ==> IsDigit(s[k])
    ensures DigitPrefix(s) == s
  {
    if s != [] {
      DigitPrefixOfDigits(s[1..]);
    }
  }

  /** Round trip: `parseInt(String(i), 10) === i` for every integer. */
  lemma ParseIntOfIntToString(i: int)
    ensures ParseInt(IntToString(i)) == Some(i)
  {
    var n: nat := if i < 0 then -i else i;
    var digits := NatToString(n);
    var s := IntToString(i);
    assert !IsWhitespace(s[0]);
    assert TrimStart(s) == s;
    var body := if i < 0 then s[1..] else s;
    assert body == digits;
    DigitPrefixOfDigits(digits);
    DigitsValueOfNatToString(n);
  }
}

=== FILE: ticket_controller.dfy ===
/**
 * `TicketController`: the decisions the four ticket handlers take before
 * and after calling the services. Request bodies arrive as loosely typed
 * JSON values; the authenticated user is an optional id; what a handler
 * sends back is a `Reply`.
 */
module TicketController {
  import opened Wrappers
  import opened Js
  import opened Strings
  import opened CustomErrors
  import opened Store
  import Constants
  import EventEntity
  import BookingEntity
  import WaitingListEntity
  import EventRepository
  import BookingRepository
  import WaitingListRepository
  import LockUtil
  import opened Inventory
  import EventService
  import BookingService
  import WaitingListService

  /**
   * What a handler sends: a 201 or 200 body, a 400 with its list of
   * messages, another error status with one message, or an error thrown on
   * to the shared error handler.
   */
  datatype Reply<T> =
    | Created(body: T)
    | Ok(body: T)
    | ValidationFailed(errors: seq<string>)
    | ErrorStatus(status: int, message: string)
    | Thrown(error: Error)

  /** `!userId`: no authenticated user, or an empty id. */
  predicate Anonymous(userId: Option<string>)
  {
    userId.None? || userId.value == ""
  }

  /** `value && typeof value === 'string'`: a non-empty string. */
  predicate NonEmptyString(v: JsValue)
  {
    v.Str? && v.s != ""
  }

  /** `value && typeof value === 'number' && value > 0` */
  predicate PositiveNumber(v: JsValue)
  {
    v.Num? && v.n > 0.0
  }

  // ---- initializeEvent ----

  datatype InitializedEvent = InitializedEvent(
    eventId: string, name: string, totalTickets: int, availableTickets: int, message: string)

  const InitializedMessage := "Event initialized successfully"
  const MaxTotalTickets: real := 1000000.0

  /** The driver's refusal of a fractional value for an integer column. */
  const NotAnInteger := "invalid input syntax for type integer"

  /**
   * `name && typeof name === 'string' && name.trim().length > 0`, stated
   * through the characters (`Strings.BlankIffAllWhitespace`).
   */
  predicate NameGiven(name: JsValue)
  {
    name.Str? && !AllWhitespace(name.s)
  }

  /** `description?.trim()` */
  function TrimmedOpt(o: Option<string>): (r: Option<string>)
    ensures r.Some? <==> o.Some?
    ensures o.Some? ==> r.value == Trim(o.value)
  {
    if o.None? then None else Some(Trim(o.value))
  }

  /** The row `createEvent` stores for a trimmed name, a description and a ticket count. */
  function InitialRow(eventId: string, name: string, description: Option<string>, totalTickets: int, now: int)
    : (e: EventEntity.EventRecord)
    requires name != ""
    ensures e.id == eventId && e.name == name && e.description == OrNull(description)
    ensures e.totalTickets == totalTickets && e.availableTickets == totalTickets && e.bookedTickets == 0
    ensures e.version == 0 && e.createdAt == now && e.updatedAt == now
  {
    var data := EventService.CreateEventData(Some(name), description, Some(totalTickets));
    EventService.NewEventShape(eventId, data, now);
    EventRepository.Stored(EventEntity.FromData(EventService.NewEventData(eventId, data), now))
  }

  /**
   * The tail of `initializeEvent`: `createEvent` with the already trimmed
   * name and description, answered with the stored event's figures.
   */
  method CreateTrimmed(db: Database, name: string, description: Option<string>, totalTickets: int,
                       eventId: string, now: int)
    returns (r: Reply<InitializedEvent>)
    requires StoreOk(db) && !EventExists(db.events, eventId) && name != "" && totalTickets > 0
    modifies db`events
    ensures StoreOk(db)
    ensures r.Created? <==> |name| <= 200
    ensures r.Created? ==>
      && db.events == old(db.events) + [InitialRow(eventId, name, description, totalTickets, now)]
      && r.body == InitializedEvent(eventId, name, totalTickets, totalTickets, InitializedMessage)
    ensures !r.Created? ==>
      && r == Thrown(NewDatabaseError("Failed to create event", Some(PlainError(ConstraintViolation))))
      && db.events == old(db.events)
    ensures Consistent(old(db.events), db.bookings) ==> Consistent(db.events, db.bookings)
  {
    var data := EventService.CreateEventData(Some(name), description, Some(totalTickets));
    EventService.NewEventShape(eventId, data, now);
    var created := EventService.CreateEvent(db, data, eventId, now);
    if created.Failure? {
      return Thrown(created.error);
    }
    var event := created.value;
    r := Created(InitializedEvent(event.id, event.name, event.totalTickets, event.availableTickets, InitializedMessage));
  }

  /**
   * `initializeEvent`: rejects a blank or non-string name, a missing,
   * non-numeric or non-positive ticket count, and more than 1,000,000
   * tickets, each with its own 400 and without touching the store; a valid
   * request creates the event under its trimmed name with every ticket
   * available. A fractional count passes these checks and is refused by
   * the integer column, surfacing as the service's DatabaseError; so is a
   * trimmed name longer than 200 characters.
   */
  method InitializeEvent(db: Database, name: JsValue, description: Option<string>, totalTickets: JsValue,
                         eventId: string, now: int)
    returns (r: Reply<InitializedEvent>)
    requires StoreOk(db) && !EventExists(db.events, eventId)
    modifies db`events
    ensures StoreOk(db)
    ensures !NameGiven(name) ==> r == ValidationFailed(["Event name is required"])
    ensures NameGiven(name) && !PositiveNumber(totalTickets) ==>
      r == ValidationFailed(["Total tickets must be a positive number"])
    ensures NameGiven(name) && PositiveNumber(totalTickets) && totalTickets.n > MaxTotalTickets ==>
      r == ValidationFailed(["Total tickets cannot exceed 1,000,000"])
    ensures !r.Created? ==> db.events == old(db.events)
    ensures NameGiven(name) && PositiveNumber(totalTickets) && totalTickets.n <= MaxTotalTickets ==>
      && (r.Created? <==> IsInteger(totalTickets) && |Trim(name.s)| <= 200)
      && (!IsInteger(totalTickets) ==> r == Thrown(NewDatabaseError("Failed to create event", Some(PlainError(NotAnInteger)))))
      && (IsInteger(totalTickets) && |Trim(name.s)| > 200 ==>
            r == Thrown(NewDatabaseError("Failed to create event", Some(PlainError(ConstraintViolation)))))
    ensures r.Created? ==>
      && Trim(name.s) != "" && totalTickets.n.Floor as real == totalTickets.n
      && db.events == old(db.events) + [InitialRow(eventId, Trim(name.s), TrimmedOpt(description), totalTickets.n.Floor, now)]
      && r.body == InitializedEvent(eventId, Trim(name.s), totalTickets.n.Floor, totalTickets.n.Floor, InitializedMessage)
    ensures Consistent(old(db.events), db.bookings) ==> Consistent(db.events, db.bookings)
  {
    if !NameGiven(name) {
      return ValidationFailed(["Event name is required"]);
    }
    if !PositiveNumber(totalTickets) {
      return ValidationFailed(["Total tickets must be a positive number"]);
    }
    if totalTickets.n > MaxTotalTickets {
      return ValidationFailed(["Total tickets cannot exceed 1,000,000"]);
    }
    if !IsInteger(totalTickets) {
      return Thrown(NewDatabaseError("Failed to create event", Some(PlainError(NotAnInteger))));
    }
    BlankIffAllWhitespace(name.s);
    var n := totalTickets.n.Floor;
    r := CreateTrimmed(db, Trim(name.s), TrimmedOpt(description), n, eventId, now);
  }

  // ---- bookTicket ----

  /** The 201 body of `bookTicket`: the booking made, or the waiting-list entry that replaced it. */
  datatype BookingReply =
    | TicketsBooked(bookingId: string, eventId: string, userId: string, numberOfTickets: int,
             bookingStatus: Constants.BookingStatus, message: string)
    | Waitlisted(waitingListId: string, eventId: string, userId: string, numberOfTickets: int,
                 entryStatus: Constants.WaitingListStatus, position: int, message: string)

  const BookedMessage := "Tickets booked successfully"
  const WaitlistedMessage := "Event is sold out. You have been added to the waiting list."

  /** `error instanceof ConflictError && error.message.includes('available')` */
  predicate SoldOut(e: Error)
  {
    e.ConflictError? && Contains(e.message, "available")
  }

  /** The body fields of a well-formed booking request. */
  predicate BookingRequestOk(eventId: JsValue, numberOfTickets: JsValue)
  {
    NonEmptyString(eventId) && PositiveNumber(numberOfTickets) && IsInteger(numberOfTickets)
  }

  /**
   * The fallback of `bookTicket` once `createBooking` has failed: a
   * sold-out conflict queues the user, answering with the entry's status
   * and its priority as the position; when queueing fails too, or the
   * failure was of another kind, the booking's own error is thrown on.
   */
  method FallBackToWaitingList(db: Database, failure: Error, eventId: string, userId: string, numberOfTickets: int,
                               entryId: string, now: int)
    returns (r: Reply<BookingReply>)
    requires StoreOk(db) && WaitingListRepository.IndexOf(db.waitingList, entryId) < 0
    modifies db`waitingList
    ensures StoreOk(db)
    ensures !SoldOut(failure) ==> r == Thrown(failure) && db.waitingList == old(db.waitingList)
    ensures SoldOut(failure) ==>
      var admitted := EventExists(db.events, eventId) && !WaitingListService.Queued(old(db.waitingList), eventId, userId)
        && numberOfTickets > 0 && |userId| <= 255;
      && (!admitted ==> r == Thrown(failure) && db.waitingList == old(db.waitingList))
      && (admitted ==>
            var w := WaitingListService.NewEntry(entryId, eventId, userId, numberOfTickets,
                                                 WaitingListRepository.GetNextPriority(old(db.waitingList), eventId), now);
            && db.waitingList == old(db.waitingList) + [w]
            && r == Created(Waitlisted(entryId, eventId, userId, numberOfTickets,
                                       Constants.WaitingListStatus.Pending, w.priority, WaitlistedMessage)))
    ensures WaitingListService.OnePendingPerUser(old(db.waitingList)) ==> WaitingListService.OnePendingPerUser(db.waitingList)
  {
    if !SoldOut(failure) {
      return Thrown(failure);
    }
    var added := WaitingListService.AddToWaitingList(db, eventId, userId, numberOfTickets, entryId, now);
    if added.Failure? {
      return Thrown(failure);
    }
    var entry := added.value;
    r := Created(Waitlisted(entry.id, entry.eventId, entry.userId, entry.numberOfTickets, entry.status, entry.priority,
                            WaitlistedMessage));
  }

  /**
   * The answer to a well-formed booking request and the tables it leaves: a
   * missing event is thrown on; a request that fits the remaining capacity
   * is booked; one that does not fit queues the user, unless the user is
   * already queued, in which case the capacity conflict is thrown on. A
   * user id longer than its 255-character column can be neither booked nor
   * queued.
   */
  predicate BookAnswers(events: seq<EventEntity.EventRecord>, bookings: seq<BookingEntity.BookingRecord>,
                        waitingList: seq<WaitingListEntity.WaitingListRecord>,
                        events': seq<EventEntity.EventRecord>, bookings': seq<BookingEntity.BookingRecord>,
                        waitingList': seq<WaitingListEntity.WaitingListRecord>,
                        e: string, u: string, n: int, bookingId: string, entryId: string, now: int, r: Reply<BookingReply>)
  {
    && (!EventExists(events, e) ==> r == Thrown(NewNotFoundError("Event", e)))
    && (EventExists(events, e) ==>
          var available := events[EventRepository.IndexOf(events, e)].totalTickets - Booked(bookings, e);
          && (n <= available && |u| > 255 ==>
                r == Thrown(NewDatabaseError("Failed to create booking", Some(PlainError(ConstraintViolation)))))
          && (n <= available && |u| <= 255 ==>
                && r == Created(TicketsBooked(bookingId, e, u, n, Constants.BookingStatus.Confirmed, BookedMessage))
                && bookings' == bookings + [BookingService.NewBooking(bookingId, e, u, n, now)]
                && waitingList' == waitingList)
          && (n > available && (WaitingListService.Queued(waitingList, e, u) || |u| > 255) ==>
                r == Thrown(NewConflictError(BookingService.NotEnoughMessage(available, n))))
          && (n > available && !WaitingListService.Queued(waitingList, e, u) && |u| <= 255 ==>
                var w := WaitingListService.NewEntry(entryId, e, u, n, WaitingListRepository.GetNextPriority(waitingList, e), now);
                && r == Created(Waitlisted(entryId, e, u, n, Constants.WaitingListStatus.Pending, w.priority, WaitlistedMessage))
                && waitingList' == waitingList + [w]
                && bookings' == bookings && events' == events))
  }

  /**
   * A refusal of `createBooking` followed by the waiting-list fallback
   * answers the booking request as `BookAnswers` says: only the capacity
   * conflict mentions "available", so only it can queue the user, and
   * every other refusal is thrown on with the tables untouched.
   */
  lemma FallBackAnswers(events: seq<EventEntity.EventRecord>, bookings: seq<BookingEntity.BookingRecord>,
                        waitingList: seq<WaitingListEntity.WaitingListRecord>,
                        waitingList': seq<WaitingListEntity.WaitingListRecord>,
                        e: string, u: string, n: int, bookingId: string, entryId: string, now: int,
                        failure: Error, r: Reply<BookingReply>)
    requires n > 0
    requires BookingService.CreateAnswers(events, bookings, events, bookings, e, u, n, bookingId, now,
                                          NewDatabaseError("Failed to create booking", Some(PlainError(ConstraintViolation))), Failure(failure))
    requires !SoldOut(failure) ==> r == Thrown(failure) && waitingList' == waitingList
    requires SoldOut(failure) ==>
      var admitted := EventExists(events, e) && !WaitingListService.Queued(waitingList, e, u) && |u| <= 255;
      && (!admitted ==> r == Thrown(failure) && waitingList' == waitingList)
      && (admitted ==>
            var w := WaitingListService.NewEntry(entryId, e, u, n, WaitingListRepository.GetNextPriority(waitingList, e), now);
            && waitingList' == waitingList + [w]
            && r == Created(Waitlisted(entryId, e, u, n, Constants.WaitingListStatus.Pending, w.priority, WaitlistedMessage)))
    ensures r.Thrown? ==> waitingList' == waitingList
    ensures BookAnswers(events, bookings, waitingList, events, bookings, waitingList', e, u, n, bookingId, entryId, now, r)
  {
    if !EventExists(events, e) {
      assert failure.NotFoundError?;
      MissingEventAnswers(events, bookings, waitingList, waitingList', e, u, n, bookingId, entryId, now, r);
      return;
    }
    var available := events[EventRepository.IndexOf(events, e)].totalTickets - Booked(bookings, e);
    if n <= available {
      assert failure.DatabaseError?;
      RefusedRowAnswers(events, bookings, waitingList, waitingList', e, u, n, bookingId, entryId, now, r);
      return;
    }
    BookingService.NotEnoughMentionsAvailable(available, n);
    assert SoldOut(failure);
    CapacityAnswers(events, bookings, waitingList, waitingList', e, u, n, bookingId, entryId, now, r);
  }

  /** `BookAnswers` when the event does not exist. */
  lemma MissingEventAnswers(events: seq<EventEntity.EventRecord>, bookings: seq<BookingEntity.BookingRecord>,
                            waitingList: seq<WaitingListEntity.WaitingListRecord>,
                            waitingList': seq<WaitingListEntity.WaitingListRecord>,
                            e: string, u: string, n: int, bookingId: string, entryId: string, now: int,
                            r: Reply<BookingReply>)
    requires !EventExists(events, e) && r == Thrown(NewNotFoundError("Event", e)) && waitingList' == waitingList
    ensures BookAnswers(events, bookings, waitingList, events, bookings, waitingList', e, u, n, bookingId, entryId, now, r)
  {
  }

  /** `BookAnswers` when the request fits but its user id is too long for the bookings row. */
  lemma RefusedRowAnswers(events: seq<EventEntity.EventRecord>, bookings: seq<BookingEntity.BookingRecord>,
                          waitingList: seq<WaitingListEntity.WaitingListRecord>,
                          waitingList': seq<WaitingListEntity.WaitingListRecord>,
                          e: string, u: string, n: int, bookingId: string, entryId: string, now: int,
                          r: Reply<BookingReply>)
    requires EventExists(events, e)
    requires n <= events[EventRepository.IndexOf(events, e)].totalTickets - Booked(bookings, e) && |u| > 255
    requires r == Thrown(NewDatabaseError("Failed to create booking", Some(PlainError(ConstraintViolation))))
    requires waitingList' == waitingList
    ensures BookAnswers(events, bookings, waitingList, events, bookings, waitingList', e, u, n, bookingId, entryId, now, r)
  {
  }

  /** `BookAnswers` when the request exceeds the remaining capacity and the fallback has run. */
  lemma CapacityAnswers(events: seq<EventEntity.EventRecord>, bookings: seq<BookingEntity.BookingRecord>,
                        waitingList: seq<WaitingListEntity.WaitingListRecord>,
                        waitingList': seq<WaitingListEntity.WaitingListRecord>,
                        e: string, u: string, n: int, bookingId: string, entryId: string, now: int,
                        r: Reply<BookingReply>)
    requires EventExists(events, e)
    requires n > events[EventRepository.IndexOf(events, e)].totalTickets - Booked(bookings, e)
    requires var admitted := !WaitingListService.Queued(waitingList, e, u) && |u| <= 255;
      && (!admitted ==> r == Thrown(NewConflictError(BookingService.NotEnoughMessage(
                                      events[EventRepository.IndexOf(events, e)].totalTickets - Booked(bookings, e), n)))
                        && waitingList' == waitingList)
      && (admitted ==>
            var w := WaitingListService.NewEntry(entryId, e, u, n, WaitingListRepository.GetNextPriority(waitingList, e), now);
            && waitingList' == waitingList + [w]
            && r == Created(Waitlisted(entryId, e, u, n, Constants.WaitingListStatus.Pending, w.priority, WaitlistedMessage)))
    ensures BookAnswers(events, bookings, waitingList, events, bookings, waitingList', e, u, n, bookingId, entryId, now, r)
  {
  }

  /**
   * The `catch` of `bookTicket` after `createBooking` refused the request:
   * the capacity conflict queues the user, and every other refusal is
   * thrown on.
   */
  method AfterRefusal(db: Database, failure: Error, e: string, u: string, n: int, bookingId: string, entryId: string, now: int)
    returns (r: Reply<BookingReply>)
    requires StoreOk(db) && n > 0 && WaitingListRepository.IndexOf(db.waitingList, entryId) < 0
    requires BookingService.CreateAnswers(db.events, db.bookings, db.events, db.bookings, e, u, n, bookingId, now,
                                          NewDatabaseError("Failed to create booking", Some(PlainError(ConstraintViolation))), Failure(failure))
    modifies db`waitingList
    ensures StoreOk(db)
    ensures r.Thrown? ==> db.waitingList == old(db.waitingList)
    ensures BookAnswers(db.events, db.bookings, old(db.waitingList), db.events, db.bookings, db.waitingList,
                        e, u, n, bookingId, entryId, now, r)
    ensures WaitingListService.OnePendingPerUser(old(db.waitingList)) ==> WaitingListService.OnePendingPerUser(db.waitingList)
  {
    ghost var waitingList := db.waitingList;
    r := FallBackToWaitingList(db, failure, e, u, n, entryId, now);
    FallBackAnswers(db.events, db.bookings, waitingList, db.waitingList, e, u, n, bookingId, entryId, now, failure, r);
  }

  /** A booking `createBooking` made answers the request as `BookAnswers` says. */
  lemma BookedAnswers(events: seq<EventEntity.EventRecord>, bookings: seq<BookingEntity.BookingRecord>,
                      waitingList: seq<WaitingListEntity.WaitingListRecord>,
                      events': seq<EventEntity.EventRecord>, bookings': seq<BookingEntity.BookingRecord>,
                      e: string, u: string, n: int, bookingId: string, entryId: string, now: int,
                      booking: Outcome<BookingEntity.BookingRecord>, r: Reply<BookingReply>)
    requires BookingService.CreateAnswers(events, bookings, events', bookings', e, u, n, bookingId, now,
                                          NewDatabaseError("Failed to create booking", Some(PlainError(ConstraintViolation))), booking)
    requires booking.Success?
    requires r == Created(TicketsBooked(booking.value.id, booking.value.eventId, booking.value.userId,
                                        booking.value.numberOfTickets, booking.value.status, BookedMessage))
    ensures BookAnswers(events, bookings, waitingList, events', bookings', waitingList, e, u, n, bookingId, entryId, now, r)
  {
  }

  /**
   * What `bookTicket` does with a well-formed request: a missing event is
   * thrown on; a request that fits the remaining capacity is booked; one
   * that does not fit queues the user, unless the user is already queued,
   * in which case the capacity conflict is thrown on. A user id too long
   * for its column is refused by both inserts.
   */
  method BookOrQueue(db: Database, e: string, u: string, n: int, bookingId: string, entryId: string, now: int)
    returns (r: Reply<BookingReply>)
    requires StoreOk(db) && n > 0
    requires BookingRepository.IndexOf(db.bookings, bookingId) < 0
    requires WaitingListRepository.IndexOf(db.waitingList, entryId) < 0
    modifies db`bookings, db`events, db`waitingList
    ensures StoreOk(db)
    ensures r.Thrown? ==>
      db.bookings == old(db.bookings) && db.events == old(db.events) && db.waitingList == old(db.waitingList)
    ensures BookAnswers(old(db.events), old(db.bookings), old(db.waitingList), db.events, db.bookings, db.waitingList,
                        e, u, n, bookingId, entryId, now, r)
    ensures Consistent(old(db.events), old(db.bookings)) ==> Consistent(db.events, db.bookings)
    ensures WaitingListService.OnePendingPerUser(old(db.waitingList)) ==> WaitingListService.OnePendingPerUser(db.waitingList)
  {
    ghost var events, bookings, waitingList := db.events, db.bookings, db.waitingList;
    var booking := BookingService.CreateBooking(db, e, u, n, bookingId, now);
    if booking.Success? {
      var b := booking.value;
      r := Created(TicketsBooked(b.id, b.eventId, b.userId, b.numberOfTickets, b.status, BookedMessage));
      BookedAnswers(events, bookings, waitingList, db.events, db.bookings, e, u, n, bookingId, entryId, now, booking, r);
      return;
    }
    assert db.events == events && db.bookings == bookings;
    r := AfterRefusal(db, booking.error, e, u, n, bookingId, entryId, now);
  }

  /**
   * `bookTicket`: a missing user is a 401, a missing or non-string event id
   * and a missing, non-numeric, non-positive or fractional ticket count are
   * 400s, none of which touches the store; there is no upper bound here.
   * A request that fits the event's remaining capacity is booked. One that
   * does not fit queues the user on the event's waiting list instead,
   * unless the user is already queued, in which case the capacity conflict
   * is thrown on.
   */
  method BookTicket(db: Database, userId: Option<string>, eventId: JsValue, numberOfTickets: JsValue,
                    bookingId: string, entryId: string, now: int)
    returns (r: Reply<BookingReply>)
    requires StoreOk(db)
    requires BookingRepository.IndexOf(db.bookings, bookingId) < 0
    requires WaitingListRepository.IndexOf(db.waitingList, entryId) < 0
    modifies db`bookings, db`events, db`waitingList
    ensures StoreOk(db)
    ensures Anonymous(userId) ==> r == ErrorStatus(401, "Authentication required")
    ensures !Anonymous(userId) && !NonEmptyString(eventId) ==> r == ValidationFailed(["Event ID is required"])
    ensures !Anonymous(userId) && NonEmptyString(eventId) && !PositiveNumber(numberOfTickets) ==>
      r == ValidationFailed(["Number of tickets must be a positive number"])
    ensures !Anonymous(userId) && NonEmptyString(eventId) && PositiveNumber(numberOfTickets) && !IsInteger(numberOfTickets) ==>
      r == ValidationFailed(["Number of tickets must be an integer"])
    ensures r.ErrorStatus? || r.ValidationFailed? || r.Thrown? ==>
      db.bookings == old(db.bookings) && db.events == old(db.events) && db.waitingList == old(db.waitingList)
    ensures !Anonymous(userId) && BookingRequestOk(eventId, numberOfTickets) ==>
      BookAnswers(old(db.events), old(db.bookings), old(db.waitingList), db.events, db.bookings, db.waitingList,
                  eventId.s, userId.value, numberOfTickets.n.Floor, bookingId, entryId, now, r)
    ensures Consistent(old(db.events), old(db.bookings)) ==> Consistent(db.events, db.bookings)
    ensures WaitingListService.OnePendingPerUser(old(db.waitingList)) ==> WaitingListService.OnePendingPerUser(db.waitingList)
  {
    if Anonymous(userId) {
      return ErrorStatus(401, "Authentication required");
    }
    if !NonEmptyString(eventId) {
      return ValidationFailed(["Event ID is required"]);
    }
    if !PositiveNumber(numberOfTickets) {
      return ValidationFailed(["Number of tickets must be a positive number"]);
    }
    if !IsInteger(numberOfTickets) {
      return ValidationFailed(["Number of tickets must be an integer"]);
    }
    r := BookOrQueue(db, eventId.s, userId.value, numberOfTickets.n.Floor, bookingId, entryId, now);
  }

  // ---- cancelBooking ----

  datatype CancelReply = CancelReply(
    bookingId: string, eventId: string, userId: string, status: Constants.BookingStatus, message: string)

  const CancelledMessage :=
    "Booking cancelled successfully. Waiting list users will be notified automatically if tickets become available."

  /** A held cancel of an existing, live booking succeeds and rewrites exactly that booking and its event. */
  lemma CancelledAnswers(events: seq<EventEntity.EventRecord>, bookings: seq<BookingEntity.BookingRecord>,
                         events': seq<EventEntity.EventRecord>, bookings': seq<BookingEntity.BookingRecord>,
                         id: string, at: int, outcome: Outcome<BookingEntity.BookingRecord>)
    requires BookingService.CancelAnswers(events, bookings, events', bookings', id, at, outcome)
    requires BookingRepository.FindById(bookings, id).Some?
    ensures var found := BookingRepository.FindById(bookings, id).value;
      var k := BookingRepository.IndexOf(bookings, id);
      var j := EventRepository.IndexOf(events, found.eventId);
      && (found.status == Constants.BookingStatus.Cancelled ==> outcome == Failure(NewConflictError("Booking is already cancelled")))
      && (found.status != Constants.BookingStatus.Cancelled ==>
            && outcome == Success(BookingRepository.Written(found, BookingService.CancelledAt(found, at)))
            && bookings' == bookings[k := outcome.value]
            && 0 <= j < |events| && events' == events[j := Rewritten(events[j], bookings', at)])
  {
  }

  /**
   * `cancelBooking`: a missing user is a 401 and a missing or non-string
   * booking id a 400; an unknown booking is a 404 and another user's
   * booking a 403. In all four cases the cancelling service is not called,
   * so neither the tables nor the locks change. The owner's request is
   * handed to the service, whose lock timeout or conflict is thrown on and
   * whose cancelled booking is answered with a 200.
   */
  method CancelBooking(db: Database, locks: LockUtil.LockTable, userId: Option<string>, bookingId: JsValue,
                       holder: string, now: int)
    returns (r: Reply<CancelReply>, ghost at: int)
    requires StoreOk(db) && holder != ""
    modifies db`bookings, db`events, locks
    ensures StoreOk(db)
    ensures Anonymous(userId) ==> r == ErrorStatus(401, "Authentication required")
    ensures !Anonymous(userId) && !NonEmptyString(bookingId) ==> r == ValidationFailed(["Booking ID is required"])
    ensures !Anonymous(userId) && NonEmptyString(bookingId) ==>
      var found := BookingRepository.FindById(old(db.bookings), bookingId.s);
      && (found.None? ==> r == ErrorStatus(404, "Booking not found"))
      && (found.Some? && found.value.userId != userId.value ==>
            r == ErrorStatus(403, "You can only cancel your own bookings"))
      && (found.Some? && found.value.userId == userId.value ==>
            var key := BookingService.CancelLockKey(bookingId.s);
            var acquired := LockUtil.Free(old(locks.locks), key, now + LockUtil.LastAttempt(5000, 100));
            && (!acquired ==> r == Thrown(LockUtil.LockTimeout(key)))
            && (acquired && found.value.status == Constants.BookingStatus.Cancelled ==>
                  r == Thrown(NewConflictError("Booking is already cancelled")))
            && (acquired && found.value.status != Constants.BookingStatus.Cancelled ==>
                  && r.Ok? && r.body.bookingId == bookingId.s && r.body.userId == userId.value
                  && r.body.eventId == found.value.eventId
                  && r.body.status == Constants.BookingStatus.Cancelled && r.body.message == CancelledMessage)
            && (acquired ==> now <= at < now + 5000 && locks.locks == old(locks.locks) - {key})
            && (acquired && found.value.status != Constants.BookingStatus.Cancelled ==>
                  var k := BookingRepository.IndexOf(old(db.bookings), bookingId.s);
                  var j := EventRepository.IndexOf(old(db.events), found.value.eventId);
                  && db.bookings == old(db.bookings)[k := BookingRepository.Written(found.value, BookingService.CancelledAt(found.value, at))]
                  && db.events == old(db.events)[j := Rewritten(old(db.events)[j], db.bookings, at)]))
    ensures r.ErrorStatus? || r.ValidationFailed? ==> locks.locks == old(locks.locks)
    ensures !r.Ok? ==> db.bookings == old(db.bookings) && db.events == old(db.events)
    ensures Consistent(old(db.events), old(db.bookings)) ==> Consistent(db.events, db.bookings)
  {
    if Anonymous(userId) {
      return ErrorStatus(401, "Authentication required"), now;
    }
    if !NonEmptyString(bookingId) {
      return ValidationFailed(["Booking ID is required"]), now;
    }
    var booking := BookingRepository.FindById(db.bookings, bookingId.s);
    if booking.None? {
      return ErrorStatus(404, "Booking not found"), now;
    }
    if booking.value.userId != userId.value {
      return ErrorStatus(403, "You can only cancel your own bookings"), now;
    }
    ghost var events, bookings := db.events, db.bookings;
    var cancelled, when := BookingService.CancelBooking(db, locks, bookingId.s, holder, now);
    at := when;
    if LockUtil.Free(old(locks.locks), BookingService.CancelLockKey(bookingId.s), now + LockUtil.LastAttempt(5000, 100)) {
      CancelledAnswers(events, bookings, db.events, db.bookings, bookingId.s, at, cancelled);
    }
    if cancelled.Failure? {
      return Thrown(cancelled.error), at;
    }
    var c := cancelled.value;
    r := Ok(CancelReply(c.id, c.eventId, c.userId, c.status, CancelledMessage));
  }

  // ---- getEventStatus ----

  /** One listed waiting-list entry; `position` is the entry's priority. */
  datatype PendingEntry = PendingEntry(id: string, userId: string, numberOfTickets: int, position: int, createdAt: int)

  datatype EventStatus = EventStatus(
    eventId: string, eventName: string, totalTickets: int, bookedTickets: int, availableTickets: int,
    isSoldOut: bool, waitingListCount: nat, waitingListEntries: seq<PendingEntry>)

  /** How an entry is listed. */
  function Summary(w: WaitingListEntity.WaitingListRecord): PendingEntry
  {
    PendingEntry(w.id, w.userId, w.numberOfTickets, w.priority, w.createdAt)
  }

  /** `entries.filter(entry => entry.status === PENDING)` */
  function PendingOnly(entries: seq<WaitingListEntity.WaitingListRecord>): (r: seq<WaitingListEntity.WaitingListRecord>)
    ensures forall x :: x in r <==> x in entries && WaitingListService.IsPending(x)
    ensures |r| <= |entries|
    ensures WaitingListRepository.Ordered(entries) ==> WaitingListRepository.Ordered(r)
  {
    if entries == [] then []
    else
      var n := |entries| - 1;
      var rest := PendingOnly(entries[..n]);
      assert entries == entries[..n] + [entries[n]];
      if WaitingListService.IsPending(entries[n]) then
        KeepsQueueOrder(entries, rest);
        rest + [entries[n]]
      else rest
  }

  /**
   * Appending the last of a queue-ordered list to a queue-ordered selection
   * of the entries before it keeps the selection in queue order.
   */
  lemma KeepsQueueOrder(entries: seq<WaitingListEntity.WaitingListRecord>, rest: seq<WaitingListEntity.WaitingListRecord>)
    requires entries != []
    requires forall x :: x in rest ==> x in entries[..|entries| - 1]
    requires WaitingListRepository.Ordered(entries) ==> WaitingListRepository.Ordered(rest)
    ensures WaitingListRepository.Ordered(entries) ==> WaitingListRepository.Ordered(rest + [entries[|entries| - 1]])
  {
    var n := |entries| - 1;
    if WaitingListRepository.Ordered(entries) {
      var s := rest + [entries[n]];
      forall i, j | 0 <= i < j < |s|
        ensures !WaitingListRepository.Before(s[j], s[i])
      {
        if j == |rest| {
          assert s[i] == rest[i] && rest[i] in rest;
          var k :| 0 <= k < n && entries[k] == s[i];
        }
      }
    }
  }

  /** Filtering keeps every pending entry as often as it occurs, and nothing else. */
  lemma {:induction false} PendingOnlyCounts(entries: seq<WaitingListEntity.WaitingListRecord>, x: WaitingListEntity.WaitingListRecord)
    ensures multiset(PendingOnly(entries))[x] == if WaitingListService.IsPending(x) then multiset(entries)[x] else 0
  {
    if entries != [] {
      var n := |entries| - 1;
      PendingOnlyCounts(entries[..n], x);
      assert entries == entries[..n] + [entries[n]];
    }
  }

  /** The pending entries of the event's entries are the event's pending entries, in table order. */
  lemma {:induction false} PendingOfEvent(rows: seq<WaitingListEntity.WaitingListRecord>, eventId: string)
    ensures PendingOnly(WaitingListRepository.OfEvent(rows, eventId, None))
         == WaitingListRepository.OfEvent(rows, eventId, Some(Constants.WaitingListStatus.Pending))
  {
    if rows != [] {
      PendingOfEvent(rows[..|rows| - 1], eventId);
    }
  }

  /**
   * However `findByEventId` orders the event's entries, the pending ones
   * among them are, as a multiset, exactly the event's pending rows.
   */
  lemma PendingCount(rows: seq<WaitingListEntity.WaitingListRecord>, eventId: string)
    ensures multiset(PendingOnly(WaitingListRepository.FindByEventId(rows, eventId, None)))
         == multiset(WaitingListRepository.OfEvent(rows, eventId, Some(Constants.WaitingListStatus.Pending)))
    ensures |PendingOnly(WaitingListRepository.FindByEventId(rows, eventId, None))|
         == |WaitingListRepository.OfEvent(rows, eventId, Some(Constants.WaitingListStatus.Pending))|
  {
    var listed := WaitingListRepository.FindByEventId(rows, eventId, None);
    var stored := WaitingListRepository.OfEvent(rows, eventId, None);
    PendingOfEvent(rows, eventId);
    forall x
      ensures multiset(PendingOnly(listed))[x] == multiset(PendingOnly(stored))[x]
    {
      PendingOnlyCounts(listed, x);
      PendingOnlyCounts(stored, x);
    }
    assert multiset(PendingOnly(listed)) == multiset(PendingOnly(stored));
    assert |multiset(PendingOnly(listed))| == |multiset(PendingOnly(stored))|;
  }

  /**
   * Listed entries in queue order: a higher position first, and among equal
   * positions the earlier-created first.
   */
  predicate InQueueOrder(s: seq<PendingEntry>)
  {
    forall i, j :: 0 <= i < j < |s| ==>
      s[i].position > s[j].position || (s[i].position == s[j].position && s[i].createdAt <= s[j].createdAt)
  }

  /** `.map(entry => ({ id, userId, numberOfTickets, position: priority, createdAt }))` */
  function Listed(entries: seq<WaitingListEntity.WaitingListRecord>): (r: seq<PendingEntry>)
    ensures |r| == |entries|
    ensures forall k :: 0 <= k < |entries| ==>
      r[k] == Summary(entries[k])
    ensures WaitingListRepository.Ordered(entries) ==> InQueueOrder(r)
  {
    if entries == [] then []
    else
      [Summary(entries[0])] + Listed(entries[1..])
  }

  /**
   * `getEventStatus`: an empty event id is a 400; an unknown event is the
   * service's NotFoundError; otherwise the live ticket figures, with
   * `waitingListCount` the number of the event's pending entries and the
   * listed entries exactly those, in queue order, each with its priority as
   * its position.
   */
  function GetEventStatus(events: seq<EventEntity.EventRecord>, bookings: seq<BookingEntity.BookingRecord>,
                          waitingList: seq<WaitingListEntity.WaitingListRecord>, eventId: string)
    : (r: Reply<EventStatus>)
    ensures eventId == "" ==> r == ValidationFailed(["Event ID is required"])
    ensures eventId != "" && !EventExists(events, eventId) ==> r == Thrown(NewNotFoundError("Event", eventId))
    ensures eventId != "" && EventExists(events, eventId) ==> r.Ok?
    ensures r.Ok? ==>
      var pending := WaitingListRepository.OfEvent(waitingList, eventId, Some(Constants.WaitingListStatus.Pending));
      var e := events[EventRepository.IndexOf(events, eventId)];
      && r.body.eventId == eventId && r.body.eventName == e.name && r.body.totalTickets == e.totalTickets
      && r.body.bookedTickets == Booked(bookings, eventId)
      && r.body.availableTickets >= 0 && r.body.availableTickets + r.body.bookedTickets >= r.body.totalTickets
      && (r.body.availableTickets == 0 || r.body.availableTickets + r.body.bookedTickets == r.body.totalTickets)
      && (r.body.isSoldOut <==> r.body.bookedTickets >= r.body.totalTickets)
      && r.body.waitingListCount == |pending| == |r.body.waitingListEntries|
      && InQueueOrder(r.body.waitingListEntries)
      && (forall p :: p in r.body.waitingListEntries <==>
            exists w :: w in waitingList && w.eventId == eventId && WaitingListService.IsPending(w) && p == Summary(w))
  {
    if eventId == "" then ValidationFailed(["Event ID is required"])
    else
      var ticketsInfo := EventService.GetAvailableTickets(events, bookings, eventId);
      if ticketsInfo.Failure? then Thrown(ticketsInfo.error)
      else
        var info := ticketsInfo.value;
        var waitingListEntries := WaitingListRepository.FindByEventId(waitingList, eventId, None);
        var pending := PendingOnly(waitingListEntries);
        PendingCount(waitingList, eventId);
        assert forall p :: p in Listed(pending) <==>
          exists w :: w in waitingList && w.eventId == eventId && WaitingListService.IsPending(w) && p == Summary(w) by {
          forall p | p in Listed(pending)
            ensures exists w :: w in waitingList && w.eventId == eventId && WaitingListService.IsPending(w) && p == Summary(w)
          {
            var k :| 0 <= k < |pending| && Listed(pending)[k] == p;
            assert pending[k] in pending;
          }
          forall w | w in waitingList && w.eventId == eventId && WaitingListService.IsPending(w)
            ensures Summary(w) in Listed(pending)
          {
            assert w in pending;
            var k :| 0 <= k < |pending| && pending[k] == w;
            assert Listed(pending)[k] == Summary(w);
          }
        }
        Ok(EventStatus(info.eventId, info.eventName, info.totalTickets, info.bookedTickets, info.availableTickets,
                       info.isSoldOut, |pending|, Listed(pending)))
  }
}

=== FILE: transaction_util.dfy ===
/**
 * `TransactionUtil`: the BEGIN/COMMIT/ROLLBACK bracket around a callback,
 * and bounded retry of an operation whose failures may be transient.
 */
module TransactionUtil {
  import opened Wrappers
  import opened Strings
  import opened CustomErrors

  /**
   * A failure is worth retrying when it is an `Error` whose message mentions
   * a deadlock, a timeout or a lost connection.
   */
  predicate IsRetryable(e: Error)
  {
    e.IsErrorInstance()
    && (Contains(e.message, "deadlock") || Contains(e.message, "timeout") || Contains(e.message, "connection"))
  }

  /** The wait before attempt `attempt + 1`: linear in the attempt number. */
  function Backoff(delayMs: int, attempt: int): int
  {
    delayMs * attempt
  }

  /**
   * `withRetry(operation, maxRetries, delayMs)`. `operation(k)` is what the
   * k-th call returns. The first success is returned; a failure that is not
   * retryable, or the failure of call number maxRetries, is rethrown; every
   * earlier call failed retryably. The waits between calls are recorded in
   * `delays`. With maxRetries below 1 the operation is never called and the
   * still undefined last error is thrown.
   */
  method WithRetry<T>(operation: nat -> Outcome<T>, maxRetries: int, delayMs: int)
    returns (r: Outcome<T>, calls: nat, delays: seq<int>)
    ensures maxRetries < 1 ==> r == Failure(NonErrorValue) && calls == 0 && delays == []
    ensures maxRetries >= 1 ==> 1 <= calls <= maxRetries && r == operation(calls)
    ensures maxRetries >= 1 ==> r.Success? || !IsRetryable(r.error) || calls == maxRetries
    ensures forall k :: 1 <= k < calls ==> operation(k).Failure? && IsRetryable(operation(k).error)
    ensures |delays| == if calls == 0 then 0 else calls - 1
    ensures forall k :: 0 <= k < |delays| ==> delays[k] == Backoff(delayMs, k + 1)
  {
    delays := [];
    var attempt := 1;
    while attempt <= maxRetries
      invariant 1 <= attempt && (maxRetries >= 1 ==> attempt <= maxRetries)
      invariant forall k :: 1 <= k < attempt ==> operation(k).Failure? && IsRetryable(operation(k).error)
      invariant |delays| == attempt - 1
      invariant forall k :: 0 <= k < |delays| ==> delays[k] == Backoff(delayMs, k + 1)
      decreases maxRetries - attempt
    {
      var outcome := operation(attempt);
      if outcome.Success? || !IsRetryable(outcome.error) || attempt == maxRetries {
        return outcome, attempt, delays;
      }
      delays := delays + [Backoff(delayMs, attempt)];
      attempt := attempt + 1;
    }
    return Failure(NonErrorValue), 0, [];
  }

  /**
   * An operation that always gives the same outcome is called once, unless
   * its failure is retryable, in which case it is called maxRetries times;
   * either way the outcome is passed through.
   */
  lemma RetryOfConstant<T>(operation: nat -> Outcome<T>, o: Outcome<T>, maxRetries: int, calls: nat, r: Outcome<T>)
    requires forall k :: operation(k) == o
    requires maxRetries >= 1 && 1 <= calls <= maxRetries && r == operation(calls)
    requires r.Success? || !IsRetryable(r.error) || calls == maxRetries
    requires forall k :: 1 <= k < calls ==> operation(k).Failure? && IsRetryable(operation(k).error)
    ensures r == o
    ensures o.Success? || !IsRetryable(o.error) ==> calls == 1
    ensures o.Failure? && IsRetryable(o.error) ==> calls == maxRetries
  {
    if calls > 1 {
      assert operation(1) == o;
    }
  }

  /** A pooled database client: the statements it was sent and whether it went back to the pool. */
  class PooledClient {
    var statements: seq<string>
    var released: bool

    constructor()
      ensures statements == [] && !released
    {
      statements := [];
      released := false;
    }

    /** `client.query(sql)` for a transaction-control statement. */
    method Query(sql: string)
      modifies this`statements
      ensures statements == old(statements) + [sql]
    {
      statements := statements + [sql];
    }

    /** `client.release()` */
    method Release()
      modifies this`released
      ensures released
    {
      released := true;
    }
  }

  /**
   * `execute(callback)`: BEGIN, then the callback (whose outcome is given),
   * then COMMIT and the callback's result, or ROLLBACK and its error
   * rethrown; the client is released on both paths.
   */
  method Execute<T>(client: PooledClient, callback: Outcome<T>) returns (r: Outcome<T>)
    modifies client
    ensures r == callback
    ensures client.released
    ensures callback.Success? ==> client.statements == old(client.statements) + ["BEGIN", "COMMIT"]
    ensures callback.Failure? ==> client.statements == old(client.statements) + ["BEGIN", "ROLLBACK"]
  {
    client.Query("BEGIN");
    if callback.Success? {
      client.Query("COMMIT");
    } else {
      client.Query("ROLLBACK");
    }
    client.Release();
    r := callback;
  }
}

=== FILE: update_event_request.dfy ===
/** The body of an update-event request and its validation; every field is optional. */
module UpdateEventRequest {
  import opened Wrappers
  import opened Strings
  import opened Validation

  /** `totalTickets` is the signed change to apply, not the new total. */
  datatype UpdateEventRequest = UpdateEventRequest(
    name: Option<string>,
    description: Option<string>,
    totalTickets: Option<real>)

  /** The messages `validate` can report, in the order of its checks. */
  datatype Message =
    | NameEmpty
    | NameTooLong
    | TicketsNotInteger
    | DescriptionTooLong
  {
    function Text(): string
    {
      match this
      case NameEmpty => "Event name cannot be empty"
      case NameTooLong => "Event name must be less than 200 characters"
      case TicketsNotInteger => "Total tickets must be an integer"
      case DescriptionTooLong => "Description must be less than 1000 characters"
    }

    function Rank(): nat
    {
      match this
      case NameEmpty => 0
      case NameTooLong => 1
      case TicketsNotInteger => 2
      case DescriptionTooLong => 3
    }
  }

  const MaxNameLength := 200
  const MaxDescriptionLength := 1000

  /** The checks of `validate`, in the order it runs them. */
  function Checks(req: UpdateEventRequest): seq<Check<Message>>
  {
    [ Check(req.name.Some? && AllWhitespace(req.name.value), NameEmpty),
      Check(LongerThan(req.name, MaxNameLength), NameTooLong),
      Check(req.totalTickets.Some? && !IsWholeNumber(req.totalTickets), TicketsNotInteger),
      Check(LongerThan(req.description, MaxDescriptionLength), DescriptionTooLong) ]
  }

  /** Checks only the fields that are present and collects the failures. */
  method Validate(req: UpdateEventRequest) returns (isValid: bool, errors: seq<Message>)
    ensures errors == Failed(Checks(req))
    ensures isValid <==> errors == []
  {
    ghost var cs := Checks(req);
    errors := [];
    errors := Report(cs, 0, errors, req.name.Some? && AllWhitespace(req.name.value), NameEmpty);
    errors := Report(cs, 1, errors, LongerThan(req.name, MaxNameLength), NameTooLong);
    errors := Report(cs, 2, errors, req.totalTickets.Some? && !IsWholeNumber(req.totalTickets), TicketsNotInteger);
    errors := Report(cs, 3, errors, LongerThan(req.description, MaxDescriptionLength), DescriptionTooLong);
    assert cs[..4] == cs;
    isValid := |errors| == 0;
  }

  /**
   * Errors come in check order; a present blank name and a present name
   * longer than 200 UTF-16 code units are reported independently; only a present
   * fractional ticket change is rejected, whatever its sign or size.
   */
  lemma ValidateMeaning(req: UpdateEventRequest)
    ensures var errors := Failed(Checks(req));
      && InRankOrder(errors, (m: Message) => m.Rank())
      && (NameEmpty in errors <==> req.name.Some? && AllWhitespace(req.name.value))
      && (NameTooLong in errors <==> req.name.Some? && Utf16Length(req.name.value) > 200)
      && (TicketsNotInteger in errors <==> req.totalTickets.Some? && !IsWholeNumber(req.totalTickets))
      && (DescriptionTooLong in errors <==> req.description.Some? && Utf16Length(req.description.value) > 1000)
  {
    var cs := Checks(req);
    assert cs[0].msg == NameEmpty && cs[1].msg == NameTooLong;
    assert cs[2].msg == TicketsNotInteger && cs[3].msg == DescriptionTooLong;
    assert forall i, j :: 0 <= i < j < |cs| ==> cs[i].msg.Rank() < cs[j].msg.Rank();
    FailedSpec(cs, (m: Message) => m.Rank());
  }

  /**
   * A request is accepted exactly when its present name is non-blank and at
   * most 200 UTF-16 code units, its present ticket change is an integer (zero,
   * negative and above 1,000,000 included), and its present description is
   * at most 1000 code units; in particular the empty request is accepted.
   */
  lemma ValidIff(req: UpdateEventRequest)
    ensures Failed(Checks(req)) == [] <==>
      && (req.name.Some? ==> !AllWhitespace(req.name.value) && Utf16Length(req.name.value) <= 200)
      && (req.totalTickets.Some? ==> req.totalTickets.value == req.totalTickets.value.Floor as real)
      && (req.description.Some? ==> Utf16Length(req.description.value) <= 1000)
    ensures req == UpdateEventRequest(None, None, None) ==> Failed(Checks(req)) == []
  {
    ValidateMeaning(req);
    var errors := Failed(Checks(req));
    if errors != [] {
      assert errors[0] in errors;
    }
  }
}

=== FILE: update_order_request.dfy ===
/** The body of an update-order request and its validation. */
module UpdateOrderRequest {
  import opened Wrappers
  import opened Patterns
  import opened Validation
  import Constants

  /** Every field is optional; only `customerEmail` is checked. */
  datatype UpdateOrderRequest = UpdateOrderRequest(
    status: Option<Constants.OrderStatus>,
    paymentStatus: Option<Constants.PaymentStatus>,
    paymentMethod: Option<string>,
    paymentTransactionId: Option<string>,
    customerName: Option<string>,
    customerEmail: Option<string>,
    customerPhone: Option<string>,
    billingAddress: Option<string>,
    notes: Option<string>)

  /** The one message `validate` can report. */
  datatype Message = InvalidEmail
  {
    function Text(): string
    {
      "Invalid email format"
    }
  }

  /** `customerEmail && !EMAIL.test(customerEmail)`: an empty address is not checked. */
  predicate BadEmail(email: Option<string>)
  {
    email.Some? && email.value != "" && !IsEmail(email.value)
  }

  /** The checks of `validate`. */
  function Checks(req: UpdateOrderRequest): seq<Check<Message>>
  {
    [Check(BadEmail(req.customerEmail), InvalidEmail)]
  }

  /** Collects the single possible failure. */
  method Validate(req: UpdateOrderRequest) returns (isValid: bool, errors: seq<Message>)
    ensures errors == Failed(Checks(req))
    ensures isValid <==> errors == []
  {
    ghost var cs := Checks(req);
    errors := Report(cs, 0, [], BadEmail(req.customerEmail), InvalidEmail);
    assert cs[..1] == cs;
    isValid := |errors| == 0;
  }

  /**
   * At most one error is ever reported: the format error, exactly when a
   * non-empty address fails the email pattern. A request without an address
   * is always accepted.
   */
  lemma ValidateMeaning(req: UpdateOrderRequest)
    ensures var errors := Failed(Checks(req));
      && |errors| <= 1
      && (InvalidEmail in errors <==> req.customerEmail.Some? && req.customerEmail.value != "" && !IsEmail(req.customerEmail.value))
      && (errors == [] <==> req.customerEmail.None? || req.customerEmail.value == "" || IsEmail(req.customerEmail.value))
  {
    var cs := Checks(req);
    assert Failed(cs) == Failed([]) + if cs[0].failed then [InvalidEmail] else [];
  }
}

=== FILE: validation.dfy ===
/**
 * The shape every request validator shares: a fixed list of checks run in
 * order, each pushing its own message onto `errors` when it fails, and
 * `isValid` meaning that nothing was pushed.
 */
module Validation {
  import opened Wrappers
  import opened Strings

  /** One `if (failed) errors.push(msg)` of a validator. */
  datatype Check<M> = Check(failed: bool, msg: M)

  /** The messages of the failing checks, in the order the checks run. */
  function Failed<M>(cs: seq<Check<M>>): (errors: seq<M>)
    ensures |errors| <= |cs|
  {
    if cs == [] then []
    else Failed(cs[..|cs| - 1]) + (if cs[|cs| - 1].failed then [cs[|cs| - 1].msg] else [])
  }

  /** Running one more check appends its message exactly when it fails. */
  lemma FailedSnoc<M>(cs: seq<Check<M>>, c: Check<M>)
    ensures Failed(cs + [c]) == Failed(cs) + if c.failed then [c.msg] else []
  {
    assert (cs + [c])[..|cs|] == cs;
  }

  /**
   * `if (failed) errors.push(msg)`, run as check `k` of the list `cs` once
   * the checks before it have been reported.
   */
  method Report<M>(ghost cs: seq<Check<M>>, ghost k: nat, errors: seq<M>, failed: bool, msg: M)
    returns (next: seq<M>)
    requires k < |cs| && cs[k] == Check(failed, msg)
    requires errors == Failed(cs[..k])
    ensures next == Failed(cs[..k + 1])
  {
    FailedSnoc(cs[..k], cs[k]);
    assert cs[..k] + [cs[k]] == cs[..k + 1];
    next := errors;
    if failed {
      next := next + [msg];
    }
  }

  /** Every reported message belongs to a check that failed. */
  lemma {:induction false} FailedFromChecks<M>(cs: seq<Check<M>>)
    ensures forall m :: m in Failed(cs) ==> exists k :: 0 <= k < |cs| && cs[k].msg == m && cs[k].failed
  {
    if cs != [] {
      var init := cs[..|cs| - 1];
      FailedFromChecks(init);
      forall m | m in Failed(cs)
        ensures exists k :: 0 <= k < |cs| && cs[k].msg == m && cs[k].failed
      {
        if m in Failed(init) {
          var k :| 0 <= k < |init| && init[k].msg == m && init[k].failed;
          assert cs[k] == init[k];
        } else {
          assert cs[|cs| - 1].msg == m && cs[|cs| - 1].failed;
        }
      }
    }
  }

  /** The checks carry messages of strictly increasing rank. */
  predicate Ranked<M>(cs: seq<Check<M>>, rank: M -> nat)
  {
    forall i, j :: 0 <= i < j < |cs| ==> rank(cs[i].msg) < rank(cs[j].msg)
  }

  /** Messages listed in strictly increasing rank, so each at most once. */
  predicate InRankOrder<M>(errors: seq<M>, rank: M -> nat)
  {
    forall i, j :: 0 <= i < j < |errors| ==> rank(errors[i]) < rank(errors[j])
  }

  /**
   * When the checks are listed in rank order, the errors come out in that
   * order, and a check's message is reported exactly when the check fails.
   */
  lemma {:induction false} FailedSpec<M>(cs: seq<Check<M>>, rank: M -> nat)
    requires Ranked(cs, rank)
    ensures InRankOrder(Failed(cs), rank)
    ensures forall k :: 0 <= k < |cs| ==> (cs[k].msg in Failed(cs) <==> cs[k].failed)
  {
    if cs != [] {
      var init := cs[..|cs| - 1];
      var last := cs[|cs| - 1];
      var before := Failed(init);
      var errors := Failed(cs);
      assert errors == before + if last.failed then [last.msg] else [];
      assert Ranked(init, rank) by {
        forall i, j | 0 <= i < j < |init|
          ensures rank(init[i].msg) < rank(init[j].msg)
        {
          assert init[i] == cs[i] && init[j] == cs[j];
        }
      }
      FailedSpec(init, rank);
      FailedFromChecks(init);
      forall m | m in before
        ensures rank(m) < rank(last.msg)
      {
        var k :| 0 <= k < |init| && init[k].msg == m && init[k].failed;
        assert cs[k] == init[k];
      }
      forall i, j | 0 <= i < j < |errors|
        ensures rank(errors[i]) < rank(errors[j])
      {
        if j < |before| {
          assert errors[i] == before[i] && errors[j] == before[j];
        } else {
          assert errors[i] == before[i] && before[i] in before;
        }
      }
      forall k | 0 <= k < |cs|
        ensures cs[k].msg in errors <==> cs[k].failed
      {
        if k < |init| {
          assert cs[k] == init[k];
          assert rank(init[k].msg) < rank(last.msg);
        } else {
          assert last.msg !in before;
        }
      }
    }
  }

  /**
   * `!value || value.trim().length === 0` on an optional string field,
   * stated through the characters (see `MissingOrBlankIff`).
   */
  predicate MissingOrBlank(o: Option<string>)
  {
    o.None? || AllWhitespace(o.value)
  }

  /** A field is missing or blank exactly when it is absent or trims to nothing. */
  lemma MissingOrBlankIff(o: Option<string>)
    ensures MissingOrBlank(o) <==> o.None? || Trim(o.value) == []
  {
    if o.Some? {
      BlankIffAllWhitespace(o.value);
    }
  }

  /** `!value || value.length === 0` on an optional string field: a missing or empty string. */
  predicate MissingOrEmpty(o: Option<string>)
  {
    o.None? || o.value == ""
  }

  /** `Number.isInteger(value)` on an optional numeric field: a missing value is not an integer. */
  predicate IsWholeNumber(o: Option<real>)
  {
    o.Some? && o.value == o.value.Floor as real
  }

  /** `value && value.length > n`: a present string longer than `n` UTF-16 code units. */
  predicate LongerThan(o: Option<string>, n: nat)
  {
    o.Some? && Utf16Length(o.value) > n
  }
}

=== FILE: waiting_list_entity.dfy ===
/** The `WaitingList` entity: a user's queued request for tickets of a sold-out event. */
module WaitingListEntity {
  import opened Wrappers
  import opened Js
  import Constants

  type WaitingListStatus = Constants.WaitingListStatus

  /** The argument of `new WaitingList(data)`; every field may be missing. */
  datatype WaitingListData = WaitingListData(
    id: Option<string>, eventId: Option<string>, userId: Option<string>,
    numberOfTickets: Option<int>, priority: Option<int>, status: Option<WaitingListStatus>,
    notifiedAt: Option<int>, fulfilledAt: Option<int>,
    version: Option<int>, createdAt: Option<int>, updatedAt: Option<int>)

  /** The eleven fields `toJSON` returns; a row of the waiting_list table has the same shape. */
  datatype WaitingListRecord = WaitingListRecord(
    id: string, eventId: string, userId: string, numberOfTickets: int, priority: int,
    status: WaitingListStatus, notifiedAt: Option<int>, fulfilledAt: Option<int>,
    version: int, createdAt: int, updatedAt: int)

  /**
   * The constructor's defaults: priority and version via `??` (an explicit
   * 0 is kept), status pending, notifiedAt and fulfilledAt copied as given
   * (possibly missing), timestamps now.
   */
  function FromData(data: WaitingListData, now: int): (r: WaitingListRecord)
    ensures r.id == StrOr(data.id, "") && r.eventId == StrOr(data.eventId, "") && r.userId == StrOr(data.userId, "")
    ensures r.numberOfTickets == NumOr(data.numberOfTickets, 0)
    ensures data.priority.Some? ==> r.priority == data.priority.value
    ensures data.priority.None? ==> r.priority == 0
    ensures data.status.None? ==> r.status == Constants.WaitingListStatus.Pending
    ensures data.status.Some? ==> r.status == data.status.value
    ensures r.notifiedAt == data.notifiedAt && r.fulfilledAt == data.fulfilledAt
    ensures data.version.Some? ==> r.version == data.version.value
    ensures data.version.None? ==> r.version == 0
    ensures r.createdAt == data.createdAt.GetOr(now) && r.updatedAt == data.updatedAt.GetOr(now)
  {
    WaitingListRecord(StrOr(data.id, ""), StrOr(data.eventId, ""), StrOr(data.userId, ""),
      NumOr(data.numberOfTickets, 0), data.priority.GetOr(0),
      data.status.GetOr(Constants.WaitingListStatus.Pending), data.notifiedAt, data.fulfilledAt,
      data.version.GetOr(0), data.createdAt.GetOr(now), data.updatedAt.GetOr(now))
  }

  function AsData(r: WaitingListRecord): WaitingListData
  {
    WaitingListData(Some(r.id), Some(r.eventId), Some(r.userId), Some(r.numberOfTickets), Some(r.priority),
      Some(r.status), r.notifiedAt, r.fulfilledAt, Some(r.version), Some(r.createdAt), Some(r.updatedAt))
  }

  /** Reading a row back through the constructor loses nothing. */
  lemma RowRoundTrip(r: WaitingListRecord, now: int)
    ensures FromData(AsData(r), now) == r
  {
  }

  class WaitingList {
    var id: string
    var eventId: string
    var userId: string
    var numberOfTickets: int
    var priority: int
    var status: WaitingListStatus
    var notifiedAt: Option<int>
    var fulfilledAt: Option<int>
    var version: int
    var createdAt: int
    var updatedAt: int

    function ToJSON(): WaitingListRecord
      reads this
    {
      WaitingListRecord(id, eventId, userId, numberOfTickets, priority, status, notifiedAt, fulfilledAt,
        version, createdAt, updatedAt)
    }

    constructor(data: WaitingListData, now: int)
      ensures ToJSON() == FromData(data, now)
    {
      var r := FromData(data, now);
      id, eventId, userId, numberOfTickets, priority := r.id, r.eventId, r.userId, r.numberOfTickets, r.priority;
      status, notifiedAt, fulfilledAt := r.status, r.notifiedAt, r.fulfilledAt;
      version, createdAt, updatedAt := r.version, r.createdAt, r.updatedAt;
    }

    function GetVersion(): int
      reads this
    {
      version
    }

    method SetVersion(v: int)
      modifies this`version
      ensures GetVersion() == v
      ensures ToJSON() == old(ToJSON()).(version := v)
    {
      version := v;
    }
  }
}

=== FILE: waiting_list_repository.dfy ===
/**
 * The waiting_list table: lookups, the priority-ordered queue queries,
 * the next-priority query and version-checked writes.
 */
module WaitingListRepository {
  import opened Wrappers
  import opened CustomErrors
  import opened WaitingListEntity
  import opened Store
  import Constants

  function IndexOf(rows: seq<WaitingListRecord>, id: string): (i: int)
    ensures -1 <= i < |rows|
    ensures i >= 0 ==> rows[i].id == id
    ensures i < 0 ==> forall k :: 0 <= k < |rows| ==> rows[k].id != id
  {
    if rows == [] then -1
    else if rows[|rows| - 1].id == id then |rows| - 1
    else IndexOf(rows[..|rows| - 1], id)
  }

  /** `findById`: the stored row, or null. */
  function FindById(rows: seq<WaitingListRecord>, id: string): (r: Option<WaitingListRecord>)
    ensures r.Some? <==> exists k :: 0 <= k < |rows| && rows[k].id == id
    ensures r.Some? ==> r.value.id == id && r.value in rows
  {
    var i := IndexOf(rows, id);
    if i < 0 then None else Some(rows[i])
  }

  /**
   * The column constraints on a row: the CHECK `number_of_tickets > 0` and
   * the character limit of `user_id VARCHAR(255)`.
   */
  predicate RowOk(w: WaitingListRecord)
  {
    w.numberOfTickets > 0 && |w.userId| <= 255
  }

  predicate UniqueIds(rows: seq<WaitingListRecord>)
  {
    forall i, j :: 0 <= i < j < |rows| ==> rows[i].id != rows[j].id
  }

  predicate TableOk(rows: seq<WaitingListRecord>)
  {
    UniqueIds(rows) && forall i :: 0 <= i < |rows| ==> RowOk(rows[i])
  }

  lemma IndexOfUnique(rows: seq<WaitingListRecord>, k: int)
    requires UniqueIds(rows) && 0 <= k < |rows|
    ensures IndexOf(rows, rows[k].id) == k
  {
  }

  // ---- the queue order: priority descending, then createdAt ascending ----

  /** `a` is served strictly before `b`. */
  predicate Before(a: WaitingListRecord, b: WaitingListRecord)
  {
    a.priority > b.priority || (a.priority == b.priority && a.createdAt < b.createdAt)
  }

  /** No entry is preceded by one that should be served after it. */
  predicate Ordered(s: seq<WaitingListRecord>)
  {
    forall i, j :: 0 <= i < j < |s| ==> !Before(s[j], s[i])
  }

  /** Places `x` after every entry not served after it. */
  function Insert(s: seq<WaitingListRecord>, x: WaitingListRecord): (r: seq<WaitingListRecord>)
    requires Ordered(s)
    ensures Ordered(r) && multiset(r) == multiset(s) + multiset{x} && |r| == |s| + 1
  {
    if s == [] then [x]
    else if Before(x, s[0]) then
      InsertFirst(s, x);
      [x] + s
    else
      OrderedTail(s);
      var rest := Insert(s[1..], x);
      InsertAfterHead(s, x, rest);
      [s[0]] + rest
  }

  /** An entry served before the head of an ordered queue may go first. */
  lemma InsertFirst(s: seq<WaitingListRecord>, x: WaitingListRecord)
    requires Ordered(s) && s != [] && Before(x, s[0])
    ensures Ordered([x] + s)
  {
    var r := [x] + s;
    forall i, j | 0 <= i < j < |r| ensures !Before(r[j], r[i]) {
      assert r[j] == s[j - 1];
      if i > 0 {
        assert r[i] == s[i - 1];
      } else if j > 1 {
        assert !Before(s[j - 1], s[0]);
      }
    }
  }

  lemma OrderedTail(s: seq<WaitingListRecord>)
    requires Ordered(s) && s != []
    ensures Ordered(s[1..])
  {
    forall i, j | 0 <= i < j < |s| - 1 ensures !Before(s[1..][j], s[1..][i]) {
      assert s[1..][j] == s[j + 1] && s[1..][i] == s[i + 1];
    }
  }

  /** The head stays first when `x` is not served before it and goes into the tail. */
  lemma InsertAfterHead(s: seq<WaitingListRecord>, x: WaitingListRecord, rest: seq<WaitingListRecord>)
    requires Ordered(s) && s != [] && !Before(x, s[0])
    requires Ordered(rest) && multiset(rest) == multiset(s[1..]) + multiset{x}
    ensures Ordered([s[0]] + rest) && multiset([s[0]] + rest) == multiset(s) + multiset{x}
  {
    assert s == [s[0]] + s[1..];
    forall k | 0 <= k < |rest| ensures !Before(rest[k], s[0]) {
      assert rest[k] in multiset(rest);
      if rest[k] != x {
        assert rest[k] in multiset(s[1..]);
        var m :| 0 <= m < |s[1..]| && s[1..][m] == rest[k];
        assert !Before(s[m + 1], s[0]);
      }
    }
    var r := [s[0]] + rest;
    forall i, j | 0 <= i < j < |r| ensures !Before(r[j], r[i]) {
      assert r[j] == rest[j - 1];
      if i > 0 {
        assert r[i] == rest[i - 1];
      }
    }
  }

  /** Stable insertion sort into queue order. */
  function Sort(s: seq<WaitingListRecord>): (r: seq<WaitingListRecord>)
    ensures Ordered(r) && multiset(r) == multiset(s) && |r| == |s|
  {
    if s == [] then []
    else
      assert s == s[..|s| - 1] + [s[|s| - 1]];
      Insert(Sort(s[..|s| - 1]), s[|s| - 1])
  }

  /** The `WHERE` clause of `findByEventId`: the event, and the status when one is given. */
  predicate Selected(w: WaitingListRecord, eventId: string, status: Option<WaitingListStatus>)
  {
    w.eventId == eventId && (status.None? || w.status == status.value)
  }

  /** The selected rows, in table order. */
  function OfEvent(rows: seq<WaitingListRecord>, eventId: string, status: Option<WaitingListStatus>): (r: seq<WaitingListRecord>)
    ensures forall x :: x in r <==> x in rows && Selected(x, eventId, status)
    ensures |r| <= |rows|
  {
    if rows == [] then []
    else
      var n := |rows| - 1;
      var rest := OfEvent(rows[..n], eventId, status);
      assert rows == rows[..n] + [rows[n]];
      if Selected(rows[n], eventId, status) then rest + [rows[n]] else rest
  }

  /**
   * `findByEventId(eventId, status)`: exactly the event's entries (in that
   * status, when one is given), each as often as stored, ordered by priority
   * descending, then by creation time ascending.
   */
  function FindByEventId(rows: seq<WaitingListRecord>, eventId: string, status: Option<WaitingListStatus>): (r: seq<WaitingListRecord>)
    ensures Ordered(r)
    ensures multiset(r) == multiset(OfEvent(rows, eventId, status))
    ensures forall x :: x in r <==> x in rows && Selected(x, eventId, status)
    ensures |r| <= |rows|
  {
    var f := OfEvent(rows, eventId, status);
    var r := Sort(f);
    SameElements(r, f);
    r
  }

  /** Sequences with the same multiset hold the same elements. */
  lemma SameElements(a: seq<WaitingListRecord>, b: seq<WaitingListRecord>)
    requires multiset(a) == multiset(b)
    ensures forall x :: x in a <==> x in b
  {
    forall x ensures x in a <==> x in b {
      assert x in a <==> x in multiset(a);
      assert x in b <==> x in multiset(b);
    }
  }

  /** `getNextPendingEntry`: the head of the pending queue, or null. */
  function GetNextPendingEntry(rows: seq<WaitingListRecord>, eventId: string): (r: Option<WaitingListRecord>)
    ensures r.Some? <==> exists x :: x in rows && Selected(x, eventId, Some(Constants.WaitingListStatus.Pending))
    ensures r.Some? ==> r.value in rows && Selected(r.value, eventId, Some(Constants.WaitingListStatus.Pending))
    ensures r.Some? ==>
              forall x :: x in rows && Selected(x, eventId, Some(Constants.WaitingListStatus.Pending)) ==> !Before(x, r.value)
  {
    var pending := Some(Constants.WaitingListStatus.Pending);
    var q := FindByEventId(rows, eventId, pending);
    assert forall x :: x in q <==> x in rows && Selected(x, eventId, pending);
    if q == [] then None
    else
      assert q[0] in q;
      assert Ordered(q);
      forall x | x in q
        ensures !Before(x, q[0])
      {
        var m :| 0 <= m < |q| && q[m] == x;
        if m > 0 {
          assert !Before(q[m], q[0]);
        }
      }
      Some(q[0])
  }

  /** The largest priority among the event's entries, if it has any. */
  function MaxPriority(rows: seq<WaitingListRecord>, eventId: string): (m: Option<int>)
    ensures m.None? <==> forall k :: 0 <= k < |rows| ==> rows[k].eventId != eventId
    ensures m.Some? ==> exists k :: 0 <= k < |rows| && rows[k].eventId == eventId && rows[k].priority == m.value
    ensures m.Some? ==> forall k :: 0 <= k < |rows| && rows[k].eventId == eventId ==> rows[k].priority <= m.value
  {
    if rows == [] then None
    else
      var n := |rows| - 1;
      var rest := MaxPriority(rows[..n], eventId);
      assert forall k :: 0 <= k < n ==> rows[..n][k] == rows[k];
      if rows[n].eventId != eventId then rest
      else if rest.None? || rows[n].priority > rest.value then Some(rows[n].priority)
      else rest
  }

  /**
   * `getNextPriority`: one more than the largest priority among all of the
   * event's entries, whatever their status; 1 for an event with none.
   */
  function GetNextPriority(rows: seq<WaitingListRecord>, eventId: string): (p: int)
    ensures forall k :: 0 <= k < |rows| && rows[k].eventId == eventId ==> rows[k].priority < p
    ensures (forall k :: 0 <= k < |rows| ==> rows[k].eventId != eventId) ==> p == 1
    ensures (exists k :: 0 <= k < |rows| && rows[k].eventId == eventId) ==>
              exists k :: 0 <= k < |rows| && rows[k].eventId == eventId && rows[k].priority == p - 1
  {
    var m := MaxPriority(rows, eventId);
    if m.None? then 1 else m.value + 1
  }

  /** The rows that survive `ON DELETE CASCADE` when an event is deleted. */
  function WithoutEvent(rows: seq<WaitingListRecord>, eventId: string): (r: seq<WaitingListRecord>)
    ensures forall k :: 0 <= k < |r| ==> r[k].eventId != eventId && r[k] in rows
    ensures forall k :: 0 <= k < |rows| && rows[k].eventId != eventId ==> rows[k] in r
  {
    if rows == [] then []
    else
      var rest := WithoutEvent(rows[..|rows| - 1], eventId);
      assert forall k :: 0 <= k < |rows| - 1 ==> rows[..|rows| - 1][k] == rows[k];
      if rows[|rows| - 1].eventId == eventId then rest else rest + [rows[|rows| - 1]]
  }

  lemma {:induction false} WithoutEventKeepsTable(rows: seq<WaitingListRecord>, gone: string)
    requires TableOk(rows)
    ensures TableOk(WithoutEvent(rows, gone))
  {
    if rows != [] {
      var n := |rows| - 1;
      var init := rows[..n];
      assert TableOk(init) by {
        forall i, j | 0 <= i < j < n ensures init[i].id != init[j].id {
          assert init[i] == rows[i] && init[j] == rows[j];
        }
      }
      WithoutEventKeepsTable(init, gone);
      var rest := WithoutEvent(init, gone);
      if rows[n].eventId != gone {
        var r := rest + [rows[n]];
        assert WithoutEvent(rows, gone) == r;
        forall i, j | 0 <= i < j < |r| ensures r[i].id != r[j].id {
          if j == |rest| {
            assert r[i] == rest[i] && rest[i] in init;
            var m :| 0 <= m < n && init[m] == r[i];
            assert rows[m] == r[i];
          } else {
            assert r[i] == rest[i] && r[j] == rest[j];
          }
        }
        forall i | 0 <= i < |r| ensures RowOk(r[i]) {
          if i < |rest| { assert r[i] == rest[i]; }
        }
      }
    }
  }

  /**
   * `create`: the INSERT succeeds when the id is new, the event exists and
   * the column constraints hold; the row is stored as given (its version via `?? 0`).
   */
  method Create(db: Database, w: WaitingListRecord) returns (r: Outcome<WaitingListRecord>)
    modifies db`waitingList
    ensures r.Success? <==> IndexOf(old(db.waitingList), w.id) < 0 && EventExists(db.events, w.eventId) && RowOk(w)
    ensures r.Success? ==> r.value == w && db.waitingList == old(db.waitingList) + [w]
    ensures r.Failure? ==> r.error == PlainError(ConstraintViolation) && db.waitingList == old(db.waitingList)
  {
    if IndexOf(db.waitingList, w.id) >= 0 || !EventExists(db.events, w.eventId) || !RowOk(w) {
      return Failure(PlainError(ConstraintViolation));
    }
    db.waitingList := db.waitingList + [w];
    r := Success(w);
  }

  /**
   * The row a successful `update` leaves: status, priority, notifiedAt,
   * fulfilledAt and updatedAt come from the entity, the version goes up by
   * one, and the event, user, ticket count and creation time stay as stored.
   */
  function Written(stored: WaitingListRecord, w: WaitingListRecord): (r: WaitingListRecord)
    ensures r.id == stored.id && r.eventId == stored.eventId && r.userId == stored.userId
    ensures r.numberOfTickets == stored.numberOfTickets && r.createdAt == stored.createdAt
    ensures r.version == stored.version + 1
    ensures r.status == w.status && r.priority == w.priority && r.notifiedAt == w.notifiedAt
    ensures r.fulfilledAt == w.fulfilledAt && r.updatedAt == w.updatedAt
  {
    stored.(status := w.status, priority := w.priority, notifiedAt := w.notifiedAt,
            fulfilledAt := w.fulfilledAt, version := stored.version + 1, updatedAt := w.updatedAt)
  }

  /**
   * `update(entry, expectedVersion)`: with an expected version the row is
   * written only if its stored version equals it, and otherwise a plain
   * `Error('ConcurrencyError')` is thrown; without one the row is written
   * whatever its version. Nothing changes on failure.
   */
  method Update(db: Database, w: WaitingListRecord, expectedVersion: Option<int>) returns (r: Outcome<WaitingListRecord>)
    modifies db`waitingList
    ensures var i := IndexOf(old(db.waitingList), w.id);
      && (expectedVersion.Some? && (i < 0 || old(db.waitingList)[i].version != expectedVersion.value)
          ==> r == Failure(PlainError(VersionMismatch)))
      && (expectedVersion.None? && i < 0 ==> r == Failure(PlainError(MissingRow)))
      && (i >= 0 && (expectedVersion.None? || old(db.waitingList)[i].version == expectedVersion.value)
          ==> r == Success(Written(old(db.waitingList)[i], w)) && db.waitingList == old(db.waitingList)[i := r.value])
    ensures r.Failure? ==> db.waitingList == old(db.waitingList)
  {
    var i := IndexOf(db.waitingList, w.id);
    if i < 0 || (expectedVersion.Some? && db.waitingList[i].version != expectedVersion.value) {
      return Failure(PlainError(if expectedVersion.Some? then VersionMismatch else MissingRow));
    }
    var written := Written(db.waitingList[i], w);
    db.waitingList := db.waitingList[i := written];
    r := Success(written);
  }

  /** `delete(id)`: removes the row and answers whether there was one. */
  method Delete(db: Database, id: string) returns (deleted: bool)
    modifies db`waitingList
    ensures deleted <==> IndexOf(old(db.waitingList), id) >= 0
    ensures deleted ==> var i := IndexOf(old(db.waitingList), id);
      db.waitingList == old(db.waitingList)[..i] + old(db.waitingList)[i + 1..]
    ensures !deleted ==> db.waitingList == old(db.waitingList)
  {
    var i := IndexOf(db.waitingList, id);
    if i < 0 {
      return false;
    }
    db.waitingList := db.waitingList[..i] + db.waitingList[i + 1..];
    deleted := true;
  }

  /** A filter of a table with unique ids holds every row at most once. */
  lemma {:induction false} OfEventOnce(rows: seq<WaitingListRecord>, eventId: string, status: Option<WaitingListStatus>)
    requires UniqueIds(rows)
    ensures forall x :: multiset(OfEvent(rows, eventId, status))[x] <= 1
  {
    if rows != [] {
      var n := |rows| - 1;
      var init := rows[..n];
      assert UniqueIds(init) by {
        forall i, j | 0 <= i < j < n ensures init[i].id != init[j].id {
          assert init[i] == rows[i] && init[j] == rows[j];
        }
      }
      OfEventOnce(init, eventId, status);
      var rest := OfEvent(init, eventId, status);
      if Selected(rows[n], eventId, status) {
        assert forall m :: 0 <= m < n ==> init[m].id != rows[n].id by {
          forall m | 0 <= m < n ensures init[m].id != rows[n].id {
            assert init[m] == rows[m];
          }
        }
        assert rows[n] !in init;
        assert multiset(rest)[rows[n]] == 0;
        assert OfEvent(rows, eventId, status) == rest + [rows[n]];
      }
    }
  }

  /** A sequence holding every element at most once has no repeated element. */
  lemma NoRepeats(s: seq<WaitingListRecord>)
    requires forall x :: multiset(s)[x] <= 1
    ensures forall i, j :: 0 <= i < j < |s| ==> s[i] != s[j]
  {
    forall i, j | 0 <= i < j < |s| ensures s[i] != s[j] {
      RepeatCountsTwice(s, i, j);
    }
  }

  lemma RepeatCountsTwice(s: seq<WaitingListRecord>, i: int, j: int)
    requires 0 <= i < j < |s|
    ensures s[i] == s[j] ==> multiset(s)[s[j]] >= 2
  {
    assert s == s[..j] + s[j..];
    assert s[i] in s[..j] && s[j] in s[j..];
  }

  /** The queue of a table with unique ids has unique ids itself. */
  lemma FindByEventIdUnique(rows: seq<WaitingListRecord>, eventId: string, status: Option<WaitingListStatus>)
    requires UniqueIds(rows)
    ensures UniqueIds(FindByEventId(rows, eventId, status))
  {
    var r := FindByEventId(rows, eventId, status);
    OfEventOnce(rows, eventId, status);
    assert multiset(r) == multiset(OfEvent(rows, eventId, status));
    NoRepeats(r);
    forall i, j | 0 <= i < j < |r| ensures r[i].id != r[j].id {
      assert r[i] in r && r[j] in r;
      var a :| 0 <= a < |rows| && rows[a] == r[i];
      var b :| 0 <= b < |rows| && rows[b] == r[j];
      assert a != b;
      if a < b {
        assert rows[a].id != rows[b].id;
      } else {
        assert rows[b].id != rows[a].id;
      }
    }
  }
}

=== FILE: waiting_list_service.dfy ===
/**
 * `WaitingListService`: queueing users for a sold-out event, notifying the
 * head of the queue when tickets come back, and cancelling entries. Each
 * call runs to completion before the next one starts; ids and the clock are
 * parameters.
 */
module WaitingListService {
  import opened Wrappers
  import opened CustomErrors
  import opened WaitingListEntity
  import opened Store
  import opened Inventory
  import Constants
  import EventRepository
  import WaitingListRepository

  predicate IsPending(w: WaitingListRecord)
  {
    w.status == Constants.WaitingListStatus.Pending
  }

  /** A pending entry of this user for this event. */
  predicate PendingFor(w: WaitingListRecord, eventId: string, userId: string)
  {
    w.eventId == eventId && w.userId == userId && IsPending(w)
  }

  /** The admission rule's invariant: at most one pending entry per user and event. */
  predicate OnePendingPerUser(rows: seq<WaitingListRecord>)
  {
    forall i, j :: 0 <= i < j < |rows| && IsPending(rows[i]) && IsPending(rows[j]) && rows[i].eventId == rows[j].eventId
      ==> rows[i].userId != rows[j].userId
  }

  /** Writing an entry with a status other than pending cannot create a second pending entry. */
  lemma DemoteKeepsOnePending(rows: seq<WaitingListRecord>, i: int, w: WaitingListRecord)
    requires OnePendingPerUser(rows) && 0 <= i < |rows| && !IsPending(w)
    ensures OnePendingPerUser(rows[i := WaitingListRepository.Written(rows[i], w)])
  {
  }

  /** Deleting an event's entries, as the cascade of `deleteEvent` does, keeps one pending entry per user. */
  lemma {:induction false} WithoutEventKeepsOnePending(rows: seq<WaitingListRecord>, eventId: string)
    requires OnePendingPerUser(rows)
    ensures OnePendingPerUser(WaitingListRepository.WithoutEvent(rows, eventId))
  {
    if rows != [] {
      var n := |rows| - 1;
      var front := rows[..n];
      assert OnePendingPerUser(front) by {
        forall i, j | 0 <= i < j < |front| && IsPending(front[i]) && IsPending(front[j]) && front[i].eventId == front[j].eventId
          ensures front[i].userId != front[j].userId
        {
          assert front[i] == rows[i] && front[j] == rows[j];
        }
      }
      WithoutEventKeepsOnePending(front, eventId);
      var rest := WaitingListRepository.WithoutEvent(front, eventId);
      if rows[n].eventId != eventId {
        var r := rest + [rows[n]];
        assert WaitingListRepository.WithoutEvent(rows, eventId) == r;
        forall i, j | 0 <= i < j < |r| && IsPending(r[i]) && IsPending(r[j]) && r[i].eventId == r[j].eventId
          ensures r[i].userId != r[j].userId
        {
          if j < |rest| {
            assert r[i] == rest[i] && r[j] == rest[j];
          } else {
            assert r[i] == rest[i] && rest[i] in front;
            var a :| 0 <= a < |front| && front[a] == rest[i];
            assert rows[a] == r[i] && rows[n] == r[j];
          }
        }
      }
    }
  }

  /** Another row survives a write to row `i`. */
  lemma WriteKeepsOthers(rows: seq<WaitingListRecord>, i: int, w: WaitingListRecord, x: WaitingListRecord)
    requires 0 <= i < |rows| && x in rows && x.id != rows[i].id
    ensures x in rows[i := w]
  {
    var k :| 0 <= k < |rows| && rows[k] == x;
    assert rows[i := w][k] == x;
  }

  /** A row of a table with unique ids is found by its id at its own position. */
  lemma FoundAt(rows: seq<WaitingListRecord>, x: WaitingListRecord) returns (i: int)
    requires WaitingListRepository.UniqueIds(rows) && x in rows
    ensures i == WaitingListRepository.IndexOf(rows, x.id) && 0 <= i < |rows| && rows[i] == x
  {
    i :| 0 <= i < |rows| && rows[i] == x;
    WaitingListRepository.IndexOfUnique(rows, i);
  }

  /** Two different rows of a table with unique ids have different ids. */
  lemma DistinctRowsDistinctIds(rows: seq<WaitingListRecord>, x: WaitingListRecord, y: WaitingListRecord)
    requires WaitingListRepository.UniqueIds(rows) && x in rows && y in rows && x != y
    ensures x.id != y.id
  {
    var a :| 0 <= a < |rows| && rows[a] == x;
    var b :| 0 <= b < |rows| && rows[b] == y;
  }

  // ---- addToWaitingList ----

  const AlreadyQueued := "User is already on the waiting list for this event"

  /** `existingEntries.find(...)`: the first pending entry of the user. */
  function FindPendingOf(entries: seq<WaitingListRecord>, userId: string): (r: Option<WaitingListRecord>)
    ensures r.Some? <==> exists k :: 0 <= k < |entries| && entries[k].userId == userId && IsPending(entries[k])
    ensures r.Some? ==> r.value in entries && r.value.userId == userId && IsPending(r.value)
  {
    if entries == [] then None
    else if entries[0].userId == userId && IsPending(entries[0]) then Some(entries[0])
    else
      var r := FindPendingOf(entries[1..], userId);
      assert forall k :: 1 <= k < |entries| ==> entries[1..][k - 1] == entries[k];
      r
  }

  /** The user already waits for the event. */
  predicate Queued(rows: seq<WaitingListRecord>, eventId: string, userId: string)
  {
    exists x :: x in rows && PendingFor(x, eventId, userId)
  }

  /** The service's check over the event's entries finds exactly a pending entry of the user. */
  lemma FindPendingOfIsQueued(rows: seq<WaitingListRecord>, eventId: string, userId: string)
    ensures FindPendingOf(WaitingListRepository.FindByEventId(rows, eventId, None), userId).Some? <==> Queued(rows, eventId, userId)
  {
    var entries := WaitingListRepository.FindByEventId(rows, eventId, None);
    if Queued(rows, eventId, userId) {
      var x :| x in rows && PendingFor(x, eventId, userId);
      var k :| 0 <= k < |entries| && entries[k] == x;
    }
  }

  /** An entry given the next priority is served before every entry the event already has. */
  lemma NextPriorityServedFirst(rows: seq<WaitingListRecord>, eventId: string, w: WaitingListRecord)
    requires w.priority == WaitingListRepository.GetNextPriority(rows, eventId)
    ensures forall x :: x in rows && x.eventId == eventId ==> WaitingListRepository.Before(w, x)
  {
    forall x | x in rows && x.eventId == eventId ensures WaitingListRepository.Before(w, x) {
      var k :| 0 <= k < |rows| && rows[k] == x;
    }
  }

  /** Admitting a user who does not wait yet keeps one pending entry per user. */
  lemma AdmitKeepsOnePending(rows: seq<WaitingListRecord>, w: WaitingListRecord)
    requires OnePendingPerUser(rows) && !Queued(rows, w.eventId, w.userId)
    ensures OnePendingPerUser(rows + [w])
  {
    var after := rows + [w];
    forall i, j | 0 <= i < j < |after| && IsPending(after[i]) && IsPending(after[j]) && after[i].eventId == after[j].eventId
      ensures after[i].userId != after[j].userId
    {
      if j == |rows| {
        assert after[i] in rows && after[i].eventId == w.eventId;
      }
    }
  }

  /** The entry `addToWaitingList` inserts: pending, never notified, version 0, stamped now. */
  function NewEntry(id: string, eventId: string, userId: string, numberOfTickets: int, priority: int, now: int)
    : (w: WaitingListRecord)
    ensures IsPending(w) && w.version == 0 && w.notifiedAt.None? && w.fulfilledAt.None?
    ensures w.id == id && w.eventId == eventId && w.userId == userId
    ensures w.numberOfTickets == numberOfTickets && w.priority == priority
  {
    WaitingListRecord(id, eventId, userId, numberOfTickets, priority, Constants.WaitingListStatus.Pending,
      None, None, 0, now, now)
  }

  predicate AddPassThrough(e: Error)
  {
    e.NotFoundError? || e.ConflictError?
  }

  /**
   * The insert of `addToWaitingList` once the event exists and the user is
   * not queued yet: the entry takes the next priority, so it is served
   * before every entry the event already has.
   */
  method Admit(db: Database, eventId: string, userId: string, numberOfTickets: int, entryId: string, now: int)
    returns (outcome: Outcome<WaitingListRecord>)
    requires StoreOk(db) && WaitingListRepository.IndexOf(db.waitingList, entryId) < 0
    requires EventExists(db.events, eventId) && !Queued(db.waitingList, eventId, userId)
    modifies db`waitingList
    ensures StoreOk(db)
    ensures !(numberOfTickets > 0 && |userId| <= 255) ==>
      outcome == Failure(PlainError(ConstraintViolation)) && db.waitingList == old(db.waitingList)
    ensures numberOfTickets > 0 && |userId| <= 255 ==>
      && outcome == Success(NewEntry(entryId, eventId, userId, numberOfTickets,
                                     WaitingListRepository.GetNextPriority(old(db.waitingList), eventId), now))
      && db.waitingList == old(db.waitingList) + [outcome.value]
      && forall x :: x in old(db.waitingList) && x.eventId == eventId ==> WaitingListRepository.Before(outcome.value, x)
    ensures OnePendingPerUser(old(db.waitingList)) ==> OnePendingPerUser(db.waitingList)
  {
    var priority := WaitingListRepository.GetNextPriority(db.waitingList, eventId);
    var entry := new WaitingList(WaitingListData(Some(entryId), Some(eventId), Some(userId), Some(numberOfTickets),
                                                 Some(priority), Some(Constants.WaitingListStatus.Pending), None, None,
                                                 Some(0), Some(now), Some(now)), now);
    var w := entry.ToJSON();
    assert w == NewEntry(entryId, eventId, userId, numberOfTickets, priority, now);
    NextPriorityServedFirst(db.waitingList, eventId, w);
    if OnePendingPerUser(db.waitingList) {
      AdmitKeepsOnePending(db.waitingList, w);
    }
    if numberOfTickets > 0 && |userId| <= 255 {
      WaitingListAppendKeepsSchema(db.events, db.bookings, db.waitingList, w);
    }
    outcome := WaitingListRepository.Create(db, w);
  }

  /**
   * `addToWaitingList({eventId, userId, numberOfTickets})`. A missing event
   * is a NotFoundError; a user who already has a pending entry for the event
   * is a ConflictError; otherwise a pending entry is inserted with priority
   * one above every priority the event's entries hold, so it is served
   * before all of them. A non-positive ticket count breaks the table's CHECK
   * and surfaces as a DatabaseError. Nothing changes on failure.
   */
  method AddToWaitingList(db: Database, eventId: string, userId: string, numberOfTickets: int, entryId: string, now: int)
    returns (r: Outcome<WaitingListRecord>)
    requires StoreOk(db) && WaitingListRepository.IndexOf(db.waitingList, entryId) < 0
    modifies db`waitingList
    ensures StoreOk(db)
    ensures r.Failure? ==> db.waitingList == old(db.waitingList)
    ensures !EventExists(db.events, eventId) ==> r == Failure(NewNotFoundError("Event", eventId))
    ensures EventExists(db.events, eventId) ==>
      var queued := Queued(old(db.waitingList), eventId, userId);
      && (queued ==> r == Failure(NewConflictError(AlreadyQueued)))
      && (!queued && !(numberOfTickets > 0 && |userId| <= 255) ==>
            r == Failure(NewDatabaseError("Failed to add to waiting list", Some(PlainError(ConstraintViolation)))))
      && (!queued && numberOfTickets > 0 && |userId| <= 255 ==>
            && r == Success(NewEntry(entryId, eventId, userId, numberOfTickets,
                                     WaitingListRepository.GetNextPriority(old(db.waitingList), eventId), now))
            && db.waitingList == old(db.waitingList) + [r.value])
    ensures r.Success? ==>
      forall x :: x in old(db.waitingList) && x.eventId == eventId ==> WaitingListRepository.Before(r.value, x)
    ensures OnePendingPerUser(old(db.waitingList)) ==> OnePendingPerUser(db.waitingList)
  {
    var outcome: Outcome<WaitingListRecord>;
    if !EventExists(db.events, eventId) {
      outcome := Failure(NewNotFoundError("Event", eventId));
    } else {
      var existingEntries := WaitingListRepository.FindByEventId(db.waitingList, eventId, None);
      var userEntry := FindPendingOf(existingEntries, userId);
      FindPendingOfIsQueued(db.waitingList, eventId, userId);
      if userEntry.Some? {
        outcome := Failure(NewConflictError(AlreadyQueued));
      } else {
        outcome := Admit(db, eventId, userId, numberOfTickets, entryId, now);
      }
    }
    r := if outcome.Success? then outcome else Failure(RethrowOrWrap(outcome.error, AddPassThrough, "Failed to add to waiting list"));
  }

  // ---- processWaitingList ----

  /** The tickets a run of entries asks for. */
  function Tickets(s: seq<WaitingListRecord>): int
  {
    if s == [] then 0 else s[0].numberOfTickets + Tickets(s[1..])
  }

  /**
   * How many entries from the head of the queue a budget covers: the scan
   * takes entries while they fit what is left and stops at the first one
   * that does not, even if a later one would.
   */
  function NotifiedCount(s: seq<WaitingListRecord>, budget: int): (c: nat)
    ensures c <= |s|
  {
    if s == [] || budget < s[0].numberOfTickets then 0
    else 1 + NotifiedCount(s[1..], budget - s[0].numberOfTickets)
  }

  /** The notified entries together fit in the budget. */
  lemma {:induction false} NotifiedPrefixFits(s: seq<WaitingListRecord>, budget: int)
    requires budget >= 0
    ensures Tickets(s[..NotifiedCount(s, budget)]) <= budget
  {
    var c := NotifiedCount(s, budget);
    if c > 0 {
      NotifiedPrefixFits(s[1..], budget - s[0].numberOfTickets);
      assert s[..c][1..] == s[1..][..c - 1];
    }
  }

  /** No skipping ahead: the first entry left out does not fit what the notified ones leave. */
  lemma {:induction false} NotifiedStopsAtFirstMisfit(s: seq<WaitingListRecord>, budget: int)
    ensures var c := NotifiedCount(s, budget);
      c < |s| ==> Tickets(s[..c]) + s[c].numberOfTickets > budget
  {
    var c := NotifiedCount(s, budget);
    if c > 0 && c < |s| {
      NotifiedStopsAtFirstMisfit(s[1..], budget - s[0].numberOfTickets);
      assert s[..c][1..] == s[1..][..c - 1];
    }
  }

  /** Nothing is notified when no tickets are left, since every entry asks for at least one. */
  lemma NothingNotifiedWithoutTickets(s: seq<WaitingListRecord>, budget: int)
    requires budget <= 0 && forall k :: 0 <= k < |s| ==> WaitingListRepository.RowOk(s[k])
    ensures NotifiedCount(s, budget) == 0
  {
    if s != [] {
      assert WaitingListRepository.RowOk(s[0]);
    }
  }

  /** The entry after `processWaitingList` marked it on the entity. */
  function NotifiedAt(w: WaitingListRecord, now: int): (n: WaitingListRecord)
    ensures n.status == Constants.WaitingListStatus.Notified && n.notifiedAt == Some(now)
    ensures n == w.(status := n.status, notifiedAt := n.notifiedAt, updatedAt := now)
  {
    w.(status := Constants.WaitingListStatus.Notified, notifiedAt := Some(now), updatedAt := now)
  }

  /**
   * One step of the scan: the stored entry is loaded into an entity, marked
   * notified, and written back with its own version as the expected one.
   * Every other row stays.
   */
  method NotifyEntry(db: Database, stored: WaitingListRecord, now: int)
    requires StoreOk(db) && stored in db.waitingList
    modifies db`waitingList
    ensures StoreOk(db) && |db.waitingList| == |old(db.waitingList)|
    ensures WaitingListRepository.Written(stored, NotifiedAt(stored, now)) in db.waitingList
    ensures forall x :: x in old(db.waitingList) && x.id != stored.id ==> x in db.waitingList
    ensures OnePendingPerUser(old(db.waitingList)) ==> OnePendingPerUser(db.waitingList)
  {
    var at := FoundAt(db.waitingList, stored);
    var entry := new WaitingList(AsData(stored), now);
    entry.status := Constants.WaitingListStatus.Notified;
    entry.notifiedAt := Some(now);
    entry.updatedAt := now;
    assert entry.ToJSON() == NotifiedAt(stored, now);
    ghost var current := db.waitingList;
    WaitingListWriteKeepsSchema(db.events, db.bookings, current, at, entry.ToJSON());
    if OnePendingPerUser(current) {
      DemoteKeepsOnePending(current, at, entry.ToJSON());
    }
    var updated := WaitingListRepository.Update(db, entry.ToJSON(), Some(entry.GetVersion()));
    assert updated.Success? && db.waitingList == current[at := updated.value];
    assert db.waitingList[at] == updated.value;
    forall x | x in current && x.id != stored.id ensures x in db.waitingList {
      WriteKeepsOthers(current, at, updated.value, x);
    }
  }

  /** What one step of the scan keeps: the entries notified so far, and every row the scan has not reached. */
  lemma NotifyStepKeeps(before: seq<WaitingListRecord>, pending: seq<WaitingListRecord>, k: int,
                        current: seq<WaitingListRecord>, after: seq<WaitingListRecord>, now: int)
    requires WaitingListRepository.UniqueIds(before) && WaitingListRepository.UniqueIds(pending)
    requires 0 <= k < |pending| && pending[k] in before
    requires forall m :: 0 <= m < k ==> WaitingListRepository.Written(pending[m], NotifiedAt(pending[m], now)) in current
    requires forall x :: x in before && x !in pending[..k] ==> x in current
    requires WaitingListRepository.Written(pending[k], NotifiedAt(pending[k], now)) in after
    requires forall x :: x in current && x.id != pending[k].id ==> x in after
    ensures forall m :: 0 <= m < k + 1 ==> WaitingListRepository.Written(pending[m], NotifiedAt(pending[m], now)) in after
    ensures forall x :: x in before && x !in pending[..k + 1] ==> x in after
  {
    assert pending[..k + 1] == pending[..k] + [pending[k]];
    forall m | 0 <= m < k
      ensures WaitingListRepository.Written(pending[m], NotifiedAt(pending[m], now)) in after
    {
      assert pending[m].id != pending[k].id;
    }
    forall x | x in before && x !in pending[..k + 1] ensures x in after {
      DistinctRowsDistinctIds(before, x, pending[k]);
    }
  }

  /**
   * The scan of `processWaitingList` over the pending queue with the tickets
   * left as budget: entries are notified in queue order while they fit what
   * remains, and the scan stops at the first that does not.
   */
  method NotifyFitting(db: Database, pendingEntries: seq<WaitingListRecord>, availableTickets: int, now: int)
    returns (notifiedCount: nat)
    requires StoreOk(db) && WaitingListRepository.UniqueIds(pendingEntries)
    requires forall x :: x in pendingEntries ==> x in db.waitingList
    modifies db`waitingList
    ensures notifiedCount == NotifiedCount(pendingEntries, availableTickets)
    ensures StoreOk(db) && |db.waitingList| == |old(db.waitingList)|
    ensures forall m :: 0 <= m < notifiedCount ==>
              WaitingListRepository.Written(pendingEntries[m], NotifiedAt(pendingEntries[m], now)) in db.waitingList
    ensures forall x :: x in old(db.waitingList) && x !in pendingEntries[..notifiedCount] ==> x in db.waitingList
    ensures OnePendingPerUser(old(db.waitingList)) ==> OnePendingPerUser(db.waitingList)
  {
    ghost var before := db.waitingList;
    assert WaitingListRepository.UniqueIds(before);
    notifiedCount := 0;
    var remainingTickets := availableTickets;
    while notifiedCount < |pendingEntries|
      invariant 0 <= notifiedCount <= |pendingEntries|
      invariant NotifiedCount(pendingEntries, availableTickets)
             == notifiedCount + NotifiedCount(pendingEntries[notifiedCount..], remainingTickets)
      invariant StoreOk(db) && |db.waitingList| == |before|
      invariant OnePendingPerUser(before) ==> OnePendingPerUser(db.waitingList)
      invariant forall m :: 0 <= m < notifiedCount ==>
                  WaitingListRepository.Written(pendingEntries[m], NotifiedAt(pendingEntries[m], now)) in db.waitingList
      invariant forall x :: x in before && x !in pendingEntries[..notifiedCount] ==> x in db.waitingList
      decreases |pendingEntries| - notifiedCount
    {
      var stored := pendingEntries[notifiedCount];
      if remainingTickets < stored.numberOfTickets {
        break;
      }
      assert pendingEntries[notifiedCount..][1..] == pendingEntries[notifiedCount + 1..];
      assert stored in before;
      assert stored !in pendingEntries[..notifiedCount] by {
        forall m | 0 <= m < notifiedCount ensures pendingEntries[m] != stored {
          assert pendingEntries[m].id != stored.id;
        }
      }
      ghost var current := db.waitingList;
      NotifyEntry(db, stored, now);
      NotifyStepKeeps(before, pendingEntries, notifiedCount, current, db.waitingList, now);
      remainingTickets := remainingTickets - stored.numberOfTickets;
      notifiedCount := notifiedCount + 1;
    }
  }

  /**
   * `processWaitingList(eventId)`. With tickets left (total − active), the
   * event's pending entries are walked in queue order and notified while
   * they fit what remains; the scan stops at the first that does not. The
   * count notified is returned. With no tickets left, or no pending entry,
   * it returns 0 and changes nothing. Every error, a missing event
   * included, surfaces as a DatabaseError.
   */
  method ProcessWaitingList(db: Database, eventId: string, now: int) returns (r: Outcome<nat>)
    requires StoreOk(db)
    modifies db`waitingList
    ensures StoreOk(db)
    ensures !EventExists(db.events, eventId) ==>
      && r == Failure(NewDatabaseError("Failed to process waiting list", Some(NewNotFoundError("Event", eventId))))
      && db.waitingList == old(db.waitingList)
    ensures EventExists(db.events, eventId) ==>
      var available := EventRepository.FindById(db.events, eventId).value.totalTickets - Booked(db.bookings, eventId);
      var pending := WaitingListRepository.FindByEventId(old(db.waitingList), eventId, Some(Constants.WaitingListStatus.Pending));
      && r == Success(NotifiedCount(pending, available))
      && (available <= 0 || pending == [] ==> db.waitingList == old(db.waitingList))
      && |db.waitingList| == |old(db.waitingList)|
      && (forall m :: 0 <= m < r.value ==>
            WaitingListRepository.Written(pending[m], NotifiedAt(pending[m], now)) in db.waitingList)
      && (forall x :: x in old(db.waitingList) && x !in pending[..r.value] ==> x in db.waitingList)
    ensures OnePendingPerUser(old(db.waitingList)) ==> OnePendingPerUser(db.waitingList)
  {
    var i := EventRepository.IndexOf(db.events, eventId);
    if i < 0 {
      return Failure(NewDatabaseError("Failed to process waiting list", Some(NewNotFoundError("Event", eventId))));
    }
    var event := db.events[i];
    var totalBooked := Booked(db.bookings, eventId);
    var availableTickets := event.totalTickets - totalBooked;
    var pendingEntries := WaitingListRepository.FindByEventId(db.waitingList, eventId, Some(Constants.WaitingListStatus.Pending));
    if availableTickets <= 0 {
      forall k | 0 <= k < |pendingEntries| ensures WaitingListRepository.RowOk(pendingEntries[k]) {
        assert pendingEntries[k] in pendingEntries;
        var m :| 0 <= m < |db.waitingList| && db.waitingList[m] == pendingEntries[k];
      }
      NothingNotifiedWithoutTickets(pendingEntries, availableTickets);
      return Success(0);
    }
    if |pendingEntries| == 0 {
      return Success(0);
    }
    WaitingListRepository.FindByEventIdUnique(db.waitingList, eventId, Some(Constants.WaitingListStatus.Pending));
    var notifiedCount := NotifyFitting(db, pendingEntries, availableTickets, now);
    r := Success(notifiedCount);
  }

  // ---- cancelWaitingListEntry ----

  /** The entry after `cancelWaitingListEntry` marked it on the entity. */
  function CancelledAt(w: WaitingListRecord, now: int): (c: WaitingListRecord)
    ensures c.status == Constants.WaitingListStatus.Cancelled && !IsPending(c)
    ensures c == w.(status := c.status, updatedAt := now)
  {
    w.(status := Constants.WaitingListStatus.Cancelled, updatedAt := now)
  }

  /**
   * `cancelWaitingListEntry(id)`: a missing entry is a NotFoundError and an
   * already cancelled one a ConflictError; any other entry, a fulfilled one
   * included, is written as cancelled with its version bumped.
   */
  method CancelWaitingListEntry(db: Database, id: string, now: int) returns (r: Outcome<WaitingListRecord>)
    requires StoreOk(db)
    modifies db`waitingList
    ensures StoreOk(db)
    ensures r.Failure? ==> db.waitingList == old(db.waitingList)
    ensures var i := WaitingListRepository.IndexOf(old(db.waitingList), id);
      && (i < 0 ==> r == Failure(NewNotFoundError("Waiting list entry", id)))
      && (i >= 0 && old(db.waitingList)[i].status == Constants.WaitingListStatus.Cancelled ==>
            r == Failure(NewConflictError("Waiting list entry is already cancelled")))
      && (i >= 0 && old(db.waitingList)[i].status != Constants.WaitingListStatus.Cancelled ==>
            && r == Success(WaitingListRepository.Written(old(db.waitingList)[i], CancelledAt(old(db.waitingList)[i], now)))
            && db.waitingList == old(db.waitingList)[i := r.value])
    ensures OnePendingPerUser(old(db.waitingList)) ==> OnePendingPerUser(db.waitingList)
  {
    var outcome: Outcome<WaitingListRecord>;
    var i := WaitingListRepository.IndexOf(db.waitingList, id);
    if i < 0 {
      outcome := Failure(NewNotFoundError("Waiting list entry", id));
    } else if db.waitingList[i].status == Constants.WaitingListStatus.Cancelled {
      outcome := Failure(NewConflictError("Waiting list entry is already cancelled"));
    } else {
      var stored := db.waitingList[i];
      var entry := new WaitingList(AsData(stored), now);
      entry.status := Constants.WaitingListStatus.Cancelled;
      entry.updatedAt := now;
      assert entry.ToJSON() == CancelledAt(stored, now);
      WaitingListWriteKeepsSchema(db.events, db.bookings, db.waitingList, i, entry.ToJSON());
      if OnePendingPerUser(db.waitingList) {
        DemoteKeepsOnePending(db.waitingList, i, entry.ToJSON());
      }
      outcome := WaitingListRepository.Update(db, entry.ToJSON(), Some(entry.GetVersion()));
    }
    r := if outcome.Success? then outcome else Failure(RethrowOrWrap(outcome.error, AddPassThrough, "Failed to cancel waiting list entry"));
  }
}

=== FILE: wrappers.dfy ===
/** Absent-or-present values and success-or-failure outcomes. */
module Wrappers {

  /** `None` stands for JavaScript's `undefined`/`null` where a field may be missing. */
  datatype Option<T> = None | Some(value: T)
  {
    function GetOr(default: T): T
    {
      match this
      case None => default
      case Some(v) => v
    }
  }

  /** The outcome of an operation that either returns a value or throws. */
  datatype Result<T, E> = Success(value: T) | Failure(error: E)
}
